=== FILE: README.md ===
# Hair salon booking front end: a Dafny model of its logic

This project models the decision logic of a hair-salon booking web front end. That logic is spread over its components and store slices. Each piece is written as a pure Dafny function or a small state machine, and the project proves what the screens promise:

- **Cart and wizard.** The customer's cart, and the service cards that assemble a booking. The cart modal stamps schedules and a stylist onto every line. The scheduling wizard offers half-hour slots, refuses a slot twice on one day, computes end times and moves from service to service.
- **Pricing.** The two independent pricing and request builders, which are modelled separately and not reconciled:
  - the booking-details page;
  - the service card's appointment summary.
- **Registration.** The sign-up validators: phone, Gmail address, gender, and age of at least 18.
- **Store slices.** The bookings, feedback, schedule, user and stylist-schedule slices, each as a reducer. A generic lemma about runs of reducers turns "what does this field hold after any sequence of actions" into "the value written last".
- **List views.** The booking history tabs, the customer booking list and the booking cards. The staff tables for bookings, reports, services, users and schedules: their filters, sorts, paging, filler rows and dialogs.
- **Dashboard and navigation.** The stylist dashboard's tallies, the public service page, and the staff menu for each role.

Representation choices:

- Prices are natural numbers.
- Times of day are seconds since midnight, and calendar days are integers or (year, month, day) triples.
- "Today" and "now" are parameters.
- Server replies are inputs.
- Strings are `seq<char>`, lower-cased in ASCII.

Shared modules model what the code relies on from JavaScript:

- `Array.prototype.filter` and `slice`.
- `Math.ceil` page counts.
- Stable `sort` by an integer key.
- Grouping by `reduce` into a plain object, whose keys keep insertion order.
- `Array.from(new Set(...))`.
- `parseInt` and `Number` on digit strings.
- `'HH:mm:ss'` formatting with wrap-around at midnight.
- The truthiness of ids: `0`, `null` and `''` are false.

## Model

| member | source | states |
|---|---|---|
| CartSlice.Reduce | src/redux/slice/cartSlice.js:10-18 | Adding puts the item at the end and keeps all earlier items. Removing an index in range leaves exactly the items before and after it; removing an index out of range changes nothing. Clearing empties the cart. |
| CartSlice.AddThenRemoveRestores | src/redux/slice/cartSlice.js:10-15 | Adding an item and then removing the index equal to the old length gives back the original cart. |
| CartSlice.ClearIdempotent | src/redux/slice/cartSlice.js:16-18 | Clearing twice is the same as clearing once. |
| CartSlice.AddAll | src/redux/slice/cartSlice.js:10-12 | One add action per item, in order. |
| CartSlice.AddAllAppends | src/redux/slice/cartSlice.js:10-12 | Any run of adds appends exactly those items, in order, to the existing cart. |
| CartSlice.ClearThenAddAllSyncs | src/redux/slice/cartSlice.js:10-18 | Clearing and then adding a list leaves the cart equal to that list, whatever it held before. |
| ServiceCard.SelectService | src/components/Card/ServiceCard/ServiceCard.js:13-17 | Appends one line for the service, with no stylist ("any stylist"); the earlier lines are unchanged and the summary opens. |
| ServiceCard.EditStylist | src/components/Card/ServiceCard/ServiceCard.js:30-34 | Every line whose service id matches gets the stylist, duplicates included; every other line and the length are unchanged. |
| ServiceCard.DeleteService | src/components/Card/ServiceCard/ServiceCard.js:35-37 | Removes exactly the line at an index in range and keeps the order of the rest; an index out of range changes nothing. |
| ServiceCard.AddService | src/components/Card/ServiceCard/ServiceCard.js:19-22 | Closes the summary and leaves the booking lines alone. |
| ServiceCard.ProceedToCart | src/components/Card/ServiceCard/ServiceCard.js:24-28 | Closes the summary and hands the booking lines on unchanged. |
| ServiceCard.SelectThenDeleteRestores | src/components/Card/ServiceCard/ServiceCard.js:13-37 | Selecting a service and deleting the new last line restores the lines. |
| ServiceCard.EditStylistIdempotent | src/components/Card/ServiceCard/ServiceCard.js:30-34 | Repeating a stylist edit changes nothing more, and an edit never changes any line's service. |
| CartModal.HandleNext | src/components/Modal/CartModal/CartModal.js:51-57 | Keeps the length and order. Every line gets the same selected schedules and the stylist, or none for the empty choice; service data is kept. |
| CartModal.EnabledNextSchedulesEveryLine | src/components/Modal/CartModal/CartModal.js:98 | "Next" is enabled only with a schedule chosen, so every line it hands on carries a non-empty schedule list. |
| CartModal.HandleNextUniform | src/components/Modal/CartModal/CartModal.js:51-57 | After "Next" all lines agree on schedules and stylist, and pressing it again changes nothing. |
| SchedulePage.GenerateTimeSlots | src/components/Modal/CartModal/SchedulePage.js:29-38 | Slot i is start + 30 min·i, slots are strictly increasing and all before the end, the next slot would not be, and start ≥ end gives no slots. |
| SchedulePage.DefaultTimeSlots | src/components/Modal/CartModal/SchedulePage.js:29-38 | The defaults give 20 slots, from 10:00:00 to 19:30:00, half an hour apart. |
| SchedulePage.Start | src/components/Modal/CartModal/SchedulePage.js:45-54 | One unscheduled line per service, index 0, nothing recorded. |
| SchedulePage.SelectDate | src/components/Modal/CartModal/SchedulePage.js:66-70 | A day before today is ignored; any other day becomes the selected date. |
| SchedulePage.ChooseTime | src/components/Modal/CartModal/SchedulePage.js:73-77 | Without a date the date prompt opens; with one, the time dialog opens. |
| SchedulePage.SelectTime | src/components/Modal/CartModal/SchedulePage.js:72-91 | No date: prompt and no change to the time. A (date, time) already recorded: only the notice changes. Otherwise the time is set and the dialog closes. |
| SchedulePage.SelectStylist | src/components/Modal/CartModal/SchedulePage.js:93-95 | The stylist is kept exactly when the chosen id is truthy; nothing else changes. |
| SchedulePage.EndTime | src/components/Modal/CartModal/SchedulePage.js:103-104 | The end time is defined exactly when `parseInt(estimateTime)` is a number, and is then the start plus that many minutes, wrapping at midnight. |
| SchedulePage.NextService | src/components/Modal/CartModal/SchedulePage.js:96-134 | Without date and time only a notice. Otherwise the current service records date, time, end time and stylist; the wizard then advances and resets, or on the last service navigates. |
| SchedulePage.RunConsistent | src/components/Modal/CartModal/SchedulePage.js:96-134 | Over any sequence of clicks the index stays in range and the recorded picks match the lines they were written to. |
| SchedulePage.NavigatedMeansAllScheduled | src/components/Modal/CartModal/SchedulePage.js:122-133 | When the wizard navigates on, every service has a recorded appointment. |
| SchedulePage.DuplicateSlotAsWritten | src/components/Modal/CartModal/SchedulePage.js:72-120 | A concrete click sequence records two services in the same slot on the same day (Findings). |
| SchedulePage.NextServiceChecked | src/components/Modal/CartModal/SchedulePage.js:96-120 | "Next" refuses a slot another service holds, and otherwise behaves as written. |
| SchedulePage.RunCheckedKeepsDistinct | src/components/Modal/CartModal/SchedulePage.js:80-87 | With the check repeated on "Next", no run ever records two services in one slot on one day. |
| SchedulePage.StepCheckedConsistent | src/components/Modal/CartModal/SchedulePage.js:96-134 | The corrected step keeps the wizard's bookkeeping consistent. |
| DetailBooking.FromWizard | src/components/Modal/CartModal/SchedulePage.js:112-120 | The wizard's recorded lines become the details page's items one for one, carrying its service, date, start time, end time, stylist and (null) voucher. |
| DetailBooking.NumberOf | src/components/Modal/CartModal/DetailBooking.js:64 | `Number` on one part of the split: empty reads 0, a digit string its value, anything else no number. |
| DetailBooking.DurationOfHoursMinutes | src/components/Modal/CartModal/DetailBooking.js:64-65 | `'H:M'` gives h·60 + m minutes, and a plain `'M'` gives no number. |
| DetailBooking.WithEndTime | src/components/Modal/CartModal/DetailBooking.js:62-73 | Only the end time changes. It exists exactly when the duration reads as a number, and is then start + duration, wrapping at midnight. |
| DetailBooking.CalculateEndTime | src/components/Modal/CartModal/DetailBooking.js:62-74 | Every item gets its end time; the length is kept. |
| DetailBooking.VariantsDisagreeOnPlainMinutes | src/components/Modal/CartModal/DetailBooking.js:64-65 | On `"30"` the wizard's end time is 30 minutes later, while the details page has none: the two readings of `estimateTime` disagree. |
| DetailBooking.Open | src/components/Modal/CartModal/DetailBooking.js:41-76 | The opening total is the sum of prices, a missing price counting 0, with end times computed and no voucher chosen. |
| DetailBooking.VoucherChange | src/components/Modal/CartModal/DetailBooking.js:78-89 | Every item gets the voucher id. The total is the original sum minus the discount, floored at 0, never above the sum, and exactly the sum for an unknown voucher. |
| DetailBooking.LastVoucherWins | src/components/Modal/CartModal/DetailBooking.js:84-87 | Two voucher changes in a row equal the last one alone. |
| DetailBooking.ConfirmBooking | src/components/Modal/CartModal/DetailBooking.js:102-131 | Empty name or phone fails first; then a phone that is not 10 digits. Otherwise the request carries the items in order. Stylists are all listed or `[]` when none is truthy, and the voucher is null when none was chosen. |
| DetailBooking.RequestMatchesLines | src/components/Modal/CartModal/DetailBooking.js:119-131 | Entry j of each request array comes from item j. |
| FinalScheduleModal.TotalAppend | src/components/Card/ServiceCard/FinalScheduleModal.js:89-92 | The total over two lists of entries is the sum of their totals. |
| FinalScheduleModal.ApplyVoucherDiscount | src/components/Card/ServiceCard/FinalScheduleModal.js:94-100 | Never above the total. With no voucher found it is the total; otherwise the total minus the discount, floored at 0. |
| FinalScheduleModal.HandlePhoneChange | src/components/Card/ServiceCard/FinalScheduleModal.js:102-110 | All-digit input of at most 10 characters replaces the phone and clears the error; other input only sets the error. |
| FinalScheduleModal.TypingKeepsPhoneAcceptable | src/components/Card/ServiceCard/FinalScheduleModal.js:102-110 | However the customer types, the phone stays all digits and at most 10 long. |
| FinalScheduleModal.ValidPhoneIsTenDigits | src/components/Card/ServiceCard/FinalScheduleModal.js:142 | The validity test holds exactly for ten digits, and for typed input it reduces to the length being 10. |
| FinalScheduleModal.BookingPayload | src/components/Card/ServiceCard/FinalScheduleModal.js:112-121 | An invalid phone stops the booking. A signed-in session whose profile has not loaded throws before sending, since `user.fullName` is read. Otherwise the payload goes out. When signed in, name and phone come from the profile; otherwise from the form. The voucher is kept only when signed in. Service and stylist ids are one per entry, with `''` where missing. Schedule ids are the deduplicated flattening. |
| FinalScheduleModal.PayloadSchedulesInFirstOccurrenceOrder | src/components/Card/ServiceCard/FinalScheduleModal.js:118 | The schedule ids hold each chosen id once, in order of first occurrence. |
| FinalScheduleModal.EnabledConfirmSends | src/components/Card/ServiceCard/FinalScheduleModal.js:245 | When the Confirm button is enabled, a payload is sent exactly unless the session is signed in without a loaded profile. |
| RegisterPage.OldEnoughIffEighteenthBirthdayPassed | src/pages/RegisterPage.js:52-62 | The age test passes exactly when the 18th birthday, as (year, month, day), is on or before today. |
| RegisterPage.EighteenthBirthdayBoundary | src/pages/RegisterPage.js:55-61 | Turning 18 today passes; one day or one month short fails. |
| RegisterPage.GmailAddressShape | src/pages/RegisterPage.js:44-47 | A text ending in `@gmail.com` passes exactly when the part before it is non-empty and made of letters, digits and `._%+-`. |
| RegisterPage.GmailRejections | src/pages/RegisterPage.js:44-47 | Sample addresses: another domain, upper case, an empty local part and a second `@` all fail. |
| RegisterPage.ErrorsAmong | src/pages/RegisterPage.js:37-63 | Exactly the listed fields that fail, kept in the order they are listed. |
| RegisterPage.FieldErrors | src/pages/RegisterPage.js:37-63 | Lists exactly the fields whose rule fails: required fields, 10-digit phone, Gmail, gender `'0'`/`'1'`, age; they come in form order. |
| RegisterPage.Submit | src/pages/RegisterPage.js:37-73 | Submits exactly when no rule fails, otherwise reports the failing fields. On success the gender is converted to the number it spells and the other fields pass through. |
| BookingSlice.CreateBookingAsWritten | src/redux/slice/userBooking.js:6-24 | Succeeds exactly for status 1 with data and returns the data. Every refused reply ends with the network fallback text (Findings). |
| BookingSlice.CreateBookingLosesServerMessage | src/redux/slice/userBooking.js:12-22 | A refusal carrying the message "Slot is full" still reports the network fallback. |
| BookingSlice.CreateBooking | src/redux/slice/userBooking.js:12-22 | Same success rule. A refusal reports its own message or the structure fallback; a failed request reports the server message or the network fallback. |
| BookingSlice.CreateBookingKeepsServerMessage | src/redux/slice/userBooking.js:12-16 | A refusal with a non-empty message reports exactly that message. |
| BookingSlice.OrElse | src/redux/slice/userBooking.js:21 | A message that is missing or empty falls back. |
| BookingSlice.Reduce | src/redux/slice/userBooking.js:44-81 | Pending sets loading and clears the error. Create appends and history replaces. Rejections set the error and keep the bookings. Clearing empties the list and the error but leaves loading. |
| BookingSlice.RunLoading | src/redux/slice/userBooking.js:55-80 | After any run, loading is what the last action that touches it wrote. |
| BookingSlice.RunError | src/redux/slice/userBooking.js:47-80 | After any run, the error is the last rejection's reason unless a pending or clear came later. |
| BookingSlice.HistoryThenCreates | src/redux/slice/userBooking.js:59-76 | Loading the history and then creating bookings gives the history followed by the new bookings. |
| FeedbackSlice.FindIndex | src/redux/slice/feedbackSlice.js:78 | The first position with that id, or none exactly when no feedback has it. |
| FeedbackSlice.ReplaceFirst | src/redux/slice/feedbackSlice.js:76-82 | The length is kept. The first match is replaced by the payload; with no match the list is unchanged. |
| FeedbackSlice.ReplaceFirstOnlyFirst | src/redux/slice/feedbackSlice.js:78-81 | A later feedback with the same id keeps its old content. |
| FeedbackSlice.ReplaceFirstIdempotent | src/redux/slice/feedbackSlice.js:76-82 | Repeating an update changes nothing more. |
| FeedbackSlice.Reduce | src/redux/slice/feedbackSlice.js:59-105 | Pending sets only loading, and leaves the error. Create appends, update replaces the first match, and list replaces. Detail sets only the detail; rejection sets the error. |
| FeedbackSlice.RunError | src/redux/slice/feedbackSlice.js:62-86 | After any run, the error is the last rejection's reason, or the starting one. |
| FeedbackSlice.RunLoading | src/redux/slice/feedbackSlice.js:62-104 | After any run, loading holds exactly when the last action was pending. |
| FeedbackSlice.NoRejectionKeepsError | src/redux/slice/feedbackSlice.js:62-86 | A run without rejections leaves the error untouched, pending actions included. |
| ScheduleSlice.Initial | src/redux/slice/scheduleSlice.js:40-46 | Empty list, no selection, not loading, no error. |
| ScheduleSlice.Reduce | src/redux/slice/scheduleSlice.js:49-94 | Pending sets loading and clears the error. List load replaces and selection sets only the selection. Create appends; rejection sets the error and keeps the data. |
| ScheduleSlice.RunLoading | src/redux/slice/scheduleSlice.js:51-93 | After any run, loading holds exactly when the last action was pending. |
| ScheduleSlice.RunError | src/redux/slice/scheduleSlice.js:51-93 | After any run, the error is the last rejection's reason unless a pending came later. |
| ScheduleSlice.RunSelected | src/redux/slice/scheduleSlice.js:70-73 | The selected schedule is the last one loaded; no other action moves it. |
| ScheduleSlice.CreatedAmong | src/redux/slice/scheduleSlice.js:85-88 | The created schedules of a run, each one coming from a create action. |
| ScheduleSlice.ListAfterCreates | src/redux/slice/scheduleSlice.js:85-88 | Creates mixed with list-neutral actions leave the list followed by the created schedules, in order. |
| UserSlice.Initial | src/redux/slice/userSlice.js:15-19 | Idle, no users, no error. |
| UserSlice.Reduce | src/redux/slice/userSlice.js:26-40 | Pending: loading, with the error cleared. Fulfilled: succeeded, with users the reply's data or `[]`. Rejected: failed, with the payload or the "Something went wrong" text. |
| UserSlice.RunStatus | src/redux/slice/userSlice.js:28-39 | After any run, the status is the one the last action wrote. |
| UserSlice.RunCoherent | src/redux/slice/userSlice.js:15-39 | Along every admissible run the status is failed exactly when there is an error. |
| UserSlice.InitialCoherent | src/redux/slice/userSlice.js:15-19 | The initial state is coherent. |
| ScheUserSlice.Target | src/redux/slice/scheUserSlice.js:137-232 | Six calls write a field of their own, and assign and update write none. |
| ScheUserSlice.TargetInjective | src/redux/slice/scheUserSlice.js:137-209 | No two calls write the same field. |
| ScheUserSlice.Put | src/redux/slice/scheUserSlice.js:137-209 | Writing one data field leaves all other fields as they were. |
| ScheUserSlice.InitialEmpty | src/redux/slice/scheUserSlice.js:120-130 | Every data field starts empty. |
| ScheUserSlice.Reduce | src/redux/slice/scheUserSlice.js:131-237 | Pending sets loading and clears the error. Rejection sets the error. A fulfilment clears loading and writes only its own call's field, if any. |
| ScheUserSlice.RunData | src/redux/slice/scheUserSlice.js:137-232 | After any run, each data field holds the payload of its own call's last fulfilment. |
| ScheUserSlice.RunLoading | src/redux/slice/scheUserSlice.js:133-236 | After any run, loading holds exactly when the last action was pending. |
| ScheUserSlice.RunError | src/redux/slice/scheUserSlice.js:133-236 | After any run, the error is the last rejection's reason unless a pending came later. |
| ScheUserSlice.UpdateScheduleUser | src/redux/slice/scheUserSlice.js:93-115 | Resolves exactly when the reply body has status 1. Otherwise it rejects with the body as received, the error data, or the fallback. |
| ScheUserSlice.UpdateTouchesNoData | src/redux/slice/scheUserSlice.js:225-236 | An update changes no data field, whatever the reply; a refused one leaves the reply as the error. |
| BookingHistory.Upcoming | src/pages/UserProfile/Booking/BookingHistoryPage.js:28-30 | Exactly the bookings from now on whose status is neither Complete nor Cancel, in history order. |
| BookingHistory.Past | src/pages/UserProfile/Booking/BookingHistoryPage.js:31-33 | Exactly the bookings before now or with status Complete or Cancel, in history order. |
| BookingHistory.TabsPartition | src/pages/UserProfile/Booking/BookingHistoryPage.js:28-33 | Each booking is in exactly one tab, and together the tabs hold the history as a multiset. |
| BookingHistory.Shown | src/pages/UserProfile/Booking/BookingHistoryPage.js:41-46 | The page is exactly the active tab's bookings from position (p−1)·4 up to p·4, cut at the end of the list, in order; at most 4. |
| BookingHistory.Pages | src/pages/UserProfile/Booking/BookingHistoryPage.js:96-100 | The page count is ceil(n/4) for the active tab. |
| BookingHistory.PagesCoverTab | src/pages/UserProfile/Booking/BookingHistoryPage.js:41-100 | Reading pages 1 to the page count gives back the tab's list. |
| BookingHistory.ChangeTab | src/pages/UserProfile/Booking/BookingHistoryPage.js:52-55 | A tab change selects the tab and resets the page to 1. |
| BookingHistory.ChangePage | src/pages/UserProfile/Booking/BookingHistoryPage.js:48-50 | A page change moves only the page. |
| BookingHistory.TabChangeShowsFirstPage | src/pages/UserProfile/Booking/BookingHistoryPage.js:52-55 | After a tab change the first bookings of the new tab are shown. |
| UserBooking.Upcoming | src/pages/UserProfile/UserBooking.js:111-113 | Exactly the bookings from now on, whatever their status. |
| UserBooking.Past | src/pages/UserProfile/UserBooking.js:122-124 | Exactly the bookings before now. |
| UserBooking.TabsPartition | src/pages/UserProfile/UserBooking.js:111-131 | The two tabs are disjoint and together hold the history. |
| UserBooking.HistoryPageDropsFinished | src/pages/UserProfile/UserBooking.js:113 | The history page's upcoming tab is this tab with finished bookings removed. |
| UserBooking.Render | src/pages/UserProfile/UserBooking.js:109-131 | Tab 0 or 1 shows its notice exactly when its list is empty, and otherwise the list. Any other tab, or no history, shows nothing. |
| UserBooking.OpenMenu | src/pages/UserProfile/UserBooking.js:43-45 | Opening sets the anchor, so the menu is open. |
| UserBooking.CloseMenu | src/pages/UserProfile/UserBooking.js:47-49 | Closing clears the anchor, so the menu is closed. |
| UserBooking.OpenThenChooseCloses | src/pages/UserProfile/UserBooking.js:43-49 | Opening and then closing leaves the menu closed. |
| BookingCardView.StatusLabel | src/pages/UserProfile/Booking/BookingCardView.js:19-29 | Codes 0 to 6 get their names; any other code gets "Unknown Status". |
| BookingCardView.ChipColorOf | src/pages/UserProfile/Booking/BookingCardView.js:30-47 | Codes 1 to 6 get primary, info, warning, error, success, default; everything else gets secondary. |
| BookingCardView.ChipColorsDistinct | src/pages/UserProfile/Booking/BookingCardView.js:30-47 | Distinct codes 1 to 6 get distinct colours. |
| BookingCardView.LabelAndChipAgree | src/pages/UserProfile/Booking/BookingCardView.js:19-47 | A code has a name and a non-secondary colour together, except 0, which is named but secondary. |
| BookingCardView.Toggle | src/pages/UserProfile/Booking/BookingCardView.js:60-62 | Expanding sets that id and collapsing clears it. |
| BookingCardView.AtMostOneOpen | src/pages/UserProfile/Booking/BookingCardView.js:58-62 | At most one card is expanded at any time. |
| BookingCardView.Render | src/pages/UserProfile/Booking/BookingCardView.js:64-70 | A missing or empty list shows only "No bookings found."; otherwise there is one card per booking, in order. |
| BookingListTable.StatusCell | src/components/TableList/BookingList/BookingListTable.js:40-48 | Codes 0 to 6 get a label, which maps back to the code; other codes get none. |
| BookingListTable.FillerRows | src/components/TableList/BookingList/BookingListTable.js:57 | 0 on the first page, otherwise max(0, (1+page)·rows − n). |
| Paging.TableRows | src/components/TableList/BookingList/BookingListTable.js:129-132 | With a positive size, exactly the rows from page·size up to page·size + size, cut at the end of the list, in order. Otherwise, including "All", the whole list. |
| BookingListTable.AllShowsEverything | src/components/TableList/BookingList/BookingListTable.js:130-132 | "All" (−1) shows the whole list. |
| BookingListTable.PaddedPageIsFull | src/components/TableList/BookingList/BookingListTable.js:57-132 | On a later page starting inside the list, shown rows plus filler rows fill the page. |
| BookingListTable.ChangePage | src/components/TableList/BookingList/BookingListTable.js:59-61 | Only the page changes. |
| BookingListTable.ChangeRowsPerPage | src/components/TableList/BookingList/BookingListTable.js:63-66 | Sets the rows per page and resets the page to 0. |
| BookingListTable.ResizeShowsFirstRows | src/components/TableList/BookingList/BookingListTable.js:63-132 | After a resize the first rows of the list are shown. |
| BookingListTable.OpenCheckIn | src/components/TableList/BookingList/BookingListTable.js:84-87 | Remembers the booking and opens the dialog. |
| BookingListTable.CloseCheckIn | src/components/TableList/BookingList/BookingListTable.js:89-92 | Closes the dialog and forgets the booking. |
| BookingListTable.OpenReport | src/components/TableList/BookingList/BookingListTable.js:69-72 | Remembers the booking and opens the report form. |
| BookingListTable.CloseReport | src/components/TableList/BookingList/BookingListTable.js:74-77 | Closes the report form and forgets the booking. |
| BookingListTable.ReportCreated | src/components/TableList/BookingList/BookingListTable.js:79-81 | Closes the report form and keeps the booking. |
| BookingListTable.CheckInAsWritten | src/components/TableList/BookingList/BookingListTable.js:94-97 | The call always goes out with status 2, even without a chosen booking (Findings). |
| BookingListTable.CheckInWithoutIdAsWritten | src/components/TableList/BookingList/BookingListTable.js:84-97 | Opening the dialog for a booking without an id still sends a check-in, with no id. |
| BookingListTable.CheckIn | src/components/TableList/BookingList/BookingListTable.js:94-97 | Sends status 2 for the chosen booking exactly when its id is truthy. |
| BookingListTable.CheckInNamesTheChosenBooking | src/components/TableList/BookingList/BookingListTable.js:94-97 | With a truthy id it agrees with the code as written; without one nothing is sent. |
| ReportListTable.Rows | src/components/TableList/ReportList/ReportListTable.js:73-84 | Exactly the reports whose name and updater each contain their filter, ignoring case. They form the same multiset as the matches, sorted by id in the chosen direction. |
| ReportListTable.EmptyFiltersKeepAll | src/components/TableList/ReportList/ReportListTable.js:73-78 | Empty filters keep every report. |
| ReportListTable.HandleSort | src/components/TableList/ReportList/ReportListTable.js:69-71 | Flips the direction and nothing else. |
| ReportListTable.SortTwiceRestores | src/components/TableList/ReportList/ReportListTable.js:69-71 | Two clicks restore the direction. |
| ReportListTable.Filler | src/components/TableList/ReportList/ReportListTable.js:86 | The number of empty rows is max(0, (1+page)·rows − number of matches): never negative, and 0 when the size is not positive. |
| ReportListTable.Shown | src/components/TableList/ReportList/ReportListTable.js:187 | Exactly the sorted matches from page·rows up to page·rows + rows, cut at the end, in order; at most `rows`. |
| ReportListTable.ShownPlusFillerIsPage | src/components/TableList/ReportList/ReportListTable.js:86-187 | On a page starting inside the list, shown rows plus filler rows fill the page. |
| ReportListTable.ChangeRowsPerPage | src/components/TableList/ReportList/ReportListTable.js:92-95 | Sets the rows per page and resets the page to 0. |
| ReportListTable.SetFilters | src/components/TableList/ReportList/ReportListTable.js:73-78 | Sets only the filter texts. |
| ServiceListTable.HandleSort | src/components/TableList/ServiceList/ServiceListTable.js:70-75 | The same key flips the direction; a different key takes ascending. |
| ServiceListTable.SameHeaderTwiceRestores | src/components/TableList/ServiceList/ServiceListTable.js:70-75 | Two clicks on the current header restore the configuration. |
| ServiceListTable.Rows | src/components/TableList/ServiceList/ServiceListTable.js:77-86 | Exactly the services whose name contains the filter, ignoring case, sorted by id or price in the chosen direction. |
| ServiceListTable.OtherKeyKeepsOrder | src/components/TableList/ServiceList/ServiceListTable.js:79-86 | Any other key compares equal, so the filtered order is kept. |
| ServiceListTable.ShownAsWritten | src/components/TableList/ServiceList/ServiceListTable.js:147 | With a positive size, exactly the rows from page·size up to page·size + size, cut at the end. With "All" (−1), `slice(0, -1)`: the first page is every row but the last, and later pages are empty (Findings). |
| ServiceListTable.AllDropsLastServiceAsWritten | src/components/TableList/ServiceList/ServiceListTable.js:147-172 | With "All" chosen on a non-empty list, no page shows every row, and the first page is one row short. |
| ServiceListTable.Shown | src/components/TableList/ServiceList/ServiceListTable.js:147 | Corrected with the booking table's `rowsPerPage > 0` guard. A positive size shows exactly the rows from page·size up to page·size + size, cut at the end. "All" shows every row. |
| ServiceListTable.ShownAgreesForPositiveSizes | src/components/TableList/ServiceList/ServiceListTable.js:147-172 | The corrected page equals the page as written for every positive size, and differs from it on the first page of "All" for a non-empty list. |
| ServiceListTable.ChangeRowsPerPage | src/components/TableList/ServiceList/ServiceListTable.js:92-95 | Sets the rows per page and resets the page to 0. |
| ServiceListTable.ResizeShowsFirstRows | src/components/TableList/ServiceList/ServiceListTable.js:92-147 | After any resize the first page is shown: the first `size` rows for a positive size, and every row for "All". |
| ServiceListTable.OpenDetails | src/components/TableList/ServiceList/ServiceListTable.js:60-63 | Remembers the service and opens the dialog. |
| ServiceListTable.CloseDetails | src/components/TableList/ServiceList/ServiceListTable.js:65-68 | Closes the dialog and forgets the service. |
| ServiceListTable.StatusChipOf | src/components/TableList/ServiceList/ServiceListTable.js:47-49 | Active exactly for status 1. |
| UserListTable.Stylists | src/components/TableList/UserList/UserListTable.js:41-42 | Exactly the users with role 2, in order. |
| UserListTable.StylistBookings | src/components/TableList/UserList/UserListTable.js:133-140 | Exactly the bookings with a service served by the chosen stylist's user name, in order; none without a stylist. |
| UserListTable.TitleGrows | src/components/TableList/UserList/UserListTable.js:159-162 | Adding a booking to an event extends its title by `', '` and the id, as the incremental string does. |
| UserListTable.CalendarEvents | src/components/TableList/UserList/UserListTable.js:150-166 | Fails exactly when some booking has no first schedule. Otherwise the events are the calendar of the bookings: one event per distinct first-schedule day, holding exactly that day's bookings in input order and titled with their ids; no event is empty and none is for a day without a booking. |
| UserListTable.GroupsAreCalendar | src/components/TableList/UserList/UserListTable.js:150-166 | The events made one per group of the bookings by day form their calendar, including that every event holds a booking. |
| UserListTable.EventDaysAreBookingDays | src/components/TableList/UserList/UserListTable.js:150-166 | A day has an event if and only if some booking's first schedule falls on it. |
| UserListTable.EventsCoverBookings | src/components/TableList/UserList/UserListTable.js:150-166 | Every booking is in exactly one event; the event sizes add up to the number of bookings. |
| UserListTable.Sorted | src/components/TableList/UserList/UserListTable.js:168-175 | Exactly the bookings whose customer name contains the search, ignoring case, sorted by start date in the chosen direction. |
| UserListTable.SortDate | src/components/TableList/UserList/UserListTable.js:193-197 | Flips the direction. |
| UserListTable.CurrentPage | src/components/TableList/UserList/UserListTable.js:200-202 | Exactly the sorted bookings from (p−1)·5 up to p·5, cut at the end, in order; at most 5. |
| UserListTable.PagesCoverList | src/components/TableList/UserList/UserListTable.js:200-202 | Pages 1 to ceil(n/5) give back the sorted list. |
| UserListTable.ConfirmAssign | src/components/TableList/UserList/UserListTable.js:90-131 | A confirmation whose request has settled: the request goes out exactly when the first schedule id, the booking id and the stylist's user id are all present, with those values. Afterwards the selection is cleared, the dialog closed and loading off. |
| UserListTable.SendAssign | src/components/TableList/UserList/UserListTable.js:90-101 | A click up to the `await`. With valid data the request goes out, loading turns on and the booking stays chosen. With invalid data nothing is sent and the handler finishes at once, releasing the booking. |
| UserListTable.SettleAssign | src/components/TableList/UserList/UserListTable.js:127-129 | When the request settles, loading is off, the dialog closed and the booking released; the stylist stays chosen. |
| UserListTable.ChooseBooking | src/components/TableList/UserList/UserListTable.js:85-88 | Remembers the booking and opens the confirmation. |
| UserListTable.ConfirmTwiceSendsOnce | src/components/TableList/UserList/UserListTable.js:90-131 | Once the first request has settled, a second click on Confirm sends nothing. |
| UserListTable.ConfirmWhilePendingSendsAgain | src/components/TableList/UserList/UserListTable.js:90-101 | A second click while the first request is still pending sends the same request again: the booking is still chosen and nothing blocks the button. |
| UserListTable.CloseStylist | src/components/TableList/UserList/UserListTable.js:81-83 | Closing the stylist dialog forgets the stylist. |
| ScheduleListTable.Normalize | src/components/TableList/ScheduleList/SchedueListTable.js:16-19 | `YYYY-MM-DD`: the year, then month and day padded to two digits, separated by `-`. |
| ScheduleListTable.NormalizeInjective | src/components/TableList/ScheduleList/SchedueListTable.js:16-19 | Different dates give different texts. |
| ScheduleListTable.NormalizeNotInvalid | src/components/TableList/ScheduleList/SchedueListTable.js:16-32 | No valid date renders as the invalid-date text. |
| ScheduleListTable.OnDayIffSameDate | src/components/TableList/ScheduleList/SchedueListTable.js:28-32 | A booking matches a day exactly when it is dated that day. |
| ScheduleListTable.BookingsOn | src/components/TableList/ScheduleList/SchedueListTable.js:28-32 | Exactly the bookings dated that day, in order. |
| ScheduleListTable.TileStates | src/components/TableList/ScheduleList/SchedueListTable.js:71-81 | A tile is disabled exactly when it has no highlight, and exactly when no booking falls on its day. |
| ScheduleListTable.DateChange | src/components/TableList/ScheduleList/SchedueListTable.js:21-24 | Sets the date and clears the details. |
| Dashboard.Tally | src/pages/Stylist/Dashboard.js:28-60 | The result is a tally of the items: keys are distinct, each key is some item's key, every item's key has an entry, and each value is the weight of exactly the items with that key. |
| Dashboard.GroupsTally | src/pages/Stylist/Dashboard.js:28-60 | The entries made one per group of the items by key form their tally. |
| Dashboard.TallyTotal | src/pages/Stylist/Dashboard.js:28-60 | A tally's values add up to the total weight. |
| Dashboard.TallyCounts | src/pages/Stylist/Dashboard.js:28-39 | Counting one per element: each entry holds the number of elements with its key, and the counts add up to the length. |
| Dashboard.BookingStatusCounts | src/pages/Stylist/Dashboard.js:28-33 | A tally of the bookings by label (status 1 Active, anything else Inactive): no label without a booking, each booking's label present once, with the number of bookings carrying it. The counts add up to the number of bookings. |
| Dashboard.UserStatusCounts | src/pages/Stylist/Dashboard.js:35-39 | A tally of the users by label (1 Active, 2 Inactive, else Unknown): each label some user has appears once, no other label appears, and each holds the number of users carrying it. The counts add up to the number of users. |
| Dashboard.AllServices | src/pages/Stylist/Dashboard.js:42-43 | Every service of every booking that has a services array is included. |
| Dashboard.NoServicesContributeNothing | src/pages/Stylist/Dashboard.js:42 | A booking without a services array adds nothing. |
| Dashboard.PerServicePrices | src/pages/Stylist/Dashboard.js:41-48 | A tally of the services by name weighted by price; the per-name sums add up to the sum of all prices. |
| Dashboard.SetKey | src/pages/Stylist/Dashboard.js:51 | Writing a key replaces its value in place, or appends it when new; the key then holds the value. |
| Dashboard.ServicePricesAsWritten | src/pages/Stylist/Dashboard.js:41-51 | The `Total` key holds the sum of all prices (Findings). |
| Dashboard.ServiceNamedTotalAsWritten | src/pages/Stylist/Dashboard.js:41-51 | Services `Total` at 5 and `Cut` at 3 chart as `Total` 8 and `Cut` 3. |
| Dashboard.ServicePrices | src/pages/Stylist/Dashboard.js:41-51 | The per-service part is a tally by name: one entry per service name that occurs and no other, each that name's price sum. The total equals the sum of those entries and of all prices. |
| Dashboard.StylistCounts | src/pages/Stylist/Dashboard.js:53-60 | A tally of the services by stylist name: one entry per stylist that occurs and no other, each holding that stylist's number of services. The counts add up to the number of services. |
| Dashboard.Refresh | src/pages/Stylist/Dashboard.js:26-62 | With no bookings the charts stay as they were. Otherwise each of the four charts is recomputed as a tally of its items: bookings and users counted per label, prices summed per service name with the overall total, and services counted per stylist. Each chart has one entry per key that occurs and no other. |
| ServicePage.Initial | src/pages/ServicePage.js:9-14 | No services, no error, page 1. |
| ServicePage.ActiveServices | src/pages/ServicePage.js:26 | Exactly the services with status 1, in order. |
| ServicePage.Fetch | src/pages/ServicePage.js:16-38 | A reply with active services replaces the list and shows the current page. A reply without any only sets the "no active services" text. A failed request only sets the "failed to fetch" text. |
| ServicePage.ChangePage | src/pages/ServicePage.js:44-59 | Sets the page and, once there are services, shows that page of them. |
| ServicePage.RunConsistent | src/pages/ServicePage.js:16-59 | Over any replies and page changes, the cards shown are the current page of the list, and the list holds only active services. |
| ServicePage.InitialConsistent | src/pages/ServicePage.js:9-14 | The initial state is consistent. |
| ServicePage.Render | src/pages/ServicePage.js:66-80 | An error shows only its text; otherwise the page's cards and ceil(n/6) pages. |
| ServicePage.PagesShowCatalogue | src/pages/ServicePage.js:50-76 | Pages 1 to ceil(n/6) show every service once, in order. |
| AdminLayout.FilteredNavigation | src/layout/AdminLayout/index.js:126-137 | Always an ordered subsequence of the menu. A manager sees exactly dashboard, service and assign lists; a stylist exactly bookings, reports, services and schedules; any other role nothing. |
| AdminLayout.ManagerMenu | src/layout/AdminLayout/index.js:127-130 | The manager's menu is dashboard, service list, assign list, in that order. |
| AdminLayout.StylistMenu | src/layout/AdminLayout/index.js:131-134 | The stylist's menu is booking, report, service and schedule lists, in that order. |
| AdminLayout.MenusShareOnlyServiceList | src/layout/AdminLayout/index.js:126-137 | Only the service list is on both staff menus. |
| AdminLayout.Redirect | src/layout/AdminLayout/index.js:108-112 | Signed-out visitors go to `/login`, and only they do. |
| AdminLayout.Session | src/layout/AdminLayout/index.js:141-147 | The profile's name and e-mail, each falling back to its default when missing or empty. |
| AdminLayout.SessionNeverBlank | src/layout/AdminLayout/index.js:143-144 | The session card never shows an empty name or e-mail. |
| BookingStatus.NameOf | src/pages/UserProfile/Booking/BookingCardView.js:19-28 | Codes 0 to 6 have names, and code 2 is "Accepted". |
| BookingStatus.NameCodeRoundTrip | src/components/TableList/BookingList/BookingListTable.js:40-48 | Reading a code's name back gives the code. |
| BookingStatus.CodeNameRoundTrip | src/components/TableList/BookingList/BookingListTable.js:40-48 | Naming a name's code gives the name. |
| Catalog.FindVoucher | src/components/Modal/CartModal/DetailBooking.js:84 | The first voucher with that id, or none exactly when there is none. |
| Clock.Format | src/components/Modal/CartModal/SchedulePage.js:33-36 | `'HH:mm:ss'`: eight characters with colons at 2 and 5. |
| Clock.FormatParseRoundTrip | src/components/Modal/CartModal/SchedulePage.js:33-36 | Parsing a formatted time gives the time back. |
| Clock.FormatInjective | src/components/Modal/CartModal/SchedulePage.js:80-82 | Different times format differently, so comparing texts compares times. |
| Clock.AddMinutesWraps | src/components/Modal/CartModal/SchedulePage.js:104 | Adding minutes wraps at midnight. |
| Paging.JsSlice | src/pages/ServicePage.js:53 | `slice` with in-range bounds is the sub-sequence, never longer than asked, and empty past the end. |
| Paging.PageCount | src/pages/ServicePage.js:76 | ceil(n/size): enough pages for n items, and no empty page at the end. |
| Paging.Page | src/pages/ServicePage.js:50-55 | Page p is exactly the items from (p−1)·size up to p·size, cut at the end of the list, in order; at most `size`. |
| Paging.PageRows | src/components/TableList/ReportList/ReportListTable.js:187 | The unguarded 0-based slice: for a size that is not negative, exactly the rows from page·size up to page·size + size, cut at the end. |
| Paging.PageBeyondCount | src/pages/ServicePage.js:50-76 | Pages past the count are empty. |
| Paging.AllPagesReassemble | src/pages/ServicePage.js:50-76 | Pages 1 to the count give back the list. |
| Paging.FillerCompletesPage | src/components/TableList/ReportList/ReportListTable.js:86-187 | Shown rows plus filler rows fill a page that starts inside the list. |
| Sorting.SortBy | src/components/TableList/ReportList/ReportListTable.js:79-84 | The sorted list is a permutation of the input, ordered by key. |
| Sorting.SortStable | src/components/TableList/ServiceList/ServiceListTable.js:79-86 | Equal keys keep their input order. |
| Sorting.ConstantKeyKeepsOrder | src/components/TableList/ServiceList/ServiceListTable.js:85 | A comparator that always answers 0 keeps the order. |
| Grouping.GroupByIsGrouping | src/components/TableList/UserList/UserListTable.js:150-166 | Keys are distinct, each group is exactly its key's items in order and is never empty, every item's key has a group, and every key is some item's key. |
| Grouping.GroupByWeight | src/pages/Stylist/Dashboard.js:41-48 | Grouping loses no weight. |
| Common.Dedup | src/components/Card/ServiceCard/FinalScheduleModal.js:118 | Every element once, and nothing else. |
| Common.DedupKeepsFirstOccurrenceOrder | src/components/Card/ServiceCard/FinalScheduleModal.js:118 | The elements come in order of first occurrence. |
| Common.FilterSplits | src/pages/UserProfile/Booking/BookingHistoryPage.js:28-33 | A filter and its complement together hold the input, as a multiset. |
| Text.Includes | src/components/TableList/ReportList/ReportListTable.js:75-77 | `includes` holds exactly when the needle occurs somewhere. |
| Text.ParseIntPrefix | src/components/Modal/CartModal/SchedulePage.js:103 | `parseInt` reads a number exactly when the text starts with a digit. |
| Text.ParseIntPrefixOfRendered | src/components/Modal/CartModal/SchedulePage.js:103 | A number followed by non-digits reads back as that number. |
| Text.SplitJoin | src/components/Modal/CartModal/DetailBooking.js:64 | Joining the parts of a split with the separator gives the text back. |

## Left out

- Rendering, MUI components, dialogs' visual state, toasts, Lottie animations, calendars and charts: only the data they are given is modelled.
- Requests to the server, axios, cookies and thunk plumbing: replies are inputs (`Reply`, `UpdateReply`), and a thunk's outcome is the action it settles into.
- The one-second `setTimeout` delays, the order in which concurrent requests settle, and the awaited fetch loop: each reply is a separate step in whatever order it arrives.
- Floating-point prices and `toFixed(2)`: prices are natural numbers.
- dayjs, `Date` and time zones: dates are day numbers or (year, month, day) triples, and "today" and "now" are parameters.
- Invalid dates: the history tabs and the customer booking list assume every start date parses. A `NaN` date would put a booking in neither tab.
- The JavaScript `sort` comparator on a missing price yields `NaN`; the model treats a missing price as 0.
- UserListTable.CalendarEvents: groups by a day number standing in for the `YYYY-MM-DD` key that `toISOString` produces. A booking without a first schedule makes `toISOString` throw, and is modelled as the whole result failing.
- `parseInt` on leading whitespace or a sign, and `Number` on decimals or whitespace: only digit strings are read.
- Yup's `.email()` check: only the Gmail pattern, which is stricter, is modelled.
- Lower-casing beyond ASCII: `toLowerCase` on other letters is not modelled.
- Dashboard.Tally: object keys that look like array indices (a service named `"12"`) are listed first by JavaScript, ahead of the insertion order. The model keeps insertion order for every key.
- Dashboard: a missing price makes the JavaScript sum `NaN`; prices here are always present.
- Dashboard: `null` and `undefined` stylist names both become object keys in JavaScript; the model keys them as `None`.
- The session card's image, the branding and the theme of the staff layout are left out.
- The service card flow's summary dialog is modelled from its own logic; how the card passes its data to it is not part of this model.
- Store wiring, persistence and routing are not part of this model.
- Dashboard.Refresh: the price chart it builds is the corrected `ServicePrices`, which keeps `Total` apart from the per-service sums. The chart as written, where a service named `Total` is overwritten, is `ServicePricesAsWritten` (see Findings).
- ReportListTable.Shown: the page is stated for page sizes that are not negative; the table offers only 5, 10 and 25.
- UserListTable.StylistBookings: the source compares with loose `==`, so a selected user whose `userName` is `null` or `undefined` would match every service without a stylist. Here a user name is always a string.

## Findings

| source | as written | input that shows it | evidently intended | confidence | as-written member | corrected member |
|---|---|---|---|---|---|---|
| src/redux/slice/userBooking.js:12-22 | A refused reply throws an `Error` inside the same `try`. The `catch` reads only `error.response?.data?.message`, which that error lacks, so the server's message is replaced by the network text. | reply `{status: 0, message: "Slot is full"}` | The refusal reports the server's own message | high (not executed) | BookingSlice.CreateBookingAsWritten, BookingSlice.CreateBookingLosesServerMessage | BookingSlice.CreateBooking, BookingSlice.CreateBookingKeepsServerMessage |
| src/components/Modal/CartModal/SchedulePage.js:72-120 | The slot-conflict check runs only when a time is picked, so a date changed afterwards is never checked. | two services: day 5 at 10:00, then day 6 at 10:00, date switched back to day 5, Next | No two services are booked in the same slot on the same day | high (not executed) | SchedulePage.DuplicateSlotAsWritten | SchedulePage.NextServiceChecked, SchedulePage.RunCheckedKeepsDistinct |
| src/components/TableList/BookingList/BookingListTable.js:94-97 | The guard tests the state setter `setSelectedBookingId`, which is always truthy, instead of the selected id. | check-in dialog opened for a booking without an id | Check in only when a booking is selected | high (not executed) | BookingListTable.CheckInAsWritten, BookingListTable.CheckInWithoutIdAsWritten | BookingListTable.CheckIn, BookingListTable.CheckInNamesTheChosenBooking |
| src/pages/Stylist/Dashboard.js:41-51 | `Total` is written into the same object as the per-service sums, so a service named `Total` has its own sum overwritten. | services `Total` at 5 and `Cut` at 3 chart as `Total` 8, `Cut` 3 | The total kept apart from the per-service sums | medium (not executed) | Dashboard.ServicePricesAsWritten, Dashboard.ServiceNamedTotalAsWritten | Dashboard.ServicePrices |
| src/components/TableList/ServiceList/ServiceListTable.js:147 | The page slice has no `rowsPerPage > 0` guard, although the options offer "All" as −1 (line 172). "All" therefore shows `slice(0, -1)`. | "All" chosen on a list of three services: the first page shows two, and the later pages none | "All" shows every service, as the booking table does | high (not executed) | ServiceListTable.ShownAsWritten, ServiceListTable.AllDropsLastServiceAsWritten | ServiceListTable.Shown, ServiceListTable.ShownAgreesForPositiveSizes |

=== FILE: admin_layout.dfy ===
/** The staff layout's side navigation: six entries, of which a manager
    sees three and a stylist four, always in the fixed order. It also
    models where the layout sends a signed-out visitor and the session
    card's fallback texts. */
module AdminLayout {
  import opened Common

  /** The six sections of the staff area. */
  datatype Segment = Dashboard | BookingList | ReportList | ServiceList | ScheduleList | AssignList

  /** The `segment` text each section is addressed by. */
  function SegmentName(seg: Segment): string
  {
    match seg
    case Dashboard => "dashboard"
    case BookingList => "booking-list"
    case ReportList => "report-list"
    case ServiceList => "service-list"
    case ScheduleList => "schedule-list"
    case AssignList => "assign-list"
  }

  /** The entry's title in the menu. */
  function Title(seg: Segment): string
  {
    match seg
    case Dashboard => "Dashboard"
    case BookingList => "Booking List"
    case ReportList => "Report List"
    case ServiceList => "Service List"
    case ScheduleList => "Schedule List"
    case AssignList => "Schedule No Stylist  List"
  }

  /** A menu entry, named by its section; its segment text and title
      follow from it. */
  datatype NavItem = NavItem(segment: Segment)

  /** `NAVIGATION`, in display order. */
  const Navigation: seq<NavItem> := [
    NavItem(Dashboard), NavItem(BookingList), NavItem(ReportList),
    NavItem(ServiceList), NavItem(ScheduleList), NavItem(AssignList)
  ]

  predicate ForManager(seg: Segment)
  {
    seg == Dashboard || seg == AssignList || seg == ServiceList
  }

  predicate ForStylist(seg: Segment)
  {
    seg == BookingList || seg == ReportList || seg == ServiceList || seg == ScheduleList
  }

  function ManagerItem(item: NavItem): bool { ForManager(item.segment) }

  function StylistItem(item: NavItem): bool { ForStylist(item.segment) }

  /** `filteredNavigation` for the signed-in user's role; `None` when
      there is no user or the user has no role. */
  function FilteredNavigation(role: Option<string>): (r: seq<NavItem>)
    ensures IsSubsequence(r, Navigation)
    ensures role == Some("Manager") ==> forall item :: item in r <==> item in Navigation && ForManager(item.segment)
    ensures role == Some("Stylist") ==> forall item :: item in r <==> item in Navigation && ForStylist(item.segment)
    ensures role != Some("Manager") && role != Some("Stylist") ==> r == []
  {
    if role == Some("Manager") then
      FilterIsSubsequence(Navigation, ManagerItem);
      Filter(Navigation, ManagerItem)
    else if role == Some("Stylist") then
      FilterIsSubsequence(Navigation, StylistItem);
      Filter(Navigation, StylistItem)
    else []
  }

  /** One step of a filter over the menu from position `k` on. */
  lemma FilterFrom(k: nat, p: NavItem -> bool)
    requires k < |Navigation|
    ensures Filter(Navigation[k..], p) == (if p(Navigation[k]) then [Navigation[k]] else []) + Filter(Navigation[k + 1..], p)
  {
    var n := Navigation;
    assert n[k..] == [n[k]] + n[k + 1..];
    FilterCons(n[k], n[k + 1..], p);
  }

  /** A manager's menu: the dashboard, the service list and the list of
      schedules without a stylist, in that order. */
  lemma ManagerMenu()
    ensures FilteredNavigation(Some("Manager")) == [Navigation[0], Navigation[3], Navigation[5]]
  {
    var kept := [Navigation[0], Navigation[3], Navigation[5]];
    var at: seq<nat> := [0, 1, 1, 1, 2, 2, 3];
    assert Tracks(ManagerItem, kept, at) by {
      assert forall i :: 0 <= i < |Navigation| ==> ManagerItem(Navigation[i]) == (i == 0 || i == 3 || i == 5);
    }
    FilterSuffix(0, ManagerItem, kept, at);
    assert Navigation[0..] == Navigation && kept[0..] == kept;
  }

  /** A stylist's menu: bookings, reports, services and schedules, in that
      order. */
  lemma StylistMenu()
    ensures FilteredNavigation(Some("Stylist")) == [Navigation[1], Navigation[2], Navigation[3], Navigation[4]]
  {
    var kept := [Navigation[1], Navigation[2], Navigation[3], Navigation[4]];
    var at: seq<nat> := [0, 0, 1, 2, 3, 4, 4];
    assert Tracks(StylistItem, kept, at) by {
      assert forall i :: 0 <= i < |Navigation| ==> StylistItem(Navigation[i]) == (1 <= i <= 4);
    }
    FilterSuffix(0, StylistItem, kept, at);
    assert Navigation[0..] == Navigation && kept[0..] == kept;
  }

  /** `kept` lists the entries `p` keeps, in order, and `at[i]` counts
      those before position `i`. */
  predicate Tracks(p: NavItem -> bool, kept: seq<NavItem>, at: seq<nat>)
  {
    && |at| == |Navigation| + 1 && at[|Navigation|] == |kept|
    && forall i :: 0 <= i < |Navigation| ==>
      if p(Navigation[i]) then at[i] < |kept| && kept[at[i]] == Navigation[i] && at[i + 1] == at[i] + 1
      else at[i + 1] == at[i]
  }

  /** Filtering the menu from position `k` on gives the kept entries
      from the `at[k]`-th on. */
  lemma {:induction false} FilterSuffix(k: nat, p: NavItem -> bool, kept: seq<NavItem>, at: seq<nat>)
    requires k <= |Navigation| && Tracks(p, kept, at)
    ensures at[k] <= |kept|
    ensures Filter(Navigation[k..], p) == kept[at[k]..]
    decreases |Navigation| - k
  {
    if k == |Navigation| {
      assert Navigation[k..] == [];
    } else {
      FilterSuffix(k + 1, p, kept, at);
      FilterFrom(k, p);
      TracksAt(p, kept, at, k);
      if p(Navigation[k]) {
        assert kept[at[k]..] == [kept[at[k]]] + kept[at[k] + 1..];
      }
    }
  }

  /** What `Tracks` says about position `k`. */
  lemma TracksAt(p: NavItem -> bool, kept: seq<NavItem>, at: seq<nat>, k: nat)
    requires k < |Navigation| && Tracks(p, kept, at)
    ensures p(Navigation[k]) ==> at[k] < |kept| && kept[at[k]] == Navigation[k] && at[k + 1] == at[k] + 1
    ensures !p(Navigation[k]) ==> at[k + 1] == at[k]
  {
  }

  /** The two staff menus share only the service list. */
  lemma MenusShareOnlyServiceList(item: NavItem)
    requires item in FilteredNavigation(Some("Manager")) && item in FilteredNavigation(Some("Stylist"))
    ensures item.segment == ServiceList
  {
    assert ForManager(item.segment);
    assert ForStylist(item.segment);
  }

  /** Where the layout sends the visitor: to the sign-in page, replacing
      the history entry, whenever no one is signed in. */
  function Redirect(isAuthenticated: bool): (r: Option<string>)
    ensures r.Some? <==> !isAuthenticated
    ensures r.Some? ==> r.value == "/login"
  {
    if isAuthenticated then None else Some("/login")
  }

  datatype Profile = Profile(fullName: Option<string>, email: Option<string>)

  datatype SessionUser = SessionUser(name: string, email: string)

  const DefaultName: string := "Default Name"
  const DefaultEmail: string := "defaultemail@example.com"

  /** `profile?.fullName || 'Default Name'`: a missing or empty text
      falls back. */
  function OrDefault(text: Option<string>, fallback: string): (r: string)
    ensures text.Some? && text.value != "" ==> r == text.value
    ensures text.None? || text.value == "" ==> r == fallback
  {
    if text.Some? && text.value != "" then text.value else fallback
  }

  function Session(profile: Option<Profile>): (r: SessionUser)
    ensures profile.None? ==> r == SessionUser(DefaultName, DefaultEmail)
    ensures profile.Some? ==> r.name == OrDefault(profile.value.fullName, DefaultName)
    ensures profile.Some? ==> r.email == OrDefault(profile.value.email, DefaultEmail)
  {
    match profile
    case None => SessionUser(DefaultName, DefaultEmail)
    case Some(p) => SessionUser(OrDefault(p.fullName, DefaultName), OrDefault(p.email, DefaultEmail))
  }

  /** The session card never shows an empty name or e-mail. */
  lemma SessionNeverBlank(profile: Option<Profile>)
    ensures Session(profile).name != "" && Session(profile).email != ""
  {
  }
}

=== FILE: booking_card_view.dfy ===
/** The customer's booking cards: a status label and chip colour per
    booking, one expandable services panel per card, and the notice shown
    when there is nothing to list. */
module BookingCardView {
  import opened Common
  import BookingStatus
  import BookingHistory

  type Booking = BookingHistory.Booking

  const UnknownStatus: string := "Unknown Status"

  /** `getStatusLabel`: the status name, or `'Unknown Status'`. */
  function StatusLabel(status: int): (r: string)
    ensures 0 <= status <= 6 ==> Some(r) == BookingStatus.NameOf(status)
    ensures !(0 <= status <= 6) ==> r == UnknownStatus
  {
    BookingStatus.NameOf(status).GetOr(UnknownStatus)
  }

  datatype ChipColor = Primary | Info | Warning | Error | Success | Default | Secondary

  /** `getChipColor`. */
  function ChipColorOf(status: int): (r: ChipColor)
    ensures r == Secondary <==> !(1 <= status <= 6)
  {
    match status
    case 1 => Primary
    case 2 => Info
    case 3 => Warning
    case 4 => Error
    case 5 => Success
    case 6 => Default
    case _ => Secondary
  }

  /** Different known statuses get different chips. */
  lemma ChipColorsDistinct(a: int, b: int)
    requires 1 <= a <= 6 && 1 <= b <= 6 && a != b
    ensures ChipColorOf(a) != ChipColorOf(b)
  {
  }

  /** Label and chip agree on which statuses are known, except for 0:
      status 0 is labelled `None` but gets the fallback chip. */
  lemma LabelAndChipAgree(status: int)
    ensures StatusLabel(status) != UnknownStatus <==> (ChipColorOf(status) != Secondary || status == 0)
  {
    if 0 <= status <= 6 {
      assert BookingStatus.Names[status] != UnknownStatus;
    }
  }

  /** The open panel: `false` is `None`. */
  type Expanded = Option<int>

  /** `handleAccordionToggle(bookingId)(event, isExpanded)`. */
  function Toggle(expanded: Expanded, bookingId: int, isExpanded: bool): (r: Expanded)
    ensures isExpanded ==> r == Some(bookingId)
    ensures !isExpanded ==> r.None?
  {
    if isExpanded then Some(bookingId) else None
  }

  /** The panel of a card is open when the open id is the card's id. */
  predicate IsOpen(expanded: Expanded, b: Booking)
  {
    expanded == Some(b.bookingId)
  }

  /** Opening one card's panel closes every card with another id, so
      among cards with distinct ids at most one panel is open. */
  lemma AtMostOneOpen(expanded: Expanded, bookings: seq<Booking>, i: int, j: int)
    requires 0 <= i < j < |bookings| && bookings[i].bookingId != bookings[j].bookingId
    ensures !(IsOpen(expanded, bookings[i]) && IsOpen(expanded, bookings[j]))
  {
  }

  /** What is rendered. */
  datatype View = NoBookingsFound | Cards(cards: seq<Card>)

  datatype Card = Card(bookingId: int, statusLabel: string, color: ChipColor, panelOpen: bool)

  /** `bookings` is `None` when it is not an array. */
  function Render(bookings: Option<seq<Booking>>, expanded: Expanded): (r: View)
    ensures r == NoBookingsFound <==> bookings.None? || |bookings.value| == 0
    ensures r.Cards? ==> |r.cards| == |bookings.value|
    ensures r.Cards? ==> forall i :: 0 <= i < |r.cards| ==>
      && r.cards[i].bookingId == bookings.value[i].bookingId
      && r.cards[i].statusLabel == StatusLabel(bookings.value[i].status)
      && r.cards[i].color == ChipColorOf(bookings.value[i].status)
      && (r.cards[i].panelOpen <==> IsOpen(expanded, bookings.value[i]))
  {
    if bookings.None? || |bookings.value| == 0 then NoBookingsFound
    else Cards(Map(bookings.value, (b: Booking) =>
      Card(b.bookingId, StatusLabel(b.status), ChipColorOf(b.status), IsOpen(expanded, b))))
  }
}

=== FILE: booking_history.dfy ===
/** The customer's booking history page: the history split into an
    "Upcoming" and a "Past" tab, four bookings per page, and the page
    reset when the tab changes. The current time is a parameter; dates
    are instants on one integer scale. */
module BookingHistory {
  import opened Common
  import opened Paging
  import BookingStatus

  /** The fields of a booking the history views look at. */
  datatype Booking = Booking(bookingId: int, startDate: int, status: int)

  /** Completed or cancelled: `[5, 6].includes(status)`. */
  predicate Finished(b: Booking)
  {
    b.status == BookingStatus.Complete || b.status == BookingStatus.Cancel
  }

  predicate IsUpcoming(now: int, b: Booking)
  {
    b.startDate >= now && !Finished(b)
  }

  predicate IsPast(now: int, b: Booking)
  {
    b.startDate < now || Finished(b)
  }

  function Upcoming(history: seq<Booking>, now: int): (r: seq<Booking>)
    ensures forall b :: b in r <==> b in history && IsUpcoming(now, b)
    ensures IsSubsequence(r, history)
  {
    FilterIsSubsequence(history, b => IsUpcoming(now, b));
    Filter(history, b => IsUpcoming(now, b))
  }

  function Past(history: seq<Booking>, now: int): (r: seq<Booking>)
    ensures forall b :: b in r <==> b in history && IsPast(now, b)
    ensures IsSubsequence(r, history)
  {
    FilterIsSubsequence(history, b => IsPast(now, b));
    Filter(history, b => IsPast(now, b))
  }

  /** The two tabs split the history: every booking is in exactly one of
      them, and together they hold each booking as often as the history
      does. */
  lemma TabsPartition(history: seq<Booking>, now: int)
    ensures forall b :: b in history ==> (b in Upcoming(history, now) <==> b !in Past(history, now))
    ensures multiset(Upcoming(history, now)) + multiset(Past(history, now)) == multiset(history)
    ensures |Upcoming(history, now)| + |Past(history, now)| == |history|
  {
    FilterSplits(history, b => IsUpcoming(now, b), b => IsPast(now, b));
  }

  const PageSize: nat := 4

  /** The tab (0 is "Upcoming") and the page, counted from 1. */
  datatype View = View(tab: int, page: int)

  function Initial(): View { View(0, 1) }

  /** `tabValue === 0 ? upcomingBookings : pastBookings`. */
  function TabList(history: seq<Booking>, now: int, tab: int): seq<Booking>
  {
    if tab == 0 then Upcoming(history, now) else Past(history, now)
  }

  /** `paginateBookings(bookingsToShow, page, pageSize)`. */
  function Shown(history: seq<Booking>, now: int, v: View): (r: seq<Booking>)
    requires v.page >= 1
    ensures |r| <= PageSize
    ensures var l := TabList(history, now, v.tab);
      r == l[Min((v.page - 1) * PageSize, |l|)..Min(v.page * PageSize, |l|)]
  {
    var l := TabList(history, now, v.tab);
    Page(l, v.page, PageSize)
  }

  /** The number of pages offered for the active tab. */
  function Pages(history: seq<Booking>, now: int, v: View): (c: nat)
    ensures c * PageSize >= |TabList(history, now, v.tab)|
    ensures c > 0 ==> (c - 1) * PageSize < |TabList(history, now, v.tab)|
  {
    PageCount(|TabList(history, now, v.tab)|, PageSize)
  }

  /** Paging through the active tab from page 1 to the page count shows
      every booking of the tab once, in order. */
  lemma PagesCoverTab(history: seq<Booking>, now: int, tab: int)
    ensures PagesUpTo(TabList(history, now, tab), PageSize, Pages(history, now, View(tab, 1))) == TabList(history, now, tab)
  {
    AllPagesReassemble(TabList(history, now, tab), PageSize);
  }

  /** `handleTabChange`: a new tab always starts on its first page. */
  function ChangeTab(v: View, tab: int): (r: View)
    ensures r.tab == tab && r.page == 1
  {
    View(tab, 1)
  }

  /** `handlePageChange`. */
  function ChangePage(v: View, page: int): (r: View)
    ensures r.tab == v.tab && r.page == page
  {
    v.(page := page)
  }

  /** Bookings (and the page control) are shown when the current page is
      not empty; right after a tab change that is exactly when the tab
      has bookings, and the page holds its first four. */
  lemma TabChangeShowsFirstPage(history: seq<Booking>, now: int, v: View, tab: int)
    ensures var l := TabList(history, now, tab);
      && Shown(history, now, ChangeTab(v, tab)) == l[..Min(PageSize, |l|)]
      && (|Shown(history, now, ChangeTab(v, tab))| > 0 <==> |l| > 0)
  {
    var l := TabList(history, now, tab);
    assert Shown(history, now, View(tab, 1)) == Page(l, 1, PageSize);
    assert (1 - 1) * PageSize == 0;
  }
}

=== FILE: booking_list_table.dfy ===
/** The stylist's booking table: status names, pages of 5, 10, 25 or
    "All" rows with filler rows, and the check-in and report dialogs that
    both remember the chosen booking id. */
module BookingListTable {
  import opened Common
  import opened Paging
  import BookingStatus

  /** The rows-per-page value of the "All" option. */
  const AllRows: int := -1

  /** `statusMapping[booking.status]`; unknown codes show nothing. */
  function StatusCell(status: int): (r: Option<string>)
    ensures r.Some? <==> 0 <= status <= 6
    ensures r.Some? ==> BookingStatus.CodeOf(r.value) == Some(status)
  {
    if 0 <= status <= 6 then
      BookingStatus.NameCodeRoundTrip(status);
      BookingStatus.NameOf(status)
    else None
  }

  /** `page > 0 ? Math.max(0, (1 + page) * rowsPerPage - n) : 0`. */
  function FillerRows(page: int, rowsPerPage: int, n: nat): (r: nat)
    ensures page <= 0 ==> r == 0
    ensures page > 0 ==> r == EmptyRows(page, rowsPerPage, n)
    ensures rowsPerPage <= 0 ==> r == 0
  {
    if page > 0 then
      assert rowsPerPage <= 0 ==> (1 + page) * rowsPerPage <= 0;
      Max(0, (1 + page) * rowsPerPage - n)
    else 0
  }

  /** With "All" selected the table shows every booking and no filler. */
  lemma AllShowsEverything<T>(list: seq<T>, page: nat)
    ensures TableRows(list, page, AllRows) == list
    ensures FillerRows(page, AllRows, |list|) == 0
  {
  }

  /** A page with a positive size that starts inside the list, padded
      with its filler rows, is exactly one page tall. */
  lemma PaddedPageIsFull<T>(list: seq<T>, page: nat, rowsPerPage: nat)
    requires page > 0 && rowsPerPage > 0 && page * rowsPerPage <= |list|
    ensures |TableRows(list, page, rowsPerPage)| + FillerRows(page, rowsPerPage, |list|) == rowsPerPage
  {
    FillerCompletesPage(list, page, rowsPerPage);
    assert (page + 1 - 1) * rowsPerPage == page * rowsPerPage;
  }

  /** The table's state. */
  datatype Table = Table(
    page: nat,
    rowsPerPage: int,
    selectedBookingId: Option<int>,
    reportOpen: bool,
    dialogOpen: bool)

  function Initial(): Table { Table(0, 5, None, false, false) }

  function ChangePage(t: Table, page: nat): (r: Table)
    ensures r.page == page && r.rowsPerPage == t.rowsPerPage
  {
    t.(page := page)
  }

  /** `handleChangeRowsPerPage`: the new size, back to the first page. */
  function ChangeRowsPerPage(t: Table, rowsPerPage: int): (r: Table)
    ensures r.rowsPerPage == rowsPerPage && r.page == 0
    ensures r.selectedBookingId == t.selectedBookingId && r.dialogOpen == t.dialogOpen
  {
    t.(rowsPerPage := rowsPerPage, page := 0)
  }

  /** Right after a change of page size the filler is zero and the
      first rows of the list are shown. */
  lemma ResizeShowsFirstRows<T>(list: seq<T>, t: Table, rowsPerPage: int)
    ensures var r := ChangeRowsPerPage(t, rowsPerPage);
      && FillerRows(r.page, r.rowsPerPage, |list|) == 0
      && (rowsPerPage > 0 ==> TableRows(list, r.page, r.rowsPerPage) == list[..Min(rowsPerPage, |list|)])
  {
  }

  /** `handleOpenDialog(bookingId)` from a row's check-in button. The id
      is `None` for a row whose booking has no id. */
  function OpenCheckIn(t: Table, bookingId: Option<int>): (r: Table)
    ensures r.dialogOpen && r.selectedBookingId == bookingId
  {
    t.(selectedBookingId := bookingId, dialogOpen := true)
  }

  /** `handleCloseDialog`. */
  function CloseCheckIn(t: Table): (r: Table)
    ensures !r.dialogOpen && r.selectedBookingId.None?
  {
    t.(dialogOpen := false, selectedBookingId := None)
  }

  function OpenReport(t: Table, bookingId: Option<int>): (r: Table)
    ensures r.reportOpen && r.selectedBookingId == bookingId
  {
    t.(selectedBookingId := bookingId, reportOpen := true)
  }

  function CloseReport(t: Table): (r: Table)
    ensures !r.reportOpen && r.selectedBookingId.None?
  {
    t.(reportOpen := false, selectedBookingId := None)
  }

  /** After a report is created the modal closes; the chosen id stays. */
  function ReportCreated(t: Table): (r: Table)
    ensures !r.reportOpen && r.selectedBookingId == t.selectedBookingId
  {
    t.(reportOpen := false)
  }

  /** The check-in call: `checkIn(bookingId, status)`. */
  datatype CheckInCall = CheckInCall(bookingId: Option<int>, status: int)

  /** `handleCheckIn` as written: the guard tests the state setter, a
      function and so always truthy, instead of the chosen id; the call
      goes out whatever the id is. */
  function CheckInAsWritten(t: Table): (r: Option<CheckInCall>)
    ensures r == Some(CheckInCall(t.selectedBookingId, BookingStatus.Accepted))
  {
    Some(CheckInCall(t.selectedBookingId, BookingStatus.Accepted))
  }

  /** Confirming check-in for a row without a booking id sends a
      check-in with no id. */
  lemma CheckInWithoutIdAsWritten()
    ensures var t := OpenCheckIn(Initial(), None);
      t.dialogOpen && CheckInAsWritten(t) == Some(CheckInCall(None, 2))
  {
  }

  /** `handleCheckIn` with the guard testing the chosen id, as the
      report dialog's `handleRemoveReport` does with its own id. */
  function CheckIn(t: Table): (r: Option<CheckInCall>)
    ensures r.Some? <==> TruthyId(t.selectedBookingId).Some?
    ensures r.Some? ==> r.value.bookingId == t.selectedBookingId && r.value.status == BookingStatus.Accepted
  {
    if TruthyId(t.selectedBookingId).Some? then Some(CheckInCall(t.selectedBookingId, BookingStatus.Accepted))
    else None
  }

  /** With the corrected guard a check-in call always names a booking,
      which is the one whose button opened the dialog; it agrees with
      the code as written whenever an id was chosen. */
  lemma CheckInNamesTheChosenBooking(t: Table, bookingId: Option<int>)
    ensures var call := CheckIn(OpenCheckIn(t, bookingId));
      && (call.Some? ==> call.value.bookingId.Some? && call.value.bookingId == bookingId)
      && (TruthyId(bookingId).Some? ==> call == CheckInAsWritten(OpenCheckIn(t, bookingId)))
      && (bookingId.None? ==> call.None?)
  {
  }
}

=== FILE: booking_slice.dfy ===
/** The customer bookings slice: the `createBooking` call's reading of the
    server's reply, and the reducers for creating a booking, loading the
    booking history and clearing the list. */
module BookingSlice {
  import opened Common
  import opened SliceTrace

  /** The server's reply body: `{ status, data, message }`. */
  datatype Envelope<B> = Envelope(status: int, data: Option<B>, message: string)

  /** How the request ended: a reply (whose body may be missing), or a
      failed request, carrying `error.response?.data?.message`. */
  datatype Reply<B> =
    | Responded(body: Option<Envelope<B>>)
    | RequestFailed(serverMessage: Option<string>)

  const NetworkFallback: string := "Failed to create booking due to a network or server error."
  const StructureFallback: string := "Booking creation failed due to an unexpected response structure."

  /** `status === 1` with the booking present. */
  predicate Accepted<B>(reply: Reply<B>)
  {
    reply.Responded? && reply.body.Some? && reply.body.value.status == 1 && reply.body.value.data.Some?
  }

  /** `message || fallback`. */
  function OrElse(message: Option<string>, fallback: string): (r: string)
    ensures message.Some? && |message.value| > 0 ==> r == message.value
    ensures !(message.Some? && |message.value| > 0) ==> r == fallback
  {
    if message.Some? && |message.value| > 0 then message.value else fallback
  }

  /** `createBooking` as written. The error thrown for a refused reply is
      caught by the same `try`, and the `catch` reads only
      `error.response?.data?.message`, which such an error does not have:
      every refused reply ends with the network fallback text. */
  function CreateBookingAsWritten<B>(reply: Reply<B>): (r: Result<B, string>)
    ensures r.Ok? <==> Accepted(reply)
    ensures r.Ok? ==> r.value == reply.body.value.data.value
    ensures r.Err? && reply.Responded? ==> r.error == NetworkFallback
    ensures reply.RequestFailed? ==> r == Err(OrElse(reply.serverMessage, NetworkFallback))
  {
    if Accepted(reply) then Ok(reply.body.value.data.value)
    else if reply.Responded? then Err(NetworkFallback)
    else Err(OrElse(reply.serverMessage, NetworkFallback))
  }

  /** A refusal with a message of its own, e.g. `"Slot is full"`, still
      reaches the page as the network text. */
  lemma CreateBookingLosesServerMessage()
    ensures CreateBookingAsWritten<int>(Responded(Some(Envelope(0, None, "Slot is full"))))
         == Err(NetworkFallback)
    ensures NetworkFallback != "Slot is full"
  {
    assert |NetworkFallback| != |"Slot is full"|;
  }

  /** `createBooking` with the refusal's own message kept: the envelope's
      `message`, or the structure text when it has none. */
  function CreateBooking<B>(reply: Reply<B>): (r: Result<B, string>)
    ensures r.Ok? <==> Accepted(reply)
    ensures r.Ok? ==> r.value == reply.body.value.data.value
    ensures !Accepted(reply) && reply.Responded? && reply.body.Some? ==>
      r == Err(OrElse(Some(reply.body.value.message), StructureFallback))
    ensures reply.Responded? && reply.body.None? ==> r == Err(StructureFallback)
    ensures reply.RequestFailed? ==> r == CreateBookingAsWritten(reply)
  {
    if Accepted(reply) then Ok(reply.body.value.data.value)
    else if reply.Responded? then
      match reply.body
      case Some(env) => Err(OrElse(Some(env.message), StructureFallback))
      case None => Err(StructureFallback)
    else Err(OrElse(reply.serverMessage, NetworkFallback))
  }

  /** With the message kept, a refusal with a message reports exactly that
      message; the two versions agree on every accepted reply and every
      failed request. */
  lemma CreateBookingKeepsServerMessage<B>(status: int, data: Option<B>, message: string)
    requires !(status == 1 && data.Some?) && |message| > 0
    ensures CreateBooking(Responded(Some(Envelope(status, data, message)))) == Err(message)
  {
  }

  datatype BookingState<B, E> = BookingState(bookings: seq<B>, isLoading: bool, error: Option<E>)

  function Initial<B, E>(): BookingState<B, E>
  {
    BookingState([], false, None)
  }

  datatype BookingAction<B, E> =
    | CreatePending
    | CreateFulfilled(booking: B)
    | CreateRejected(reason: E)
    | HistoryPending
    | HistoryFulfilled(history: seq<B>)
    | HistoryRejected(reason: E)
    | ClearBookings

  /** The slice's reducer. */
  function Reduce<B, E>(s: BookingState<B, E>, a: BookingAction<B, E>): (r: BookingState<B, E>)
    ensures (a.CreatePending? || a.HistoryPending?) ==> r == s.(isLoading := true, error := None)
    ensures a.CreateFulfilled? ==> r == s.(isLoading := false, bookings := s.bookings + [a.booking])
    ensures a.HistoryFulfilled? ==> r == s.(isLoading := false, bookings := a.history)
    ensures (a.CreateRejected? || a.HistoryRejected?) ==>
      r == s.(isLoading := false, error := Some(a.reason))
    ensures a.ClearBookings? ==> r == s.(bookings := [], error := None)
  {
    match a
    case CreatePending => s.(isLoading := true, error := None)
    case HistoryPending => s.(isLoading := true, error := None)
    case CreateFulfilled(b) => s.(isLoading := false, bookings := s.bookings + [b])
    case HistoryFulfilled(h) => s.(isLoading := false, bookings := h)
    case CreateRejected(e) => s.(isLoading := false, error := Some(e))
    case HistoryRejected(e) => s.(isLoading := false, error := Some(e))
    case ClearBookings => s.(bookings := [], error := None)
  }

  /** What an action writes to `isLoading`. */
  function LoadingWrite<B, E>(a: BookingAction<B, E>): Option<bool>
  {
    match a
    case CreatePending => Some(true)
    case HistoryPending => Some(true)
    case ClearBookings => None
    case _ => Some(false)
  }

  /** What an action writes to `error`. */
  function ErrorWrite<B, E>(a: BookingAction<B, E>): Option<Option<E>>
  {
    match a
    case CreateRejected(e) => Some(Some(e))
    case HistoryRejected(e) => Some(Some(e))
    case CreateFulfilled(_) => None
    case HistoryFulfilled(_) => None
    case _ => Some(None)
  }

  /** After any sequence of actions the slice is loading exactly when the
      last action that touched the flag was a pending one. */
  lemma RunLoading<B(!new), E(!new)>(s: BookingState<B, E>, acts: seq<BookingAction<B, E>>)
    ensures Run(s, acts, Reduce).isLoading == LastWrite(s.isLoading, Map(acts, LoadingWrite))
  {
    RunField(s, acts, Reduce, (st: BookingState<B, E>) => st.isLoading, LoadingWrite);
  }

  /** The error is the reason of the last rejection, unless a pending
      action or `clearBookings` came after it. */
  lemma RunError<B(!new), E(!new)>(s: BookingState<B, E>, acts: seq<BookingAction<B, E>>)
    ensures Run(s, acts, Reduce).error == LastWrite(s.error, Map(acts, ErrorWrite))
  {
    RunField(s, acts, Reduce, (st: BookingState<B, E>) => st.error, ErrorWrite);
  }

  function Created<B, E>(bs: seq<B>): (r: seq<BookingAction<B, E>>)
    ensures |r| == |bs|
    ensures forall i :: 0 <= i < |bs| ==> r[i] == CreateFulfilled(bs[i])
  {
    Map(bs, (b: B) => CreateFulfilled(b))
  }

  /** Loading the history and then creating bookings gives the history
      followed by the new bookings, in order. */
  lemma {:induction false} HistoryThenCreates<B, E>(s: BookingState<B, E>, history: seq<B>, bs: seq<B>)
    ensures Run(s, [HistoryFulfilled(history)] + Created<B, E>(bs), Reduce).bookings == history + bs
  {
    var acts := [HistoryFulfilled(history)] + Created<B, E>(bs);
    assert acts[1..] == Created<B, E>(bs);
    CreatesAppend(Reduce(s, HistoryFulfilled(history)), bs);
  }

  lemma {:induction false} CreatesAppend<B, E>(s: BookingState<B, E>, bs: seq<B>)
    ensures Run(s, Created<B, E>(bs), Reduce).bookings == s.bookings + bs
    decreases |bs|
  {
    if |bs| == 0 {
      assert s.bookings + bs == s.bookings;
    } else {
      var acts := Created<B, E>(bs);
      assert acts[1..] == Created<B, E>(bs[1..]);
      CreatesAppend(Reduce(s, acts[0]), bs[1..]);
      assert s.bookings + [bs[0]] + bs[1..] == s.bookings + bs;
    }
  }
}

=== FILE: booking_status.dfy ===
/** The booking status codes 0..6 and their names. Both the customer's
    booking cards and the staff booking table display the same table of
    names; each component decides what an unknown code shows. */
module BookingStatus {
  import opened Common

  const Names: seq<string> := ["None", "InQueue", "Accepted", "InProgress", "Delay", "Complete", "Cancel"]

  /** Status set by a stylist's check-in. */
  const Accepted: int := 2
  /** Statuses that put a booking into the "past" tab. */
  const Complete: int := 5
  const Cancel: int := 6

  /** `BookingStatus[code]` / `statusMapping[code]`: a name for 0..6 only. */
  function NameOf(code: int): (r: Option<string>)
    ensures r.Some? <==> 0 <= code <= 6
    ensures code == Accepted ==> r == Some("Accepted")
  {
    if 0 <= code < |Names| then Some(Names[code]) else None
  }

  /** The position of `name` in `names` at or after `from`. */
  function IndexFrom(names: seq<string>, name: string, from: nat): (r: Option<int>)
    requires from <= |names|
    ensures r.Some? ==> from <= r.value < |names| && names[r.value] == name
    ensures r.Some? ==> forall j :: from <= j < r.value ==> names[j] != name
    ensures r.None? ==> forall j :: from <= j < |names| ==> names[j] != name
    decreases |names| - from
  {
    if from == |names| then None
    else if names[from] == name then Some(from)
    else IndexFrom(names, name, from + 1)
  }

  /** The code a status name stands for, if any. */
  function CodeOf(name: string): Option<int>
  {
    IndexFrom(Names, name, 0)
  }

  /** Names are distinct, so reading a status code's name back gives the
      code, and every name that reads back came from its code. */
  lemma NameCodeRoundTrip(code: int)
    requires 0 <= code <= 6
    ensures CodeOf(NameOf(code).value) == Some(code)
  {
    assert forall i, j :: 0 <= i < j < |Names| ==> Names[i] != Names[j];
  }

  lemma CodeNameRoundTrip(name: string)
    requires CodeOf(name).Some?
    ensures NameOf(CodeOf(name).value) == Some(name)
  {
  }
}

=== FILE: cart_modal.dfy ===
/** The cart modal: one multi-select of schedules and one stylist
    select, stamped onto every line of the booking on "Next". */
module CartModal {
  import opened Common
  import opened Catalog

  /** `handleNext`: every line gets the selected schedules and the
      selected stylist; the empty selection `''` becomes `null`, which is
      `None` here. */
  function HandleNext(data: seq<BookingLine>, selectedSchedules: seq<int>, selectedStylist: Option<Stylist>)
    : (r: seq<BookingLine>)
    ensures |r| == |data|
    ensures forall i :: 0 <= i < |data| ==>
      r[i].service == data[i].service
      && r[i].schedules == Some(selectedSchedules)
      && r[i].stylist == selectedStylist
  {
    Map(data, (item: BookingLine) => item.(schedules := Some(selectedSchedules), stylist := selectedStylist))
  }

  /** The "Next" button is enabled only once a schedule is selected. */
  predicate NextEnabled(selectedSchedules: seq<int>)
  {
    |selectedSchedules| > 0
  }

  /** "Next" can only be pressed with a schedule chosen, so every line
      it hands on carries a non-empty list of schedules. */
  lemma EnabledNextSchedulesEveryLine(data: seq<BookingLine>, sel: seq<int>, stylist: Option<Stylist>)
    requires NextEnabled(sel)
    ensures forall i :: 0 <= i < |data| ==>
      HandleNext(data, sel, stylist)[i].schedules.Some? && |HandleNext(data, sel, stylist)[i].schedules.value| > 0
  {
  }

  /** After "Next" all lines agree on schedules and stylist, and pressing
      it again with the same selection changes nothing. */
  lemma HandleNextUniform(data: seq<BookingLine>, sel: seq<int>, stylist: Option<Stylist>)
    ensures forall i, j :: 0 <= i < j < |data| ==>
      HandleNext(data, sel, stylist)[i].schedules == HandleNext(data, sel, stylist)[j].schedules
    ensures HandleNext(HandleNext(data, sel, stylist), sel, stylist) == HandleNext(data, sel, stylist)
  {
  }
}

=== FILE: cart_slice.dfy ===
/** The `cart` store slice: a list of selected services, appended to,
    removed from by index and cleared. Items are whatever the caller puts
    in the cart, so the slice is generic in the item type. */
module CartSlice {
  import opened Common
  import opened SliceTrace

  datatype CartState<T> = CartState(items: seq<T>)

  datatype CartAction<T> =
    | AddServiceToCart(payload: T)
    | RemoveServiceFromCart(index: int)
    | ClearCart

  function Initial<T>(): CartState<T> { CartState([]) }

  /** The slice reducer. */
  function Reduce<T>(s: CartState<T>, a: CartAction<T>): (r: CartState<T>)
    ensures a.AddServiceToCart? ==>
      (|r.items| == |s.items| + 1 && r.items[..|s.items|] == s.items && r.items[|s.items|] == a.payload)
    ensures a.RemoveServiceFromCart? && 0 <= a.index < |s.items| ==>
      (&& |r.items| == |s.items| - 1
       && (forall j :: 0 <= j < a.index ==> r.items[j] == s.items[j])
       && (forall j :: a.index <= j < |r.items| ==> r.items[j] == s.items[j + 1]))
    ensures a.RemoveServiceFromCart? && !(0 <= a.index < |s.items|) ==> r == s
    ensures a.ClearCart? ==> r.items == []
  {
    match a
    case AddServiceToCart(item) => CartState(s.items + [item])
    case RemoveServiceFromCart(i) => CartState(RemoveIndex(s.items, i))
    case ClearCart => CartState([])
  }

  /** Adding an item and then removing the index it landed on gives the
      cart back unchanged. */
  lemma AddThenRemoveRestores<T>(s: CartState<T>, item: T)
    ensures Reduce(Reduce(s, AddServiceToCart(item)), RemoveServiceFromCart(|s.items|)) == s
  {
    var added := Reduce(s, AddServiceToCart(item)).items;
    assert added[..|s.items|] == s.items;
  }

  /** Clearing twice is clearing once. */
  lemma ClearIdempotent<T>(s: CartState<T>)
    ensures Reduce(Reduce(s, ClearCart), ClearCart) == Reduce(s, ClearCart)
  {
  }

  function AddAll<T>(items: seq<T>): (acts: seq<CartAction<T>>)
    ensures |acts| == |items|
    ensures forall i :: 0 <= i < |items| ==> acts[i] == AddServiceToCart(items[i])
  {
    if |items| == 0 then [] else [AddServiceToCart(items[0])] + AddAll(items[1..])
  }

  lemma {:induction false} AddAllAppends<T>(s: CartState<T>, items: seq<T>)
    ensures Run(s, AddAll(items), Reduce).items == s.items + items
    decreases |items|
  {
    if |items| > 0 {
      var next := CartState(s.items + [items[0]]);
      AddAllCons(items);
      RunCons(s, AddServiceToCart(items[0]), AddAll(items[1..]));
      AddAllAppends(next, items[1..]);
      ConsAppend(s.items, items);
    }
  }

  lemma AddAllCons<T>(items: seq<T>)
    requires |items| > 0
    ensures AddAll(items) == [AddServiceToCart(items[0])] + AddAll(items[1..])
  {
  }

  lemma RunCons<T>(s: CartState<T>, a: CartAction<T>, rest: seq<CartAction<T>>)
    ensures Run(s, [a] + rest, Reduce) == Run(Reduce(s, a), rest, Reduce)
  {
    assert ([a] + rest)[0] == a && ([a] + rest)[1..] == rest;
  }

  lemma ConsAppend<T>(xs: seq<T>, items: seq<T>)
    requires |items| > 0
    ensures xs + [items[0]] + items[1..] == xs + items
  {
    assert items == [items[0]] + items[1..];
  }

  /** The final booking modal re-synchronises the cart on opening by
      clearing it and adding every booking line in turn: whatever was in
      the cart before, it then holds exactly the booking lines, in order. */
  lemma ClearThenAddAllSyncs<T>(s: CartState<T>, lines: seq<T>)
    ensures Run(s, [ClearCart] + AddAll(lines), Reduce).items == lines
  {
    assert ([ClearCart] + AddAll(lines))[1..] == AddAll(lines);
    AddAllAppends(Reduce(s, ClearCart), lines);
  }
}

=== FILE: catalog.dfy ===
/** Reference data as the customer booking flow sees it, and the line
    item (`{ ...service, stylist }`) the flow builds from it. */
module Catalog {
  import opened Common

  /** A salon service. `price` may be missing in the data the pages
      receive; `estimateTime` is kept as the raw text the backend sends. */
  datatype Service = Service(
    serviceId: int,
    serviceName: string,
    price: Option<nat>,
    estimateTime: string,
    status: int)

  datatype Stylist = Stylist(stylistId: int, stylistName: string)

  /** One service of the booking being assembled: the service's own
      fields, the chosen stylist (`null` for "any stylist") and the
      schedule ids picked for it (absent until chosen). */
  datatype BookingLine = BookingLine(
    service: Service,
    stylist: Option<Stylist>,
    schedules: Option<seq<int>>)

  /** `item.price || 0`. */
  function PriceOrZero(line: BookingLine): nat
  {
    line.service.price.GetOr(0)
  }

  /** A discount voucher; the discount is an amount off the total. */
  datatype Voucher = Voucher(voucherId: int, discountAmount: nat)

  /** `vouchers.find(v => v.voucherId === id)`. */
  function FindVoucher(vouchers: seq<Voucher>, id: int): (r: Option<Voucher>)
    ensures r.None? <==> forall i :: 0 <= i < |vouchers| ==> vouchers[i].voucherId != id
    ensures r.Some? ==> r.value.voucherId == id
    ensures r.Some? ==> exists i :: FirstMatchAt(vouchers, id, i) && vouchers[i] == r.value
  {
    if |vouchers| == 0 then None
    else if vouchers[0].voucherId == id then Some(vouchers[0])
    else
      var r := FindVoucher(vouchers[1..], id);
      assert r.Some? ==> exists i :: FirstMatchAt(vouchers, id, i) && vouchers[i] == r.value by {
        if r.Some? {
          var i :| FirstMatchAt(vouchers[1..], id, i) && vouchers[1..][i] == r.value;
          assert vouchers[i + 1] == r.value;
          assert forall j :: 0 <= j < i + 1 ==> vouchers[j].voucherId != id by {
            forall j | 0 <= j < i + 1
              ensures vouchers[j].voucherId != id
            {
              if j > 0 {
                assert vouchers[j] == vouchers[1..][j - 1];
              }
            }
          }
          assert FirstMatchAt(vouchers, id, i + 1);
        }
      }
      r
  }

  /** Position `i` holds the first voucher with this id. */
  predicate FirstMatchAt(vouchers: seq<Voucher>, id: int, i: int)
  {
    0 <= i < |vouchers| && vouchers[i].voucherId == id
    && forall j :: 0 <= j < i ==> vouchers[j].voucherId != id
  }
}

=== FILE: clock.dfy ===
/** Times of day as the booking flow writes them, `'HH:mm:ss'`, modelled
    as a number of seconds since midnight. Adding minutes and formatting
    back to `'HH:mm:ss'` drops the day, so end times wrap at midnight. */
module Clock {
  import opened Common
  import opened Text

  const SecondsPerDay: nat := 86400

  type TimeOfDay = t: nat | t < 86400

  /** `HH*3600 + mm*60 + ss`. */
  function At(h: nat, m: nat, sec: nat): TimeOfDay
    requires h < 24 && m < 60 && sec < 60
  {
    h * 3600 + m * 60 + sec
  }

  /** `format('HH:mm:ss')`. */
  function Format(t: TimeOfDay): (s: string)
    ensures |s| == 8 && s[2] == ':' && s[5] == ':'
  {
    Pad2(t / 3600) + ":" + Pad2(t / 60 % 60) + ":" + Pad2(t % 60)
  }

  /** Reads `'HH:mm:ss'` with hours below 24 and minutes and seconds
      below 60; anything else is not a time. */
  function Parse(s: string): Option<TimeOfDay>
  {
    if |s| == 8 && s[2] == ':' && s[5] == ':'
       && AllDigits(s[0..2]) && AllDigits(s[3..5]) && AllDigits(s[6..8])
    then
      var h := DigitsValue(s[0..2]);
      var m := DigitsValue(s[3..5]);
      var sec := DigitsValue(s[6..8]);
      if h < 24 && m < 60 && sec < 60 then Some(At(h, m, sec)) else None
    else None
  }

  /** Formatting and reading back are inverse: the `'HH:mm:ss'` strings
      the pages compare are equal exactly when the times are. */
  lemma FormatParseRoundTrip(t: TimeOfDay)
    ensures Parse(Format(t)) == Some(t)
  {
    var s := Format(t);
    assert s[0..2] == Pad2(t / 3600);
    assert s[3..5] == Pad2(t / 60 % 60);
    assert s[6..8] == Pad2(t % 60);
    assert At(t / 3600, t / 60 % 60, t % 60) == t;
  }

  lemma FormatInjective(a: TimeOfDay, b: TimeOfDay)
    requires Format(a) == Format(b)
    ensures a == b
  {
    FormatParseRoundTrip(a);
    FormatParseRoundTrip(b);
  }

  /** A calendar date as `Date`'s `getFullYear()`, `getMonth() + 1` and
      `getDate()` give it. */
  datatype CalDate = CalDate(year: int, month: int, day: int)

  /** The components a `Date` object can have. */
  predicate ValidDate(d: CalDate)
  {
    1 <= d.month <= 12 && 1 <= d.day <= 31
  }

  /** `dayjs(...).add(minutes, 'minute').format('HH:mm:ss')`. */
  function AddMinutes(t: TimeOfDay, minutes: nat): TimeOfDay
  {
    (t + minutes * 60) % SecondsPerDay
  }

  /** The end time lies `minutes` after the start, counted around the
      clock: before midnight it is the plain sum, past midnight it wraps
      into the next day. */
  lemma AddMinutesWraps(t: TimeOfDay, minutes: nat)
    ensures t + minutes * 60 < SecondsPerDay ==> AddMinutes(t, minutes) == t + minutes * 60
    ensures SecondsPerDay <= t + minutes * 60 < 2 * SecondsPerDay ==>
      AddMinutes(t, minutes) == t + minutes * 60 - SecondsPerDay
  {
  }
}

=== FILE: common.dfy ===
/** Shared vocabulary for the booking front end: optional values, the list
    operations the components perform with `Array.prototype.filter`,
    `reduce` and index-based removal, and the facts about them that the
    component modules rely on. */
module Common {

  /** `null`/`undefined` versus a present value. */
  datatype Option<+T> = None | Some(value: T) {
    function GetOr(default: T): T {
      match this
      case Some(v) => v
      case None => default
    }
  }

  /** The outcome of an operation that can refuse its input. */
  datatype Result<+T, +E> = Ok(value: T) | Err(error: E)

  /** JavaScript truthiness of a numeric id used as `id || null`:
      a missing id and the id 0 are both falsy. */
  function TruthyId(id: Option<int>): (r: Option<int>)
    ensures r.Some? <==> id.Some? && id.value != 0
    ensures r.Some? ==> r == id
  {
    if id.Some? && id.value != 0 then id else None
  }

  /** `xs.filter(p)`: the elements satisfying `p`, in order. */
  function Filter<T>(xs: seq<T>, p: T -> bool): (r: seq<T>)
    ensures |r| <= |xs|
    ensures forall x :: x in r ==> x in xs && p(x)
    ensures forall i :: 0 <= i < |xs| && p(xs[i]) ==> xs[i] in r
  {
    if |xs| == 0 then []
    else if p(xs[0]) then [xs[0]] + Filter(xs[1..], p)
    else Filter(xs[1..], p)
  }

  /** Filtering a list with a known head. */
  lemma FilterCons<T>(h: T, t: seq<T>, p: T -> bool)
    ensures Filter([h] + t, p) == (if p(h) then [h] else []) + Filter(t, p)
  {
    assert ([h] + t)[0] == h && ([h] + t)[1..] == t;
  }

  lemma {:induction false} FilterAppend<T>(a: seq<T>, b: seq<T>, p: T -> bool)
    ensures Filter(a + b, p) == Filter(a, p) + Filter(b, p)
  {
    if |a| == 0 {
      assert a + b == b;
    } else {
      assert (a + b)[1..] == a[1..] + b;
      FilterAppend(a[1..], b, p);
    }
  }

  /** Filtering with `p` and with its negation splits the list: the two
      results together have exactly the elements of `xs`, counted with
      multiplicity. */
  lemma {:induction false} FilterSplits<T>(xs: seq<T>, p: T -> bool, q: T -> bool)
    requires forall x :: q(x) <==> !p(x)
    ensures multiset(Filter(xs, p)) + multiset(Filter(xs, q)) == multiset(xs)
    ensures |Filter(xs, p)| + |Filter(xs, q)| == |xs|
  {
    if |xs| > 0 {
      FilterSplits(xs[1..], p, q);
      assert xs == [xs[0]] + xs[1..];
    }
  }

  /** A filter that keeps everything is the identity. */
  lemma {:induction false} FilterAll<T>(xs: seq<T>, p: T -> bool)
    requires forall x :: x in xs ==> p(x)
    ensures Filter(xs, p) == xs
  {
    if |xs| > 0 {
      FilterAll(xs[1..], p);
      assert xs == [xs[0]] + xs[1..];
    }
  }

  /** Filtering twice is filtering once by both conditions. */
  lemma {:induction false} FilterFilter<T>(xs: seq<T>, p: T -> bool, q: T -> bool, both: T -> bool)
    requires forall x :: both(x) <==> p(x) && q(x)
    ensures Filter(Filter(xs, p), q) == Filter(xs, both)
  {
    if |xs| > 0 {
      FilterFilter(xs[1..], p, q, both);
    }
  }

  /** `xs.filter((_, i) => i !== k)`: drop the element at index `k`, if
      there is one. */
  function RemoveIndex<T>(xs: seq<T>, k: int): (r: seq<T>)
    ensures 0 <= k < |xs| ==> r == xs[..k] + xs[k + 1..]
    ensures !(0 <= k < |xs|) ==> r == xs
  {
    if |xs| == 0 then []
    else if k == 0 then RemoveIndex(xs[1..], k - 1)
    else
      var rest := RemoveIndex(xs[1..], k - 1);
      assert 0 < k < |xs| ==> [xs[0]] + rest == xs[..k] + xs[k + 1..] by {
        if 0 < k < |xs| {
          assert xs[1..][..k - 1] == xs[1..k];
          assert xs[1..][k..] == xs[k + 1..];
          assert xs[..k] == [xs[0]] + xs[1..k];
        }
      }
      [xs[0]] + rest
  }

  /** Lists holding the same elements the same number of times have the
      same members. */
  lemma SameMultisetSameMembers<T>(a: seq<T>, b: seq<T>)
    requires multiset(a) == multiset(b)
    ensures forall x :: x in a <==> x in b
  {
    forall x
      ensures x in a <==> x in b
    {
      assert x in a <==> x in multiset(a);
      assert x in b <==> x in multiset(b);
    }
  }

  /** `xs.reduce((acc, x) => acc + w(x), 0)` over natural weights. */
  function Sum<T>(xs: seq<T>, w: T -> nat): nat
  {
    if |xs| == 0 then 0 else w(xs[0]) + Sum(xs[1..], w)
  }

  /** Weight one for every element: summing it counts. */
  function One<T>(x: T): nat { 1 }

  lemma {:induction false} SumOfOnes<T>(xs: seq<T>)
    ensures Sum(xs, One) == |xs|
  {
    if |xs| > 0 {
      SumOfOnes(xs[1..]);
    }
  }

  lemma {:induction false} SumAppend<T>(a: seq<T>, b: seq<T>, w: T -> nat)
    ensures Sum(a + b, w) == Sum(a, w) + Sum(b, w)
  {
    if |a| == 0 {
      assert a + b == b;
    } else {
      assert (a + b)[1..] == a[1..] + b;
      SumAppend(a[1..], b, w);
    }
  }

  /** `a` is `b` with some elements left out and the rest in order. */
  predicate IsSubsequence<T(==)>(a: seq<T>, b: seq<T>)
  {
    if |a| == 0 then true
    else if |b| == 0 then false
    else if a[0] == b[0] then IsSubsequence(a[1..], b[1..])
    else IsSubsequence(a, b[1..])
  }

  /** Every filter result is an order-preserving subsequence of its input. */
  lemma {:induction false} FilterIsSubsequence<T>(xs: seq<T>, p: T -> bool)
    ensures IsSubsequence(Filter(xs, p), xs)
  {
    if |xs| > 0 {
      FilterIsSubsequence(xs[1..], p);
      var f := Filter(xs, p);
      if p(xs[0]) {
        assert f[1..] == Filter(xs[1..], p);
      } else if |f| > 0 {
        assert f[0] in f;
        assert f[0] != xs[0];
      }
    }
  }

  /** `xs.map(f)`. */
  function Map<T, U>(xs: seq<T>, f: T -> U): (r: seq<U>)
    ensures |r| == |xs|
    ensures forall i :: 0 <= i < |xs| ==> r[i] == f(xs[i])
  {
    if |xs| == 0 then [] else [f(xs[0])] + Map(xs[1..], f)
  }

  /** Mapping a list with one more element at the end. */
  lemma MapSnoc<T, U>(xs: seq<T>, x: T, f: T -> U)
    ensures var ys := Map(xs + [x], f);
      |ys| == |xs| + 1 && ys[..|xs|] == Map(xs, f) && ys[|xs|] == f(x)
  {
    var ys := Map(xs + [x], f);
    assert forall i :: 0 <= i < |xs| ==> ys[i] == f(xs[i]);
  }

  /** `xs.some(p)`. */
  predicate Any<T>(xs: seq<T>, p: T -> bool)
  {
    exists i :: 0 <= i < |xs| && p(xs[i])
  }

  /** `Math.max(a, b)` on integers. */
  function Max(a: int, b: int): int { if a < b then b else a }

  /** `xs.flatMap(f)`. */
  function FlatMap<T, U>(xs: seq<T>, f: T -> seq<U>): (r: seq<U>)
    ensures forall i, k :: 0 <= i < |xs| && 0 <= k < |f(xs[i])| ==> f(xs[i])[k] in r
    ensures forall y :: y in r ==> exists i :: 0 <= i < |xs| && y in f(xs[i])
  {
    if |xs| == 0 then []
    else
      var rest := FlatMap(xs[1..], f);
      assert forall i :: 1 <= i < |xs| ==> xs[i] == xs[1..][i - 1];
      f(xs[0]) + rest
  }

  /** The position of the first occurrence of `x`. */
  function FirstIndex<T(==)>(xs: seq<T>, x: T): (i: nat)
    requires x in xs
    ensures i < |xs| && xs[i] == x && x !in xs[..i]
  {
    if xs[0] == x then 0
    else
      var j := FirstIndex(xs[1..], x);
      assert xs[..j + 1] == [xs[0]] + xs[1..][..j];
      j + 1
  }

  /** `Array.from(new Set(xs))`: every element once, in the order of
      first occurrence (see `DedupKeepsFirstOccurrenceOrder`). */
  function Dedup<T(==)>(xs: seq<T>): (r: seq<T>)
    ensures forall i :: 0 <= i < |xs| ==> xs[i] in r
    ensures forall i :: 0 <= i < |r| ==> r[i] in xs
    ensures forall i, j :: 0 <= i < j < |r| ==> r[i] != r[j]
  {
    if |xs| == 0 then []
    else
      var init := xs[..|xs| - 1];
      var x := xs[|xs| - 1];
      var d := Dedup(init);
      assert forall i :: 0 <= i < |init| ==> xs[i] == init[i];
      if x in d then d else d + [x]
  }

  /** The elements come out in the order in which they first occur. */
  lemma {:induction false} DedupKeepsFirstOccurrenceOrder<T>(xs: seq<T>)
    ensures forall i, j :: 0 <= i < j < |Dedup(xs)| ==>
      FirstIndex(xs, Dedup(xs)[i]) < FirstIndex(xs, Dedup(xs)[j])
  {
    if |xs| > 0 {
      var init := xs[..|xs| - 1];
      var x := xs[|xs| - 1];
      var d := Dedup(init);
      DedupKeepsFirstOccurrenceOrder(init);
      assert xs == init + [x];
      FirstIndexOfPrefix(init, x, d);
      if x !in d {
        assert x !in init;
        var r := d + [x];
        forall i, j | 0 <= i < j < |r|
          ensures FirstIndex(xs, r[i]) < FirstIndex(xs, r[j])
        {
          if j == |d| {
            assert FirstIndex(init, r[i]) < |init|;
          }
        }
      }
    }
  }

  lemma FirstIndexOfPrefix<T>(init: seq<T>, x: T, d: seq<T>)
    requires forall i :: 0 <= i < |d| ==> d[i] in init
    ensures forall i :: 0 <= i < |d| ==> FirstIndex(init + [x], d[i]) == FirstIndex(init, d[i])
    ensures x !in init ==> FirstIndex(init + [x], x) == |init|
  {
    forall i | 0 <= i < |d|
      ensures FirstIndex(init + [x], d[i]) == FirstIndex(init, d[i])
    {
      FirstIndexAppend(init, [x], d[i]);
    }
    if x !in init {
      var k := FirstIndex(init + [x], x);
      assert forall i :: 0 <= i < |init| ==> (init + [x])[i] == init[i];
    }
  }

  lemma {:induction false} FirstIndexAppend<T>(a: seq<T>, b: seq<T>, y: T)
    requires y in a
    ensures FirstIndex(a + b, y) == FirstIndex(a, y)
  {
    if a[0] != y {
      assert (a + b)[1..] == a[1..] + b;
      FirstIndexAppend(a[1..], b, y);
    }
  }
}

=== FILE: dashboard.dfy ===
/** The stylist dashboard's chart data: bookings and users counted by
    status label, service prices summed by service name with a `Total`
    entry, and services counted by stylist. Each tally is a `reduce` into
    a plain object, i.e. a grouping whose entries keep the order in which
    their keys first occur. */
module Dashboard {
  import opened Common
  import opened Grouping

  /** One key of a chart object with its value. */
  datatype Entry<K> = Entry(key: K, value: nat)

  function EntryValue<K>(e: Entry<K>): nat { e.value }

  function GroupEntry<K, T>(w: T -> nat): Group<K, T> -> Entry<K>
  {
    (g: Group<K, T>) => Entry(g.key, Sum(g.items, w))
  }

  /** Some entry has key `k`. */
  predicate HasEntry<K(==)>(r: seq<Entry<K>>, k: K)
  {
    exists i :: 0 <= i < |r| && r[i].key == k
  }

  /** What a chart object filled by a `reduce` over `xs` is: its keys are
      distinct, each is the key of some item (keys are only ever created
      from items), every item's key is present, and each value is the
      weight of exactly the items with that key. */
  predicate IsTallyOf<T, K(==)>(r: seq<Entry<K>>, xs: seq<T>, key: T -> K, w: T -> nat)
  {
    && (forall i, j :: 0 <= i < j < |r| ==> r[i].key != r[j].key)
    && (forall i :: 0 <= i < |r| ==> ItemHasKey(xs, key, r[i].key))
    && (forall j :: 0 <= j < |xs| ==> HasEntry(r, key(xs[j])))
    && (forall i :: 0 <= i < |r| ==> r[i].value == Sum(Filter(xs, KeyEq(key, r[i].key)), w))
  }

  /** Each value is the number of items with its key. */
  predicate CountsOf<T, K(==)>(r: seq<Entry<K>>, xs: seq<T>, key: T -> K)
  {
    forall i :: 0 <= i < |r| ==> r[i].value == |Filter(xs, KeyEq(key, r[i].key))|
  }

  /** `xs.reduce((acc, x) => { acc[key(x)] = (acc[key(x)] || 0) + w(x) }, {})`. */
  function Tally<T, K(==)>(xs: seq<T>, key: T -> K, w: T -> nat): (r: seq<Entry<K>>)
    ensures IsTallyOf(r, xs, key, w)
  {
    GroupsTally(xs, key, w);
    Map(GroupBy(xs, key), GroupEntry(w))
  }

  /** One entry per group of the items by key is their tally. */
  lemma GroupsTally<T, K>(xs: seq<T>, key: T -> K, w: T -> nat)
    ensures IsTallyOf(Map(GroupBy(xs, key), GroupEntry(w)), xs, key, w)
  {
    GroupByIsGrouping(xs, key);
    EntriesOfGrouping(GroupBy(xs, key), xs, key, w);
  }

  lemma EntriesOfGrouping<T, K>(gs: seq<Group<K, T>>, xs: seq<T>, key: T -> K, w: T -> nat)
    requires IsGroupingOf(gs, xs, key)
    requires forall i :: 0 <= i < |gs| ==> ItemHasKey(xs, key, gs[i].key)
    ensures IsTallyOf(Map(gs, GroupEntry(w)), xs, key, w)
  {
    var r := Map(gs, GroupEntry(w));
    EntryKeys(gs, w);
    EntryValues(gs, xs, key, w);
    forall j | 0 <= j < |xs|
      ensures HasEntry(r, key(xs[j]))
    {
      assert HasKey(gs, key(xs[j]));
      var i :| 0 <= i < |gs| && gs[i].key == key(xs[j]);
      assert r[i].key == key(xs[j]);
    }
  }

  /** The entries have the groups' keys, in the same order. */
  lemma EntryKeys<K, T>(gs: seq<Group<K, T>>, w: T -> nat)
    ensures var r := Map(gs, GroupEntry(w));
      forall i :: 0 <= i < |r| ==> r[i].key == gs[i].key
  {
  }

  /** Each entry's value is the weight of its group. */
  lemma EntryValues<T, K>(gs: seq<Group<K, T>>, xs: seq<T>, key: T -> K, w: T -> nat)
    requires forall i :: 0 <= i < |gs| ==> gs[i].items == Filter(xs, KeyEq(key, gs[i].key))
    ensures var r := Map(gs, GroupEntry(w));
      forall i :: 0 <= i < |r| ==> r[i].value == Sum(Filter(xs, KeyEq(key, r[i].key)), w)
  {
    var r := Map(gs, GroupEntry(w));
    forall i | 0 <= i < |r|
      ensures r[i].value == Sum(Filter(xs, KeyEq(key, r[i].key)), w)
    {
      assert r[i] == GroupEntry(w)(gs[i]);
    }
  }

  lemma {:induction false} EntriesTotalIsGroupsWeight<K, T>(gs: seq<Group<K, T>>, w: T -> nat)
    ensures Sum(Map(gs, GroupEntry(w)), EntryValue) == GroupsWeight(gs, w)
  {
    if |gs| > 0 {
      EntriesTotalIsGroupsWeight(gs[1..], w);
      assert Map(gs, GroupEntry(w))[1..] == Map(gs[1..], GroupEntry(w));
    }
  }

  /** A tally loses nothing: its values add up to the total weight. */
  lemma TallyTotal<T, K>(xs: seq<T>, key: T -> K, w: T -> nat)
    ensures Sum(Tally(xs, key, w), EntryValue) == Sum(xs, w)
  {
    EntriesTotalIsGroupsWeight(GroupBy(xs, key), w);
    GroupByWeight(xs, key, w);
  }

  /** A tally with weight one counts: each entry holds the number of
      elements with its key, and the counts add up to the length. */
  lemma TallyCounts<T, K>(xs: seq<T>, key: T -> K)
    ensures Sum(Tally(xs, key, One), EntryValue) == |xs|
    ensures CountsOf(Tally(xs, key, One), xs, key)
  {
    TallyTotal(xs, key, One);
    SumOfOnes(xs);
    var r := Tally(xs, key, One);
    forall i | 0 <= i < |r|
      ensures r[i].value == |Filter(xs, KeyEq(key, r[i].key))|
    {
      SumOfOnes(Filter(xs, KeyEq(key, r[i].key)));
    }
  }

  datatype StatusLabel = Active | Inactive | Unknown

  datatype ServiceItem = ServiceItem(serviceName: string, price: nat, stylistName: Option<string>)

  /** `services` is `None` when the booking has no services array. */
  datatype Booking = Booking(status: int, services: Option<seq<ServiceItem>>)

  datatype User = User(status: int)

  /** Status 1 is active; 2 and everything else count as inactive. */
  function BookingLabel(b: Booking): StatusLabel
  {
    if b.status == 1 then Active else Inactive
  }

  function UserLabel(u: User): StatusLabel
  {
    if u.status == 1 then Active else if u.status == 2 then Inactive else Unknown
  }

  /** `bookingStatus`: every booking is counted once, under its label. */
  function BookingStatusCounts(bookings: seq<Booking>): (r: seq<Entry<StatusLabel>>)
    ensures Sum(r, EntryValue) == |bookings|
    ensures IsTallyOf(r, bookings, BookingLabel, One) && CountsOf(r, bookings, BookingLabel)
  {
    TallyCounts(bookings, BookingLabel);
    Tally(bookings, BookingLabel, One)
  }

  /** `userStatus`: every user is counted once, under its label. */
  function UserStatusCounts(users: seq<User>): (r: seq<Entry<StatusLabel>>)
    ensures Sum(r, EntryValue) == |users|
    ensures IsTallyOf(r, users, UserLabel, One) && CountsOf(r, users, UserLabel)
  {
    TallyCounts(users, UserLabel);
    Tally(users, UserLabel, One)
  }

  /** The services of all bookings that have a services array, in order. */
  function AllServices(bookings: seq<Booking>): (r: seq<ServiceItem>)
    ensures forall i, k :: 0 <= i < |bookings| && bookings[i].services.Some? && 0 <= k < |bookings[i].services.value| ==>
      bookings[i].services.value[k] in r
  {
    if |bookings| == 0 then []
    else
      var rest := AllServices(bookings[1..]);
      assert forall i :: 1 <= i < |bookings| ==> bookings[i] == bookings[1..][i - 1];
      bookings[0].services.GetOr([]) + rest
  }

  /** Bookings without a services array contribute nothing. */
  lemma NoServicesContributeNothing(bookings: seq<Booking>, b: Booking)
    requires b.services.None?
    ensures AllServices([b] + bookings) == AllServices(bookings)
  {
    assert ([b] + bookings)[1..] == bookings;
  }

  function NameOf(s: ServiceItem): string { s.serviceName }

  function PriceOf(s: ServiceItem): nat { s.price }

  function StylistOf(s: ServiceItem): Option<string> { s.stylistName }

  const TotalKey: string := "Total"

  /** The sum of the per-name prices, before the `Total` key is written. */
  function PerServicePrices(bookings: seq<Booking>): (r: seq<Entry<string>>)
    ensures Sum(r, EntryValue) == Sum(AllServices(bookings), PriceOf)
    ensures IsTallyOf(r, AllServices(bookings), NameOf, PriceOf)
  {
    TallyTotal(AllServices(bookings), NameOf, PriceOf);
    Tally(AllServices(bookings), NameOf, PriceOf)
  }

  /** `obj[k] = v` on a chart object: an existing key keeps its place
      and takes the new value; a new key goes at the end. */
  function SetKey<K(==)>(es: seq<Entry<K>>, k: K, v: nat): (r: seq<Entry<K>>)
    ensures IndexOfKey(es, k) < |es| ==> r == es[IndexOfKey(es, k) := Entry(k, v)]
    ensures IndexOfKey(es, k) == |es| ==> r == es + [Entry(k, v)]
    ensures IndexOfKey(r, k) < |r| && r[IndexOfKey(r, k)] == Entry(k, v)
  {
    var i := IndexOfKey(es, k);
    if i < |es| then
      var r := es[i := Entry(k, v)];
      IndexOfKeyFirst(r, k, i);
      r
    else
      var r := es + [Entry(k, v)];
      IndexOfKeyFirst(r, k, |es|);
      r
  }

  lemma {:induction false} IndexOfKeyFirst<K>(es: seq<Entry<K>>, k: K, i: nat)
    requires i < |es| && es[i].key == k
    requires forall j :: 0 <= j < i ==> es[j].key != k
    ensures IndexOfKey(es, k) == i
  {
    if i > 0 {
      IndexOfKeyFirst(es[1..], k, i - 1);
    }
  }

  /** `servicePrices['Total'] = totalPrice` as written: the key is
      overwritten in place when some service is itself named `Total`, and
      appended otherwise. */
  function ServicePricesAsWritten(bookings: seq<Booking>): (r: seq<Entry<string>>)
    ensures IndexOfKey(r, TotalKey) < |r|
    ensures r[IndexOfKey(r, TotalKey)].value == Sum(AllServices(bookings), PriceOf)
  {
    var entries := PerServicePrices(bookings);
    SetKey(entries, TotalKey, Sum(entries, EntryValue))
  }

  /** The position of `k` among the entries, or their length. */
  function IndexOfKey<K(==)>(es: seq<Entry<K>>, k: K): (i: nat)
    ensures i <= |es|
    ensures i < |es| ==> es[i].key == k
    ensures forall j :: 0 <= j < i ==> es[j].key != k
    ensures i == |es| ==> forall j :: 0 <= j < |es| ==> es[j].key != k
  {
    if |es| == 0 then 0
    else if es[0].key == k then 0
    else 1 + IndexOfKey(es[1..], k)
  }

  lemma OneBookingServices(b: Booking)
    ensures AllServices([b]) == b.services.GetOr([])
  {
    assert [b][1..] == [];
  }

  lemma TwoNamesGrouped(a: ServiceItem, b: ServiceItem)
    requires a.serviceName != b.serviceName
    ensures GroupBy([a, b], NameOf) == [Group(a.serviceName, [a]), Group(b.serviceName, [b])]
  {
    assert [a, b][..1] == [a];
    assert [a][..0] == [];
    assert GroupBy([a], NameOf) == [Group(a.serviceName, [a])];
    AddToContents([Group(a.serviceName, [a])], b.serviceName, b);
  }

  /** A service named `Total` loses its own sum: with services `Total`
      at 5 and `Cut` at 3 the chart reads `Total` 8 and `Cut` 3, so
      `Total` is not the sum of the other entries and the 5 is gone. */
  lemma ServiceNamedTotalAsWritten()
    ensures var bookings := [Booking(1, Some([ServiceItem("Total", 5, None), ServiceItem("Cut", 3, None)]))];
      ServicePricesAsWritten(bookings) == [Entry("Total", 8), Entry("Cut", 3)]
  {
    var a := ServiceItem("Total", 5, None);
    var b := ServiceItem("Cut", 3, None);
    var bookings := [Booking(1, Some([a, b]))];
    OneBookingServices(bookings[0]);
    assert "Cut" != "Total" by {
      assert "Cut"[0] != "Total"[0];
    }
    TwoNamesGrouped(a, b);
    var entries := PerServicePrices(bookings);
    assert Sum([a], PriceOf) == 5;
    assert Sum([b], PriceOf) == 3;
    assert entries == [Entry("Total", 5), Entry("Cut", 3)];
    assert Sum(entries, EntryValue) == 8;
    assert IndexOfKey(entries, TotalKey) == 0;
  }

  /** The price chart with the total kept apart from the per-service
      entries, so no service name can collide with it. */
  datatype PriceChart = PriceChart(perService: seq<Entry<string>>, total: nat)

  function ServicePrices(bookings: seq<Booking>): (r: PriceChart)
    ensures r.total == Sum(r.perService, EntryValue)
    ensures r.total == Sum(AllServices(bookings), PriceOf)
    ensures IsTallyOf(r.perService, AllServices(bookings), NameOf, PriceOf)
  {
    var entries := PerServicePrices(bookings);
    PriceChart(entries, Sum(entries, EntryValue))
  }

  /** `stylistBookings`: services counted per stylist name; the counts add
      up to the number of services. */
  function StylistCounts(bookings: seq<Booking>): (r: seq<Entry<Option<string>>>)
    ensures Sum(r, EntryValue) == |AllServices(bookings)|
    ensures IsTallyOf(r, AllServices(bookings), StylistOf, One) && CountsOf(r, AllServices(bookings), StylistOf)
  {
    var items := AllServices(bookings);
    TallyCounts(items, StylistOf);
    Tally(items, StylistOf, One)
  }

  /** The four chart objects. */
  datatype Charts = Charts(
    bookingStatus: seq<Entry<StatusLabel>>,
    userStatus: seq<Entry<StatusLabel>>,
    servicePrices: PriceChart,
    stylistBookings: seq<Entry<Option<string>>>)

  /** The effect on `[bookings, users]`: with no bookings the charts keep
      their previous data, even when the users changed. */
  function Refresh(prev: Charts, bookings: seq<Booking>, users: seq<User>): (r: Charts)
    ensures |bookings| == 0 ==> r == prev
    ensures |bookings| > 0 ==>
      && Sum(r.bookingStatus, EntryValue) == |bookings|
      && IsTallyOf(r.bookingStatus, bookings, BookingLabel, One)
      && CountsOf(r.bookingStatus, bookings, BookingLabel)
      && Sum(r.userStatus, EntryValue) == |users|
      && IsTallyOf(r.userStatus, users, UserLabel, One)
      && CountsOf(r.userStatus, users, UserLabel)
      && r.servicePrices.total == Sum(AllServices(bookings), PriceOf)
      && IsTallyOf(r.servicePrices.perService, AllServices(bookings), NameOf, PriceOf)
      && Sum(r.stylistBookings, EntryValue) == |AllServices(bookings)|
      && IsTallyOf(r.stylistBookings, AllServices(bookings), StylistOf, One)
      && CountsOf(r.stylistBookings, AllServices(bookings), StylistOf)
  {
    if |bookings| == 0 then prev
    else Charts(BookingStatusCounts(bookings), UserStatusCounts(users), ServicePrices(bookings), StylistCounts(bookings))
  }
}

=== FILE: detail_booking.dfy ===
/** The booking-details step of the customer flow: the scheduled services
    with their total, the voucher choice, end times recomputed from each
    service's `estimateTime` read as `'H:M'`, and the validation and
    request body of "Confirm booking". */
module DetailBooking {
  import opened Common
  import opened Text
  import opened Clock
  import opened Catalog
  import SchedulePage

  /** A scheduled service as the wizard hands it over. */
  datatype Item = Item(
    service: Service,
    startDate: int,
    startTime: TimeOfDay,
    endTime: Option<TimeOfDay>,
    stylistId: Option<int>,
    voucherId: Option<int>)

  /** The wizard's lines once every one carries an appointment. */
  function FromWizard(lines: seq<SchedulePage.Line>): (r: seq<Item>)
    requires forall j :: 0 <= j < |lines| ==> lines[j].appt.Some?
    ensures |r| == |lines|
    ensures forall j :: 0 <= j < |lines| ==>
      r[j].service == lines[j].service
      && r[j].startDate == lines[j].appt.value.startDate
      && r[j].startTime == lines[j].appt.value.startTime
      && r[j].endTime == lines[j].appt.value.endTime
      && r[j].stylistId == lines[j].appt.value.stylistId
      && r[j].voucherId == lines[j].appt.value.voucherId
  {
    if |lines| == 0 then []
    else
      var a := lines[0].appt.value;
      [Item(lines[0].service, a.startDate, a.startTime, a.endTime, a.stylistId, a.voucherId)]
      + FromWizard(lines[1..])
  }

  function ItemPrice(it: Item): nat { it.service.price.GetOr(0) }

  /** `bookingData.reduce((t, item) => t + (item.price || 0), 0)`. */
  function OriginalTotal(items: seq<Item>): nat
  {
    Sum(items, ItemPrice)
  }

  /** `Number(part)` for a piece of `estimateTime`: the empty text is 0,
      digits are their value, anything else is not a number. */
  function NumberOf(part: string): (r: Option<nat>)
    ensures |part| == 0 ==> r == Some(0)
    ensures |part| > 0 ==> (r.Some? <==> AllDigits(part))
  {
    if |part| == 0 then Some(0)
    else if AllDigits(part) then Some(DigitsValue(part))
    else None
  }

  /** `const [h, m] = estimateTime.split(':').map(Number); h * 60 + m`.
      A text without `':'` leaves `m` undefined, and the sum is `NaN`. */
  function DurationMinutes(estimateTime: string): (r: Option<nat>)
  {
    var parts := Split(estimateTime, ':');
    if |parts| < 2 then None
    else
      match (NumberOf(parts[0]), NumberOf(parts[1]))
      case (Some(h), Some(m)) => Some(h * 60 + m)
      case _ => None
  }

  /** The duration read back from an `'H:M'` text is `H` hours and `M`
      minutes; a bare number of minutes does not read as a duration. */
  lemma DurationOfHoursMinutes(h: nat, m: nat)
    ensures DurationMinutes(NatToString(h) + ":" + NatToString(m)) == Some(h * 60 + m)
    ensures DurationMinutes(NatToString(m)) == None
  {
    var hs := NatToString(h);
    var ms := NatToString(m);
    SplitDigitsColon(hs, ms);
    NatToStringRoundTrip(h);
    NatToStringRoundTrip(m);
    SplitNoSeparator(ms, ':');
  }

  lemma {:induction false} SplitNoSeparator(s: string, c: char)
    requires c !in s
    ensures Split(s, c) == [s]
  {
    if |s| > 0 {
      SplitNoSeparator(s[1..], c);
      assert s == [s[0]] + s[1..];
    }
  }

  lemma {:induction false} SplitDigitsColon(a: string, b: string)
    requires AllDigits(a) && AllDigits(b)
    ensures Split(a + ":" + b, ':') == [a, b]
  {
    if |a| == 0 {
      assert a + ":" + b == [':'] + b;
      assert (a + ":" + b)[1..] == b;
      SplitNoSeparator(b, ':');
    } else {
      SplitDigitsColon(a[1..], b);
      assert (a + ":" + b)[1..] == a[1..] + ":" + b;
      assert a == [a[0]] + a[1..];
    }
  }

  /** `calculateEndTime`: each end time lies the `'H:M'` duration after
      the start, around the clock; `None` is `'Invalid Date'`. */
  function WithEndTime(it: Item): (r: Item)
    ensures r == it.(endTime := r.endTime)
    ensures r.endTime.Some? <==> DurationMinutes(it.service.estimateTime).Some?
    ensures r.endTime.Some? ==>
      r.endTime.value == AddMinutes(it.startTime, DurationMinutes(it.service.estimateTime).value)
  {
    match DurationMinutes(it.service.estimateTime)
    case None => it.(endTime := None)
    case Some(d) => it.(endTime := Some(AddMinutes(it.startTime, d)))
  }

  function CalculateEndTime(items: seq<Item>): (r: seq<Item>)
    ensures |r| == |items|
    ensures forall j :: 0 <= j < |items| ==> r[j] == WithEndTime(items[j])
  {
    Map(items, WithEndTime)
  }

  /** The wizard and this page read `estimateTime` differently: a plain
      `"30"` is thirty minutes to the wizard but no duration here, so
      the end time shown on this page is `'Invalid Date'`. */
  lemma VariantsDisagreeOnPlainMinutes(it: Item)
    requires it.service.estimateTime == "30"
    ensures SchedulePage.EndTime(it.startTime, "30") == Some(AddMinutes(it.startTime, 30))
    ensures WithEndTime(it).endTime.None?
  {
    DurationOfHoursMinutes(0, 30);
    ParseIntPrefixOfRendered(30, "");
    assert NatToString(30) + "" == "30";
  }

  /** The page's state: the data as received, the recomputed lines, the
      chosen voucher (`''` is `None`) and the displayed total. */
  datatype Page = Page(
    bookingData: seq<Item>,
    updated: seq<Item>,
    selectedVoucher: Option<int>,
    totalPrice: nat)

  function Open(bookingData: seq<Item>): (p: Page)
    ensures p.totalPrice == OriginalTotal(bookingData)
    ensures p.updated == CalculateEndTime(bookingData) && p.selectedVoucher.None?
  {
    Page(bookingData, CalculateEndTime(bookingData), None, OriginalTotal(bookingData))
  }

  function WithVoucher(id: int): Item -> Item
  {
    (it: Item) => it.(voucherId := Some(id))
  }

  /** `handleVoucherChange(id)`: stamp the voucher on every line, and
      price the original data less the voucher's discount, never below
      zero. An id no voucher has gives no discount. */
  function VoucherChange(p: Page, vouchers: seq<Voucher>, id: int): (r: Page)
    ensures r.bookingData == p.bookingData && r.selectedVoucher == Some(id)
    ensures |r.updated| == |p.updated|
    ensures forall j :: 0 <= j < |p.updated| ==> r.updated[j] == p.updated[j].(voucherId := Some(id))
    ensures r.totalPrice <= OriginalTotal(p.bookingData)
    ensures FindVoucher(vouchers, id).None? ==> r.totalPrice == OriginalTotal(p.bookingData)
    ensures FindVoucher(vouchers, id).Some? ==>
      r.totalPrice + FindVoucher(vouchers, id).value.discountAmount >= OriginalTotal(p.bookingData)
    ensures FindVoucher(vouchers, id).Some? && r.totalPrice > 0 ==>
      r.totalPrice + FindVoucher(vouchers, id).value.discountAmount == OriginalTotal(p.bookingData)
  {
    var discount := match FindVoucher(vouchers, id) case Some(v) => v.discountAmount case None => 0;
    var original := OriginalTotal(p.bookingData);
    p.(updated := Map(p.updated, WithVoucher(id)),
       selectedVoucher := Some(id),
       totalPrice := if original >= discount then original - discount else 0)
  }

  /** The total is recomputed from the data as received, so after any two
      voucher changes the page is as if only the last had been made. */
  lemma LastVoucherWins(p: Page, vouchers: seq<Voucher>, a: int, b: int)
    ensures VoucherChange(VoucherChange(p, vouchers, a), vouchers, b) == VoucherChange(p, vouchers, b)
  {
  }

  /** Why "Confirm booking" refused. */
  datatype ConfirmError = NameOrPhoneMissing | PhoneNotTenDigits

  datatype ScheduleSlot = ScheduleSlot(startTime: TimeOfDay, startDate: int)

  /** The request body: parallel lists over the lines, and `stylistId`
      either one entry per line or `[]`. */
  datatype Request = Request(
    userName: string,
    phone: string,
    voucherId: Option<int>,
    schedule: seq<ScheduleSlot>,
    serviceId: seq<int>,
    stylistId: seq<Option<int>>)

  function SlotOf(it: Item): ScheduleSlot { ScheduleSlot(it.startTime, it.startDate) }
  function ServiceIdOf(it: Item): int { it.service.serviceId }
  function StylistOf(it: Item): Option<int> { it.stylistId }
  predicate HasStylist(it: Item) { TruthyId(it.stylistId).Some? }

  /** `handleConfirmBooking`: the name and phone checks, in that order,
      then the request body. */
  function ConfirmBooking(p: Page, userName: string, phone: string): (r: Result<Request, ConfirmError>)
    ensures r == Err(NameOrPhoneMissing) <==> |userName| == 0 || |phone| == 0
    ensures r == Err(PhoneNotTenDigits) <==> |userName| > 0 && |phone| > 0 && !IsTenDigits(phone)
    ensures r.Ok? <==> |userName| > 0 && IsTenDigits(phone)
    ensures r.Ok? ==>
      && r.value.userName == userName && r.value.phone == phone
      && r.value.voucherId == TruthyId(p.selectedVoucher)
      && |r.value.schedule| == |p.updated| && |r.value.serviceId| == |p.updated|
      && (forall j :: 0 <= j < |p.updated| ==>
            r.value.schedule[j] == ScheduleSlot(p.updated[j].startTime, p.updated[j].startDate)
            && r.value.serviceId[j] == p.updated[j].service.serviceId)
      && (Any(p.updated, HasStylist) ==>
            |r.value.stylistId| == |p.updated|
            && forall j :: 0 <= j < |p.updated| ==> r.value.stylistId[j] == p.updated[j].stylistId)
      && (!Any(p.updated, HasStylist) ==> r.value.stylistId == [])
  {
    if |userName| == 0 || |phone| == 0 then Err(NameOrPhoneMissing)
    else if !IsTenDigits(phone) then Err(PhoneNotTenDigits)
    else
      Ok(Request(
        userName, phone, TruthyId(p.selectedVoucher),
        Map(p.updated, SlotOf),
        Map(p.updated, ServiceIdOf),
        if Any(p.updated, HasStylist) then Map(p.updated, StylistOf) else []))
  }

  /** The request carries everything needed to rebuild the lines' service
      ids and slots: reading them back off the request gives the lines'
      own values, line by line. */
  lemma RequestMatchesLines(p: Page, userName: string, phone: string, j: int)
    requires ConfirmBooking(p, userName, phone).Ok?
    requires 0 <= j < |p.updated|
    ensures var req := ConfirmBooking(p, userName, phone).value;
      req.serviceId[j] == p.updated[j].service.serviceId
      && req.schedule[j].startDate == p.updated[j].startDate
      && req.schedule[j].startTime == p.updated[j].startTime
  {
  }
}

=== FILE: feedback_slice.dfy ===
/** The feedback slice: append on create, replace-by-id on update,
    whole-list and detail loads, and the loading and error fields. Unlike
    the other slices, a pending action here does not clear the error. */
module FeedbackSlice {
  import opened Common
  import opened SliceTrace

  /** A feedback record; only its id matters to the reducers. */
  datatype Feedback<D> = Feedback(feedbackId: int, content: D)

  /** `findIndex(f => f.feedbackId === id)`: the first position with that
      id, or `None` for `-1`. */
  function FindIndex<D>(fs: seq<Feedback<D>>, id: int): (r: Option<nat>)
    ensures r.None? <==> forall i :: 0 <= i < |fs| ==> fs[i].feedbackId != id
    ensures r.Some? ==> r.value < |fs| && fs[r.value].feedbackId == id
    ensures r.Some? ==> forall j :: 0 <= j < r.value ==> fs[j].feedbackId != id
  {
    if |fs| == 0 then None
    else if fs[0].feedbackId == id then Some(0)
    else
      match FindIndex(fs[1..], id)
      case None => None
      case Some(i) => Some(i + 1)
  }

  /** The `updateFeedback.fulfilled` list edit: the first feedback with the
      payload's id is replaced by the payload; with no such feedback the
      list stays as it is. */
  function ReplaceFirst<D>(fs: seq<Feedback<D>>, updated: Feedback<D>): (r: seq<Feedback<D>>)
    ensures |r| == |fs|
    ensures FindIndex(fs, updated.feedbackId).None? ==> r == fs
    ensures FindIndex(fs, updated.feedbackId).Some? ==>
      r == fs[FindIndex(fs, updated.feedbackId).value := updated]
  {
    match FindIndex(fs, updated.feedbackId)
    case None => fs
    case Some(i) => fs[i := updated]
  }

  /** Only the first match is replaced: a later feedback with the same id
      keeps its old content, and every other feedback is untouched. */
  lemma ReplaceFirstOnlyFirst<D>(fs: seq<Feedback<D>>, updated: Feedback<D>, i: nat, j: nat)
    requires i < j < |fs|
    requires fs[i].feedbackId == updated.feedbackId && fs[j].feedbackId == updated.feedbackId
    requires forall k :: 0 <= k < i ==> fs[k].feedbackId != updated.feedbackId
    ensures ReplaceFirst(fs, updated)[i] == updated
    ensures ReplaceFirst(fs, updated)[j] == fs[j]
  {
    var f := FindIndex(fs, updated.feedbackId);
    assert f.Some? && f.value == i;
  }

  /** Repeating an update changes nothing more. */
  lemma ReplaceFirstIdempotent<D>(fs: seq<Feedback<D>>, updated: Feedback<D>)
    ensures ReplaceFirst(ReplaceFirst(fs, updated), updated) == ReplaceFirst(fs, updated)
  {
    var id := updated.feedbackId;
    var once := ReplaceFirst(fs, updated);
    match FindIndex(fs, id)
    case None =>
    case Some(i) =>
      var g := FindIndex(once, id);
      assert once[i] == updated;
      assert forall k :: 0 <= k < i ==> once[k] == fs[k];
      assert g.Some? && g.value == i;
  }

  datatype FeedbackState<D, E> = FeedbackState(
    feedbacks: seq<Feedback<D>>,
    feedbackDetail: Option<Feedback<D>>,
    isLoading: bool,
    error: Option<E>)

  /** The four calls, each with its pending, fulfilled and rejected
      action. */
  datatype FeedbackAction<D, E> =
    | Pending
    | Created(feedback: Feedback<D>)
    | Updated(feedback: Feedback<D>)
    | ListLoaded(list: seq<Feedback<D>>)
    | DetailLoaded(detail: Feedback<D>)
    | Rejected(reason: E)

  function Reduce<D, E>(s: FeedbackState<D, E>, a: FeedbackAction<D, E>): (r: FeedbackState<D, E>)
    ensures a.Pending? ==> r == s.(isLoading := true)
    ensures a.Created? ==> r == s.(isLoading := false, feedbacks := s.feedbacks + [a.feedback])
    ensures a.Updated? ==> r == s.(isLoading := false, feedbacks := ReplaceFirst(s.feedbacks, a.feedback))
    ensures a.ListLoaded? ==> r == s.(isLoading := false, feedbacks := a.list)
    ensures a.DetailLoaded? ==> r == s.(isLoading := false, feedbackDetail := Some(a.detail))
    ensures a.Rejected? ==> r == s.(isLoading := false, error := Some(a.reason))
  {
    match a
    case Pending => s.(isLoading := true)
    case Created(f) => s.(isLoading := false, feedbacks := s.feedbacks + [f])
    case Updated(f) => s.(isLoading := false, feedbacks := ReplaceFirst(s.feedbacks, f))
    case ListLoaded(l) => s.(isLoading := false, feedbacks := l)
    case DetailLoaded(d) => s.(isLoading := false, feedbackDetail := Some(d))
    case Rejected(e) => s.(isLoading := false, error := Some(e))
  }

  function LoadingWrite<D, E>(a: FeedbackAction<D, E>): Option<bool>
  {
    Some(a.Pending?)
  }

  function ErrorWrite<D, E>(a: FeedbackAction<D, E>): Option<Option<E>>
  {
    if a.Rejected? then Some(Some(a.reason)) else None
  }

  /** The error, once set, stays until the next rejection replaces it:
      after any run it is the reason of the last rejection, or the
      starting error when there was none. */
  lemma RunError<D(!new), E(!new)>(s: FeedbackState<D, E>, acts: seq<FeedbackAction<D, E>>)
    ensures Run(s, acts, Reduce).error == LastWrite(s.error, Map(acts, ErrorWrite))
  {
    RunField(s, acts, Reduce, (st: FeedbackState<D, E>) => st.error, ErrorWrite);
  }

  /** The slice is loading exactly when the last action was a pending one. */
  lemma RunLoading<D(!new), E(!new)>(s: FeedbackState<D, E>, acts: seq<FeedbackAction<D, E>>)
    ensures Run(s, acts, Reduce).isLoading == LastWrite(s.isLoading, Map(acts, LoadingWrite))
  {
    RunField(s, acts, Reduce, (st: FeedbackState<D, E>) => st.isLoading, LoadingWrite);
  }

  /** Only a rejection touches the error, so a run with no rejection
      leaves it exactly as it was, pending actions included. */
  lemma {:induction false} NoRejectionKeepsError<D, E>(s: FeedbackState<D, E>, acts: seq<FeedbackAction<D, E>>)
    requires forall i :: 0 <= i < |acts| ==> !acts[i].Rejected?
    ensures Run(s, acts, Reduce).error == s.error
    decreases |acts|
  {
    if |acts| > 0 {
      NoRejectionKeepsError(Reduce(s, acts[0]), acts[1..]);
    }
  }
}

=== FILE: final_schedule_modal.dfy ===
/** The appointment summary dialog of the service-card flow: the total
    over the chosen entries, the voucher discount, the phone field, and
    the booking payload with the chosen schedule ids merged without
    repeats. */
module FinalScheduleModal {
  import opened Common
  import opened Text
  import opened Catalog

  /** One chosen entry: `{ service?, stylist?, schedules? }`. */
  datatype Entry = Entry(
    service: Option<Service>,
    stylist: Option<Stylist>,
    schedules: Option<seq<int>>)

  function EntryPrice(e: Entry): nat
  {
    match e.service
    case Some(s) => s.price.GetOr(0)
    case None => 0
  }

  /** `bookingData.reduce((acc, item) => acc + (item.service?.price || 0), 0)`. */
  function Total(entries: seq<Entry>): nat
  {
    Sum(entries, EntryPrice)
  }

  /** The total over two batches of entries is the sum of their totals. */
  lemma TotalAppend(a: seq<Entry>, b: seq<Entry>)
    ensures Total(a + b) == Total(a) + Total(b)
  {
    SumAppend(a, b, EntryPrice);
  }

  /** `applyVoucherDiscount()`: the total less the selected voucher's
      discount, never below zero; the plain total when no voucher with
      that id is listed (`''` selects none). */
  function ApplyVoucherDiscount(total: nat, vouchers: seq<Voucher>, selected: Option<int>): (r: nat)
    ensures r <= total
    ensures (selected.None? || FindVoucher(vouchers, selected.value).None?) ==> r == total
    ensures selected.Some? && FindVoucher(vouchers, selected.value).Some? ==>
      var discount := FindVoucher(vouchers, selected.value).value.discountAmount;
      (discount <= total ==> r + discount == total) && (discount > total ==> r == 0)
  {
    if selected.None? then total
    else
      match FindVoucher(vouchers, selected.value)
      case None => total
      case Some(v) => if total >= v.discountAmount then total - v.discountAmount else 0
  }

  /** The phone field and its error line. */
  datatype PhoneField = PhoneField(phone: string, phoneError: bool)

  /** What the field accepts while typing: digits only, at most ten. */
  predicate Acceptable(input: string)
  {
    AllDigits(input) && |input| <= 10
  }

  /** `handlePhoneChange`: take the input if it is acceptable, otherwise
      keep the old number and show the error. */
  function HandlePhoneChange(f: PhoneField, input: string): (r: PhoneField)
    ensures Acceptable(input) ==> r == PhoneField(input, false)
    ensures !Acceptable(input) ==> r == f.(phoneError := true)
  {
    if Acceptable(input) then PhoneField(input, false) else f.(phoneError := true)
  }

  /** Whatever is typed, a field that starts acceptable stays acceptable:
      the phone never holds a non-digit or more than ten digits. */
  lemma {:induction false} TypingKeepsPhoneAcceptable(f: PhoneField, inputs: seq<string>)
    requires Acceptable(f.phone)
    ensures Acceptable(TypeAll(f, inputs).phone)
    decreases |inputs|
  {
    if |inputs| > 0 {
      TypingKeepsPhoneAcceptable(HandlePhoneChange(f, inputs[0]), inputs[1..]);
    }
  }

  function TypeAll(f: PhoneField, inputs: seq<string>): PhoneField
    decreases |inputs|
  {
    if |inputs| == 0 then f else TypeAll(HandlePhoneChange(f, inputs[0]), inputs[1..])
  }

  /** `isValidPhone()`: `phone.length === 10 && /^\d{10}$/.test(phone)`. */
  predicate IsValidPhone(phone: string)
  {
    |phone| == 10 && IsTenDigits(phone)
  }

  /** The length test is redundant: validity is exactly "ten digits",
      and an acceptable field is valid exactly when it is full. */
  lemma ValidPhoneIsTenDigits(phone: string)
    ensures IsValidPhone(phone) <==> IsTenDigits(phone)
    ensures Acceptable(phone) ==> (IsValidPhone(phone) <==> |phone| == 10)
  {
  }

  /** The "Confirm Appointment" button is enabled. */
  predicate ConfirmEnabled(name: string, phone: string)
  {
    |name| > 0 && IsValidPhone(phone)
  }

  /** The signed-in user's profile. */
  datatype Profile = Profile(fullName: string, phone: string)

  datatype Payload = Payload(
    userName: string,
    phone: string,
    voucherId: Option<int>,
    scheduleId: seq<int>,
    serviceId: seq<Option<int>>,
    stylistId: seq<Option<int>>)

  function SchedulesOf(e: Entry): seq<int> { e.schedules.GetOr([]) }

  /** `item.service?.serviceId || ''`; `None` is the blank. */
  function ServiceIdOf(e: Entry): Option<int>
  {
    match e.service
    case Some(s) => TruthyId(Some(s.serviceId))
    case None => None
  }

  /** `item.stylist?.stylistId || ''`; `None` is the blank. */
  function StylistIdOf(e: Entry): Option<int>
  {
    match e.stylist
    case Some(s) => TruthyId(Some(s.stylistId))
    case None => None
  }

  /** How a press of "Confirm" ends: an invalid phone stops it silently;
      a signed-in session whose profile has not loaded throws on
      `user.fullName` before anything is sent; otherwise the payload
      goes out. */
  datatype Confirmation = PhoneRejected | ProfileMissing | Sent(payload: Payload)

  /** `handleConfirmBooking`, reading the two store fields it depends on
      separately: `isAuthenticated` from the auth slice and `user` from
      the profile slice (`None` while the profile is not loaded). A
      signed-in user books under the profile's name and phone, and only a
      signed-in user's voucher is sent. */
  function BookingPayload(entries: seq<Entry>, isAuthenticated: bool, user: Option<Profile>, name: string,
                          phone: string, selectedVoucher: Option<int>): (r: Confirmation)
    ensures r.PhoneRejected? <==> !IsValidPhone(phone)
    ensures r.ProfileMissing? <==> IsValidPhone(phone) && isAuthenticated && user.None?
    ensures r.Sent? ==>
      && r.payload.userName == (if isAuthenticated then user.value.fullName else name)
      && r.payload.phone == (if isAuthenticated then user.value.phone else phone)
      && (r.payload.voucherId.Some? <==> isAuthenticated && TruthyId(selectedVoucher).Some?)
      && (r.payload.voucherId.Some? ==> r.payload.voucherId == selectedVoucher)
      && |r.payload.serviceId| == |entries| && |r.payload.stylistId| == |entries|
      && (forall i :: 0 <= i < |entries| ==>
            r.payload.serviceId[i] == ServiceIdOf(entries[i])
            && r.payload.stylistId[i] == StylistIdOf(entries[i]))
      && (forall i, k :: 0 <= i < |entries| && 0 <= k < |SchedulesOf(entries[i])| ==>
            SchedulesOf(entries[i])[k] in r.payload.scheduleId)
      && (forall j :: 0 <= j < |r.payload.scheduleId| ==>
            exists i :: 0 <= i < |entries| && r.payload.scheduleId[j] in SchedulesOf(entries[i]))
      && (forall j, k :: 0 <= j < k < |r.payload.scheduleId| ==>
            r.payload.scheduleId[j] != r.payload.scheduleId[k])
  {
    if !IsValidPhone(phone) then PhoneRejected
    else if isAuthenticated && user.None? then ProfileMissing
    else
      var ids := FlatMap(entries, SchedulesOf);
      var merged := Dedup(ids);
      assert forall j :: 0 <= j < |merged| ==> merged[j] in ids;
      Sent(Payload(
        if isAuthenticated then user.value.fullName else name,
        if isAuthenticated then user.value.phone else phone,
        if isAuthenticated && TruthyId(selectedVoucher).Some? then selectedVoucher else None,
        merged,
        Map(entries, ServiceIdOf),
        Map(entries, StylistIdOf)))
  }

  /** The merged schedule ids keep the order in which the ids first
      appear across the entries. */
  lemma PayloadSchedulesInFirstOccurrenceOrder(entries: seq<Entry>, isAuthenticated: bool, user: Option<Profile>,
                                              name: string, phone: string, selectedVoucher: Option<int>)
    requires BookingPayload(entries, isAuthenticated, user, name, phone, selectedVoucher).Sent?
    ensures var ids := FlatMap(entries, SchedulesOf);
      var sched := BookingPayload(entries, isAuthenticated, user, name, phone, selectedVoucher).payload.scheduleId;
      forall i, j :: 0 <= i < j < |sched| ==>
        (sched[i] in ids && sched[j] in ids && FirstIndex(ids, sched[i]) < FirstIndex(ids, sched[j]))
  {
    DedupKeepsFirstOccurrenceOrder(FlatMap(entries, SchedulesOf));
  }

  /** Whenever the button is enabled the confirmation goes through to a
      payload, except in a signed-in session whose profile is missing;
      the handler itself does not look at the name. */
  lemma EnabledConfirmSends(entries: seq<Entry>, isAuthenticated: bool, user: Option<Profile>, name: string,
                            phone: string, selectedVoucher: Option<int>)
    requires ConfirmEnabled(name, phone)
    ensures BookingPayload(entries, isAuthenticated, user, name, phone, selectedVoucher).Sent?
        <==> !(isAuthenticated && user.None?)
  {
  }
}

=== FILE: grouping.dfy ===
/** Grouping as the components do it with `reduce` into a plain object:
    `acc[key(x)]` is created the first time a key is met and extended
    afterwards. Plain-object keys keep their insertion order, so a grouping
    is a list of groups in order of each key's first occurrence. */
module Grouping {
  import opened Common

  datatype Group<K, T> = Group(key: K, items: seq<T>)

  predicate DistinctKeys<K(==), T>(gs: seq<Group<K, T>>)
  {
    forall i, j :: 0 <= i < j < |gs| ==> gs[i].key != gs[j].key
  }

  predicate HasKey<K(==), T>(gs: seq<Group<K, T>>, k: K)
  {
    exists i :: 0 <= i < |gs| && gs[i].key == k
  }

  function KeyEq<T, K(==)>(key: T -> K, k: K): T -> bool
  {
    x => key(x) == k
  }

  /** One step of the `reduce`: add `x` to the group of key `k`, opening a
      new group at the end when `k` has not been seen. The keys stay as
      they were, plus `k` at the end when it is new; `AddToContents` says
      what happens to the items. */
  function AddTo<K(==), T>(gs: seq<Group<K, T>>, k: K, x: T): (r: seq<Group<K, T>>)
    requires DistinctKeys(gs)
    ensures DistinctKeys(r)
    ensures HasKey(gs, k) ==> |r| == |gs|
    ensures !HasKey(gs, k) ==> |r| == |gs| + 1 && r[|gs|].key == k
    ensures forall i :: 0 <= i < |gs| ==> r[i].key == gs[i].key
  {
    if |gs| == 0 then [Group(k, [x])]
    else if gs[0].key == k then [Group(k, gs[0].items + [x])] + gs[1..]
    else
      DistinctTail(gs);
      var rest := AddTo(gs[1..], k, x);
      HasKeyTail(gs, k);
      var r := [gs[0]] + rest;
      assert r[1..] == rest;
      r
  }

  /** `x` joins exactly the group of its key, or a new last group; no other
      group changes. */
  lemma {:induction false} AddToContents<K, T>(gs: seq<Group<K, T>>, k: K, x: T)
    requires DistinctKeys(gs)
    ensures forall i :: 0 <= i < |gs| && gs[i].key != k ==> AddTo(gs, k, x)[i] == gs[i]
    ensures forall i :: 0 <= i < |gs| && gs[i].key == k ==> AddTo(gs, k, x)[i].items == gs[i].items + [x]
    ensures !HasKey(gs, k) ==> AddTo(gs, k, x) == gs + [Group(k, [x])]
  {
    if |gs| > 0 && gs[0].key != k {
      DistinctTail(gs);
      HasKeyTail(gs, k);
      AddToContents(gs[1..], k, x);
      var r := AddTo(gs, k, x);
      assert r[1..] == AddTo(gs[1..], k, x);
    }
  }

  lemma DistinctTail<K, T>(gs: seq<Group<K, T>>)
    requires |gs| > 0 && DistinctKeys(gs)
    ensures DistinctKeys(gs[1..])
    ensures forall i :: 0 <= i < |gs| - 1 ==> gs[1..][i].key != gs[0].key
  {
  }

  /** A key is present exactly when it heads the list or is in its tail. */
  lemma HasKeyTail<K, T>(gs: seq<Group<K, T>>, k: K)
    requires |gs| > 0
    ensures HasKey(gs, k) <==> gs[0].key == k || HasKey(gs[1..], k)
  {
    if HasKey(gs[1..], k) {
      var i :| 0 <= i < |gs[1..]| && gs[1..][i].key == k;
      assert gs[i + 1].key == k;
    }
    if HasKey(gs, k) && gs[0].key != k {
      var i :| 0 <= i < |gs| && gs[i].key == k;
      assert gs[1..][i - 1].key == k;
    }
  }

  /** `xs.reduce((acc, x) => { acc[key(x)] ... }, {})`. */
  function GroupBy<T, K(==)>(xs: seq<T>, key: T -> K): (r: seq<Group<K, T>>)
    ensures DistinctKeys(r)
  {
    if |xs| == 0 then []
    else AddTo(GroupBy(xs[..|xs| - 1], key), key(xs[|xs| - 1]), xs[|xs| - 1])
  }

  /** Sum over all groups of the weights of their items. */
  function GroupsWeight<K, T>(gs: seq<Group<K, T>>, w: T -> nat): nat
  {
    if |gs| == 0 then 0 else Sum(gs[0].items, w) + GroupsWeight(gs[1..], w)
  }

  lemma {:induction false} AddToWeight<K, T>(gs: seq<Group<K, T>>, k: K, x: T, w: T -> nat)
    requires DistinctKeys(gs)
    ensures GroupsWeight(AddTo(gs, k, x), w) == GroupsWeight(gs, w) + w(x)
  {
    if |gs| == 0 {
      assert Sum([x], w) == w(x);
    } else if gs[0].key == k {
      SumAppend(gs[0].items, [x], w);
      assert AddTo(gs, k, x)[1..] == gs[1..];
    } else {
      AddToWeight(gs[1..], k, x, w);
      assert AddTo(gs, k, x)[1..] == AddTo(gs[1..], k, x);
    }
  }

  /** The properties every grouping has: keys are distinct, each group
      holds exactly the items of its key in input order and is never
      empty, and every item's key has a group. */
  predicate IsGroupingOf<T(==), K(==)>(gs: seq<Group<K, T>>, xs: seq<T>, key: T -> K)
  {
    && DistinctKeys(gs)
    && (forall i :: 0 <= i < |gs| ==> gs[i].items == Filter(xs, KeyEq(key, gs[i].key)))
    && (forall i :: 0 <= i < |gs| ==> |gs[i].items| > 0)
    && (forall j :: 0 <= j < |xs| ==> HasKey(gs, key(xs[j])))
  }

  /** Some item carries the key `k`. */
  predicate ItemHasKey<T, K(==)>(xs: seq<T>, key: T -> K, k: K)
  {
    exists j :: 0 <= j < |xs| && key(xs[j]) == k
  }

  /** In a grouping every key is the key of some item: a group is only
      ever opened by an item. */
  lemma KeysComeFromItems<T, K>(gs: seq<Group<K, T>>, xs: seq<T>, key: T -> K)
    requires IsGroupingOf(gs, xs, key)
    ensures forall i :: 0 <= i < |gs| ==> ItemHasKey(xs, key, gs[i].key)
  {
    forall i | 0 <= i < |gs|
      ensures ItemHasKey(xs, key, gs[i].key)
    {
      var x := gs[i].items[0];
      assert x in Filter(xs, KeyEq(key, gs[i].key));
      assert KeyEq(key, gs[i].key)(x);
      var j :| 0 <= j < |xs| && xs[j] == x;
      assert key(xs[j]) == gs[i].key;
    }
  }

  /** Adding an item leaves no group empty. */
  lemma AddToKeepsNonEmpty<T, K>(gs: seq<Group<K, T>>, k: K, x: T)
    requires DistinctKeys(gs)
    requires forall i :: 0 <= i < |gs| ==> |gs[i].items| > 0
    ensures var r := AddTo(gs, k, x);
      forall i :: 0 <= i < |r| ==> |r[i].items| > 0
  {
    AddToContents(gs, k, x);
  }

  /** Filtering by a key splits off the last item. */
  lemma FilterLast<T, K>(xs: seq<T>, key: T -> K, k: K)
    requires |xs| > 0
    ensures Filter(xs, KeyEq(key, k))
         == Filter(xs[..|xs| - 1], KeyEq(key, k)) + (if key(xs[|xs| - 1]) == k then [xs[|xs| - 1]] else [])
  {
    FilterAppend(xs[..|xs| - 1], [xs[|xs| - 1]], KeyEq(key, k));
    assert xs == xs[..|xs| - 1] + [xs[|xs| - 1]];
  }

  /** A key no item carries selects nothing. */
  lemma {:induction false} FilterAbsentKey<T, K>(xs: seq<T>, key: T -> K, k: K)
    requires forall j :: 0 <= j < |xs| ==> key(xs[j]) != k
    ensures Filter(xs, KeyEq(key, k)) == []
  {
    if |xs| > 0 {
      assert key(xs[0]) != k;
      FilterAbsentKey(xs[1..], key, k);
    }
  }

  lemma AddToKeepsItems<T, K>(gs: seq<Group<K, T>>, xs: seq<T>, key: T -> K)
    requires |xs| > 0 && IsGroupingOf(gs, xs[..|xs| - 1], key)
    ensures var r := AddTo(gs, key(xs[|xs| - 1]), xs[|xs| - 1]);
      forall i :: 0 <= i < |r| ==> r[i].items == Filter(xs, KeyEq(key, r[i].key))
  {
    var init, x := xs[..|xs| - 1], xs[|xs| - 1];
    var r := AddTo(gs, key(x), x);
    AddToContents(gs, key(x), x);
    forall i | 0 <= i < |r|
      ensures r[i].items == Filter(xs, KeyEq(key, r[i].key))
    {
      FilterLast(xs, key, r[i].key);
      if i == |gs| {
        assert !HasKey(gs, key(x));
        forall j | 0 <= j < |init|
          ensures key(init[j]) != key(x)
        {
        }
        FilterAbsentKey(init, key, key(x));
      }
    }
  }

  lemma AddToKeepsKeys<T, K>(gs: seq<Group<K, T>>, xs: seq<T>, key: T -> K)
    requires |xs| > 0 && IsGroupingOf(gs, xs[..|xs| - 1], key)
    ensures var r := AddTo(gs, key(xs[|xs| - 1]), xs[|xs| - 1]);
      forall j :: 0 <= j < |xs| ==> HasKey(r, key(xs[j]))
  {
    var init, x := xs[..|xs| - 1], xs[|xs| - 1];
    var r := AddTo(gs, key(x), x);
    forall j | 0 <= j < |xs|
      ensures HasKey(r, key(xs[j]))
    {
      if j < |init| {
        assert init[j] == xs[j];
        var i :| 0 <= i < |gs| && gs[i].key == key(init[j]);
        assert r[i].key == key(xs[j]);
      } else if HasKey(gs, key(x)) {
        var i :| 0 <= i < |gs| && gs[i].key == key(x);
        assert r[i].key == key(x);
      } else {
        assert r[|gs|].key == key(x);
      }
    }
  }

  /** `GroupBy` meets the grouping properties: distinct keys, each group
      exactly the items of its key in input order and never empty, every
      item's key present, and no key without an item. */
  lemma {:induction false} GroupByIsGrouping<T, K>(xs: seq<T>, key: T -> K)
    ensures IsGroupingOf(GroupBy(xs, key), xs, key)
    ensures forall i :: 0 <= i < |GroupBy(xs, key)| ==> ItemHasKey(xs, key, GroupBy(xs, key)[i].key)
  {
    GroupByIsGroupingOf(xs, key);
    KeysComeFromItems(GroupBy(xs, key), xs, key);
  }

  /** No group is empty, and every key is some item's key. */
  lemma GroupsFromItems<T, K>(xs: seq<T>, key: T -> K)
    ensures forall i :: 0 <= i < |GroupBy(xs, key)| ==>
      |GroupBy(xs, key)[i].items| > 0 && ItemHasKey(xs, key, GroupBy(xs, key)[i].key)
  {
    GroupByIsGrouping(xs, key);
  }

  lemma {:induction false} GroupByIsGroupingOf<T, K>(xs: seq<T>, key: T -> K)
    ensures IsGroupingOf(GroupBy(xs, key), xs, key)
  {
    if |xs| > 0 {
      GroupByIsGroupingOf(xs[..|xs| - 1], key);
      AddToIsGrouping(GroupBy(xs[..|xs| - 1], key), xs, key);
    }
  }

  /** Adding the last item to a grouping of the others groups them all. */
  lemma AddToIsGrouping<T, K>(gs: seq<Group<K, T>>, xs: seq<T>, key: T -> K)
    requires |xs| > 0 && IsGroupingOf(gs, xs[..|xs| - 1], key)
    ensures IsGroupingOf(AddTo(gs, key(xs[|xs| - 1]), xs[|xs| - 1]), xs, key)
  {
    AddToKeepsItems(gs, xs, key);
    AddToKeepsKeys(gs, xs, key);
    AddToKeepsNonEmpty(gs, key(xs[|xs| - 1]), xs[|xs| - 1]);
  }

  /** The `reduce` loses no weight: the group sums add up to the sum over
      all items. */
  lemma {:induction false} GroupByWeight<T, K>(xs: seq<T>, key: T -> K, w: T -> nat)
    ensures GroupsWeight(GroupBy(xs, key), w) == Sum(xs, w)
  {
    if |xs| > 0 {
      GroupByWeight(xs[..|xs| - 1], key, w);
      AddToWeight(GroupBy(xs[..|xs| - 1], key), key(xs[|xs| - 1]), xs[|xs| - 1], w);
      LastSplitsSum(xs, w);
    }
  }

  lemma LastSplitsSum<T>(xs: seq<T>, w: T -> nat)
    requires |xs| > 0
    ensures Sum(xs, w) == Sum(xs[..|xs| - 1], w) + w(xs[|xs| - 1])
  {
    SumAppend(xs[..|xs| - 1], [xs[|xs| - 1]], w);
    assert xs == xs[..|xs| - 1] + [xs[|xs| - 1]];
    assert Sum([xs[|xs| - 1]], w) == w(xs[|xs| - 1]);
  }
}

=== FILE: paging.dfy ===
/** Pagination as the list views do it: `Array.prototype.slice` with the
    bounds a page number gives, `Math.ceil(n / size)` page counts, and the
    `emptyRows` filler count the tables pad their last page with. */
module Paging {
  import opened Common

  function Min(a: int, b: int): int { if a < b then a else b }

  /** How `slice` reads one bound: negative counts from the end, and
      everything is clamped to `[0, n]`. */
  function ClampIndex(i: int, n: nat): (r: nat)
    ensures r <= n
    ensures 0 <= i ==> r == Min(i, n)
  {
    if i < 0 then Max(n + i, 0) else Min(i, n)
  }

  /** `xs.slice(start, end)`. */
  function JsSlice<T>(xs: seq<T>, start: int, end: int): (r: seq<T>)
    ensures 0 <= start <= end ==> r == xs[Min(start, |xs|)..Min(end, |xs|)]
    ensures 0 <= start <= end ==> |r| <= end - start
    ensures 0 <= start && |xs| <= start ==> r == []
  {
    var from := ClampIndex(start, |xs|);
    var to := ClampIndex(end, |xs|);
    if from < to then xs[from..to] else []
  }

  /** Page `p` (counted from 1) of `size` items:
      `slice((p - 1) * size, (p - 1) * size + size)`. */
  function Page<T>(xs: seq<T>, p: int, size: nat): (r: seq<T>)
    requires p >= 1
    ensures |r| <= size
    ensures (p - 1) * size >= 0 && r == Window(xs, (p - 1) * size, size)
  {
    PageArith(p, size);
    JsSlice(xs, (p - 1) * size, (p - 1) * size + size)
  }

  /** The items from position `start` on, at most `len` of them, cut
      off at the end of the list. */
  function Window<T>(list: seq<T>, start: nat, len: nat): seq<T>
  {
    list[Min(start, |list|)..Min(start + len, |list|)]
  }

  /** `list.slice(page * rowsPerPage, page * rowsPerPage + rowsPerPage)`,
      unguarded: for a size that is not negative it is the page
      `[page * rowsPerPage, page * rowsPerPage + rowsPerPage)`. */
  function PageRows<T>(list: seq<T>, page: nat, rowsPerPage: int): (r: seq<T>)
    ensures rowsPerPage >= 0 ==> page * rowsPerPage >= 0 && r == Window(list, page * rowsPerPage, rowsPerPage)
    ensures rowsPerPage >= 0 ==> |r| <= rowsPerPage
  {
    NonNegativeProduct(page, rowsPerPage);
    JsSlice(list, page * rowsPerPage, page * rowsPerPage + rowsPerPage)
  }

  /** The rows a table shows on page `page` (counted from 0) when it
      guards the slice with `rowsPerPage > 0`: the page for a positive
      size, and every row for the "All" option or any other size that is
      not positive. */
  function TableRows<T>(list: seq<T>, page: nat, rowsPerPage: int): (r: seq<T>)
    ensures rowsPerPage <= 0 ==> r == list
    ensures rowsPerPage > 0 ==> page * rowsPerPage >= 0 && r == Window(list, page * rowsPerPage, rowsPerPage)
    ensures rowsPerPage > 0 ==> |r| <= rowsPerPage
  {
    if rowsPerPage > 0 then PageRows(list, page, rowsPerPage) else list
  }

  lemma NonNegativeProduct(a: nat, b: int)
    ensures b >= 0 ==> a * b >= 0
  {
  }

  /** `Math.ceil(n / size)`. */
  function PageCount(n: nat, size: nat): (c: nat)
    requires size > 0
    ensures c * size >= n
    ensures c > 0 ==> (c - 1) * size < n
    ensures c == 0 <==> n == 0
  {
    (n + size - 1) / size
  }

  /** Page `p` starts at a non-negative offset and ends at `p * size`. */
  lemma PageArith(p: int, size: nat)
    requires p >= 1
    ensures 0 <= (p - 1) * size
    ensures (p - 1) * size + size == p * size
  {
  }

  /** Pages past the last one are empty. */
  lemma PageBeyondCount<T>(xs: seq<T>, p: int, size: nat)
    requires size > 0
    requires p > PageCount(|xs|, size)
    ensures Page(xs, p, size) == []
  {
    var c := PageCount(|xs|, size);
    assert (p - 1) * size >= c * size;
  }

  /** Pages 1 to `k` laid end to end. */
  function PagesUpTo<T>(xs: seq<T>, size: nat, k: nat): seq<T>
  {
    if k == 0 then [] else PagesUpTo(xs, size, k - 1) + Page(xs, k, size)
  }

  lemma {:induction false} PagesUpToIsPrefix<T>(xs: seq<T>, size: nat, k: nat)
    ensures PagesUpTo(xs, size, k) == xs[..Min(k * size, |xs|)]
  {
    if k > 0 {
      PagesUpToIsPrefix(xs, size, k - 1);
      var lo, hi := PageBounds(xs, size, k);
      PrefixSplit(xs, lo, hi);
    }
  }

  /** Page `k` is the stretch between the ends of pages `k - 1` and `k`. */
  lemma PageBounds<T>(xs: seq<T>, size: nat, k: nat) returns (lo: nat, hi: nat)
    requires k > 0
    ensures lo == Min((k - 1) * size, |xs|) && hi == Min(k * size, |xs|)
    ensures lo <= hi <= |xs|
    ensures Page(xs, k, size) == xs[lo..hi]
  {
    PageArith(k, size);
    lo, hi := Min((k - 1) * size, |xs|), Min(k * size, |xs|);
  }

  lemma PrefixSplit<T>(xs: seq<T>, lo: nat, hi: nat)
    requires lo <= hi <= |xs|
    ensures xs[..lo] + xs[lo..hi] == xs[..hi]
  {
  }

  /** A row count of 0 or less makes every page's row budget 0 or less. */
  lemma NonPositiveProduct(a: nat, b: int)
    ensures b <= 0 ==> a * b <= 0
  {
  }

  /** Reading every page in turn, from 1 to the page count, gives back
      the whole list: nothing is skipped and nothing is repeated. */
  lemma AllPagesReassemble<T>(xs: seq<T>, size: nat)
    requires size > 0
    ensures PagesUpTo(xs, size, PageCount(|xs|, size)) == xs
  {
    PagesUpToIsPrefix(xs, size, PageCount(|xs|, size));
  }

  /** `Math.max(0, (1 + page) * rowsPerPage - n)` for a page counted
      from 0. */
  function EmptyRows(page: int, rowsPerPage: int, n: nat): int
  {
    Max(0, (1 + page) * rowsPerPage - n)
  }

  /** The rows shown on a 0-based page together with the filler rows
      always fill the page exactly, as long as the page starts inside
      the list. */
  lemma FillerCompletesPage<T>(xs: seq<T>, page: nat, rows: nat)
    requires page * rows <= |xs|
    ensures |Page(xs, page + 1, rows)| + EmptyRows(page, rows, |xs|) == rows
  {
    assert (page + 1 - 1) * rows == page * rows;
  }
}

=== FILE: register_page.dfy ===
/** The sign-up form's validation rules and the conversion done on
    submit. Calendar dates are (year, month, day) triples; the current
    date is a parameter. */
module RegisterPage {
  import opened Common
  import opened Text
  import opened Clock

  /** `(a.month, a.day)` comes strictly before `(b.month, b.day)`. */
  predicate EarlierInYear(a: CalDate, b: CalDate)
  {
    a.month < b.month || (a.month == b.month && a.day < b.day)
  }

  /** The `'age'` test: the difference of the years, one less when this
      year's birthday has not yet come, must be at least 18. */
  predicate OldEnough(birth: CalDate, today: CalDate)
  {
    var age := today.year - birth.year;
    var monthDifference := today.month - birth.month;
    var dayDifference := today.day - birth.day;
    if monthDifference < 0 || (monthDifference == 0 && dayDifference < 0) then age - 1 >= 18
    else age >= 18
  }

  /** Lexicographic order on dates. */
  predicate OnOrBefore(a: CalDate, b: CalDate)
  {
    a.year < b.year || (a.year == b.year && !EarlierInYear(b, a))
  }

  /** The age test accepts exactly the people whose eighteenth birthday
      is today or already past. */
  lemma OldEnoughIffEighteenthBirthdayPassed(birth: CalDate, today: CalDate)
    ensures OldEnough(birth, today) <==>
      OnOrBefore(CalDate(birth.year + 18, birth.month, birth.day), today)
  {
  }

  /** Someone turning 18 today is accepted; someone turning 18 tomorrow,
      or next month, is not. */
  lemma EighteenthBirthdayBoundary(today: CalDate)
    ensures OldEnough(CalDate(today.year - 18, today.month, today.day), today)
    ensures !OldEnough(CalDate(today.year - 18, today.month, today.day + 1), today)
    ensures !OldEnough(CalDate(today.year - 18, today.month + 1, 1), today)
  {
  }

  /** The characters `[a-zA-Z0-9._%+-]`. */
  predicate LocalChar(c: char)
  {
    ('a' <= c <= 'z') || ('A' <= c <= 'Z') || IsDigit(c)
    || c == '.' || c == '_' || c == '%' || c == '+' || c == '-'
  }

  const GmailSuffix: string := "@gmail.com"

  /** `/^[a-zA-Z0-9._%+-]+@gmail\.com$/`. */
  predicate IsGmailAddress(email: string)
  {
    && |email| > |GmailSuffix|
    && email[|email| - |GmailSuffix|..] == GmailSuffix
    && forall i :: 0 <= i < |email| - |GmailSuffix| ==> LocalChar(email[i])
  }

  /** An address is accepted exactly when it is a non-empty name of the
      allowed characters followed by `@gmail.com`. */
  lemma GmailAddressShape(local: string)
    ensures IsGmailAddress(local + GmailSuffix) <==>
      |local| > 0 && forall i :: 0 <= i < |local| ==> LocalChar(local[i])
  {
    var e := local + GmailSuffix;
    assert e[|e| - |GmailSuffix|..] == GmailSuffix;
    assert forall i :: 0 <= i < |local| ==> e[i] == local[i];
  }

  /** The domain is matched exactly: no other domain, no upper case, and
      no `@` inside the name. */
  lemma GmailRejections()
    ensures IsGmailAddress("abc@gmail.com")
    ensures !IsGmailAddress("abc@yahoo.com")
    ensures !IsGmailAddress("abc@GMAIL.COM")
    ensures !IsGmailAddress("@gmail.com")
    ensures !IsGmailAddress("a@b@gmail.com")
  {
    GmailAddressShape("abc");
    var e := "a@b@gmail.com";
    assert !LocalChar(e[1]);
    assert "abc@yahoo.com"[3..] != GmailSuffix by {
      assert "abc@yahoo.com"[3..][1] == 'y';
    }
    assert "abc@GMAIL.COM"[3..] != GmailSuffix by {
      assert "abc@GMAIL.COM"[3..][1] == 'G';
    }
  }

  datatype Form = Form(
    userName: string,
    phone: string,
    password: string,
    fullName: string,
    email: string,
    gender: string,
    address: string,
    dateOfBirth: Option<CalDate>)

  datatype Field = UserName | Phone | Password | FullName | Email | Gender | Address | DateOfBirth

  predicate GenderValid(g: string) { g == "0" || g == "1" }

  /** The rule `FORM_VALIDATION` states for each field. */
  predicate Rejects(f: Form, today: CalDate, field: Field)
  {
    match field
    case UserName => |f.userName| == 0
    case Phone => !IsTenDigits(f.phone)
    case Password => |f.password| == 0
    case FullName => |f.fullName| == 0
    case Email => !IsGmailAddress(f.email)
    case Gender => !GenderValid(f.gender)
    case Address => |f.address| == 0
    case DateOfBirth => f.dateOfBirth.None? || !OldEnough(f.dateOfBirth.value, today)
  }

  const AllFields: seq<Field> :=
    [UserName, Phone, Password, FullName, Email, Gender, Address, DateOfBirth]

  /** Where a field sits in the form. */
  function Position(field: Field): (i: nat)
    ensures i < |AllFields|
  {
    match field
    case UserName => 0
    case Phone => 1
    case Password => 2
    case FullName => 3
    case Email => 4
    case Gender => 5
    case Address => 6
    case DateOfBirth => 7
  }

  /** The fields of `fields` that are rejected, in order. */
  function ErrorsAmong(f: Form, today: CalDate, fields: seq<Field>): (r: seq<Field>)
    ensures forall field: Field :: field in r <==> field in fields && Rejects(f, today, field)
    ensures IsSubsequence(r, fields)
  {
    FilterIsSubsequence(fields, (field: Field) => Rejects(f, today, field));
    Filter(fields, (field: Field) => Rejects(f, today, field))
  }

  lemma EveryFieldListed(field: Field)
    ensures field in AllFields
  {
    assert AllFields[Position(field)] == field;
  }

  /** The rejected fields, in form order. */
  function FieldErrors(f: Form, today: CalDate): (r: seq<Field>)
    ensures forall field: Field :: field in r <==> Rejects(f, today, field)
    ensures IsSubsequence(r, AllFields)
  {
    forall field: Field
      ensures field in AllFields
    {
      EveryFieldListed(field);
    }
    ErrorsAmong(f, today, AllFields)
  }

  /** What is sent on submit: the form with the gender as a number. */
  datatype Registration = Registration(
    userName: string,
    phone: string,
    password: string,
    fullName: string,
    email: string,
    gender: nat,
    address: string,
    dateOfBirth: CalDate)

  /** `handleSubmitRegister`, reached only when no field is rejected;
      `parseInt(values.gender, 10)` turns `'0'`/`'1'` into 0/1. */
  function Submit(f: Form, today: CalDate): (r: Result<Registration, seq<Field>>)
    ensures r.Err? <==> exists field: Field :: Rejects(f, today, field)
    ensures r.Err? ==> r.error == FieldErrors(f, today)
    ensures r.Ok? ==> r.value.gender <= 1 && NatToString(r.value.gender) == f.gender
    ensures r.Ok? ==>
      && r.value.userName == f.userName && r.value.phone == f.phone
      && r.value.password == f.password && r.value.fullName == f.fullName
      && r.value.email == f.email && r.value.address == f.address
      && Some(r.value.dateOfBirth) == f.dateOfBirth
  {
    var errs := FieldErrors(f, today);
    if |errs| > 0 then
      assert Rejects(f, today, errs[0]);
      Err(errs)
    else
      Ok(Registered(f, today))
  }

  /** The registration sent for a form no rule rejects. */
  function Registered(f: Form, today: CalDate): (r: Registration)
    requires forall field: Field :: !Rejects(f, today, field)
    ensures r.gender <= 1 && NatToString(r.gender) == f.gender
    ensures
      && r.userName == f.userName && r.phone == f.phone
      && r.password == f.password && r.fullName == f.fullName
      && r.email == f.email && r.address == f.address
      && Some(r.dateOfBirth) == f.dateOfBirth
  {
    assert !Rejects(f, today, Gender) && !Rejects(f, today, DateOfBirth);
    ParseIntPrefixOfRendered(0, "");
    ParseIntPrefixOfRendered(1, "");
    assert NatToString(0) + "" == "0" && NatToString(1) + "" == "1";
    var g := ParseIntPrefix(f.gender).value;
    Registration(f.userName, f.phone, f.password, f.fullName, f.email, g, f.address, f.dateOfBirth.value)
  }
}

=== FILE: report_list_table.dfy ===
/** The stylist's report table: filters on the report name and on who
    last updated it, a sort by report id whose direction the header
    toggles, and pages of rows with filler rows. */
module ReportListTable {
  import opened Common
  import opened Text
  import opened Paging
  import opened Sorting

  datatype Report = Report(reportId: int, reportName: string, updateBy: string)

  /** The filter row and the table's paging and sorting state. */
  datatype Table = Table(
    reportNameFilter: string,
    updateByFilter: string,
    sortDirection: Direction,
    page: nat,
    rowsPerPage: int)

  function Initial(): Table { Table("", "", Asc, 0, 5) }

  predicate Matches(t: Table, r: Report)
  {
    ContainsIgnoreCase(r.reportName, t.reportNameFilter) && ContainsIgnoreCase(r.updateBy, t.updateByFilter)
  }

  function ReportIdOf(r: Report): int { r.reportId }

  /** `sortedAndFilteredReports`: the matching reports ordered by id in
      the table's direction. */
  function Rows(reports: seq<Report>, t: Table): (rows: seq<Report>)
    ensures forall r :: r in rows <==> r in reports && Matches(t, r)
    ensures multiset(rows) == multiset(Filter(reports, r => Matches(t, r)))
    ensures t.sortDirection == Asc ==> forall i, j :: 0 <= i < j < |rows| ==> rows[i].reportId <= rows[j].reportId
    ensures t.sortDirection == Desc ==> forall i, j :: 0 <= i < j < |rows| ==> rows[i].reportId >= rows[j].reportId
  {
    var kept := Filter(reports, r => Matches(t, r));
    var rows := SortByDir(kept, ReportIdOf, t.sortDirection);
    SameMultisetSameMembers(rows, kept);
    rows
  }

  /** Empty filters keep every report: the rows are the reports,
      reordered by id. */
  lemma EmptyFiltersKeepAll(reports: seq<Report>, t: Table)
    requires t.reportNameFilter == "" && t.updateByFilter == ""
    ensures multiset(Rows(reports, t)) == multiset(reports)
  {
    forall r | r in reports
      ensures Matches(t, r)
    {
      IncludesEmpty(Lower(r.reportName));
      IncludesEmpty(Lower(r.updateBy));
    }
    FilterAll(reports, r => Matches(t, r));
  }

  /** `handleSort`. */
  function HandleSort(t: Table): (r: Table)
    ensures r.sortDirection != t.sortDirection
    ensures r.(sortDirection := t.sortDirection) == t
  {
    t.(sortDirection := t.sortDirection.Toggle())
  }

  /** Clicking the header twice restores the order. */
  lemma SortTwiceRestores(t: Table)
    ensures HandleSort(HandleSort(t)) == t
  {
  }

  /** `Math.max(0, (1 + page) * rowsPerPage - rows.length)`. */
  function Filler(reports: seq<Report>, t: Table): (n: int)
    ensures n >= 0
    ensures t.rowsPerPage <= 0 ==> n == 0
    ensures n == Max(0, (1 + t.page) * t.rowsPerPage - |Rows(reports, t)|)
  {
    NonPositiveProduct(1 + t.page, t.rowsPerPage);
    EmptyRows(t.page, t.rowsPerPage, |Rows(reports, t)|)
  }

  /** The rows on the current page. */
  function Shown(reports: seq<Report>, t: Table): (s: seq<Report>)
    ensures t.rowsPerPage > 0 ==> |s| <= t.rowsPerPage
    ensures var rows := Rows(reports, t);
      t.rowsPerPage >= 0 ==>
        t.page * t.rowsPerPage >= 0 && s == Window(rows, t.page * t.rowsPerPage, t.rowsPerPage)
  {
    PageRows(Rows(reports, t), t.page, t.rowsPerPage)
  }

  /** A page that starts inside the rows, padded with its filler,
      is exactly one page tall. */
  lemma ShownPlusFillerIsPage(reports: seq<Report>, t: Table)
    requires t.rowsPerPage > 0 && t.page * t.rowsPerPage <= |Rows(reports, t)|
    ensures |Shown(reports, t)| + Filler(reports, t) == t.rowsPerPage
  {
    FillerCompletesPage(Rows(reports, t), t.page, t.rowsPerPage);
    assert (t.page + 1 - 1) * t.rowsPerPage == t.page * t.rowsPerPage;
  }

  /** `handleChangeRowsPerPage`: back to the first page. */
  function ChangeRowsPerPage(t: Table, rowsPerPage: int): (r: Table)
    ensures r.rowsPerPage == rowsPerPage && r.page == 0
    ensures r.reportNameFilter == t.reportNameFilter && r.updateByFilter == t.updateByFilter
    ensures r.sortDirection == t.sortDirection
  {
    t.(rowsPerPage := rowsPerPage, page := 0)
  }

  /** Editing a filter changes the rows but neither the page nor the
      page size. */
  function SetFilters(t: Table, reportName: string, updateBy: string): (r: Table)
    ensures r.reportNameFilter == reportName && r.updateByFilter == updateBy
    ensures r.page == t.page && r.rowsPerPage == t.rowsPerPage && r.sortDirection == t.sortDirection
  {
    t.(reportNameFilter := reportName, updateByFilter := updateBy)
  }
}

=== FILE: sche_user_slice.dfy ===
/** The stylist-schedule slice: eight calls, each with a pending,
    fulfilled and rejected action. Six of them store their reply in a data
    field of their own; assigning a stylist and updating a schedule user
    store nothing. The update call itself is modelled too: it succeeds
    only when the reply's `status` is 1. */
module ScheUserSlice {
  import opened Common
  import opened SliceTrace

  datatype Thunk =
    | GetAllStylistSchedules
    | GetCurrentStylistSchedules
    | CreateScheduleUser
    | GetStylistSchedule
    | GetStylistByDate
    | GetScheduleOfNoStylist
    | AssignStylistToSchedule
    | UpdateScheduleUserByUserId

  /** The data fields of the slice. */
  datatype DataField =
    | StylistSchedules
    | CurrentStylistSchedule
    | CreatedSchedule
    | StylistSchedule
    | StylistByDate
    | ScheduleOfNoStylist

  /** The field a call's fulfilment writes, if any. */
  function Target(t: Thunk): (r: Option<DataField>)
    ensures r.None? <==> (t == AssignStylistToSchedule || t == UpdateScheduleUserByUserId)
  {
    match t
    case GetAllStylistSchedules => Some(StylistSchedules)
    case GetCurrentStylistSchedules => Some(CurrentStylistSchedule)
    case CreateScheduleUser => Some(CreatedSchedule)
    case GetStylistSchedule => Some(StylistSchedule)
    case GetStylistByDate => Some(StylistByDate)
    case GetScheduleOfNoStylist => Some(ScheduleOfNoStylist)
    case AssignStylistToSchedule => None
    case UpdateScheduleUserByUserId => None
  }

  /** Distinct calls write distinct fields. */
  lemma TargetInjective(t: Thunk, u: Thunk)
    requires Target(t).Some? && Target(t) == Target(u)
    ensures t == u
  {
  }

  /** The data fields hold reply payloads; `None` is the initial value
      (`[]`, `null`, or, for `scheduleOfNoStylist`, no field at all). */
  datatype ScheUserState<P, E> = ScheUserState(
    stylistSchedules: Option<P>,
    currentStylistSchedule: Option<P>,
    createdSchedule: Option<P>,
    stylistSchedule: Option<P>,
    stylistByDate: Option<P>,
    scheduleOfNoStylist: Option<P>,
    isLoading: bool,
    error: Option<E>)

  function Initial<P, E>(): ScheUserState<P, E>
  {
    ScheUserState(None, None, None, None, None, None, false, None)
  }

  function Get<P, E>(s: ScheUserState<P, E>, f: DataField): Option<P>
  {
    match f
    case StylistSchedules => s.stylistSchedules
    case CurrentStylistSchedule => s.currentStylistSchedule
    case CreatedSchedule => s.createdSchedule
    case StylistSchedule => s.stylistSchedule
    case StylistByDate => s.stylistByDate
    case ScheduleOfNoStylist => s.scheduleOfNoStylist
  }

  function Put<P, E>(s: ScheUserState<P, E>, f: DataField, v: P): (r: ScheUserState<P, E>)
    ensures Get(r, f) == Some(v)
    ensures forall g :: g != f ==> Get(r, g) == Get(s, g)
    ensures r.isLoading == s.isLoading && r.error == s.error
  {
    match f
    case StylistSchedules => s.(stylistSchedules := Some(v))
    case CurrentStylistSchedule => s.(currentStylistSchedule := Some(v))
    case CreatedSchedule => s.(createdSchedule := Some(v))
    case StylistSchedule => s.(stylistSchedule := Some(v))
    case StylistByDate => s.(stylistByDate := Some(v))
    case ScheduleOfNoStylist => s.(scheduleOfNoStylist := Some(v))
  }

  lemma InitialEmpty<P, E>(f: DataField)
    ensures Get(Initial<P, E>(), f).None?
  {
  }

  datatype ScheUserAction<P, E> =
    | Pending(thunk: Thunk)
    | Fulfilled(thunk: Thunk, payload: P)
    | Rejected(thunk: Thunk, reason: E)

  function Reduce<P, E>(s: ScheUserState<P, E>, a: ScheUserAction<P, E>): (r: ScheUserState<P, E>)
    ensures a.Pending? ==> r == s.(isLoading := true, error := None)
    ensures a.Rejected? ==> r == s.(isLoading := false, error := Some(a.reason))
    ensures a.Fulfilled? ==> !r.isLoading && r.error == s.error
    ensures a.Fulfilled? && Target(a.thunk).Some? ==>
      Get(r, Target(a.thunk).value) == Some(a.payload)
    ensures forall f :: (a.Fulfilled? && Target(a.thunk) == Some(f)) || Get(r, f) == Get(s, f)
  {
    match a
    case Pending(_) => s.(isLoading := true, error := None)
    case Rejected(_, e) => s.(isLoading := false, error := Some(e))
    case Fulfilled(t, p) =>
      var done := s.(isLoading := false);
      match Target(t)
      case None => done
      case Some(f) => Put(done, f, p)
  }

  /** What an action writes to the field `f`. */
  function DataWrite<P, E>(f: DataField, a: ScheUserAction<P, E>): Option<Option<P>>
  {
    if a.Fulfilled? && Target(a.thunk) == Some(f) then Some(Some(a.payload)) else None
  }

  function LoadingWrite<P, E>(a: ScheUserAction<P, E>): Option<bool>
  {
    Some(a.Pending?)
  }

  function ErrorWrite<P, E>(a: ScheUserAction<P, E>): Option<Option<E>>
  {
    match a
    case Pending(_) => Some(None)
    case Rejected(_, e) => Some(Some(e))
    case Fulfilled(_, _) => None
  }

  /** Every data field holds the payload of the last fulfilment of its
      own call: no other call, and no assignment or update, overwrites
      it. */
  lemma RunData<P(!new), E(!new)>(s: ScheUserState<P, E>, acts: seq<ScheUserAction<P, E>>, f: DataField)
    ensures Get(Run(s, acts, Reduce), f) == LastWrite(Get(s, f), Map(acts, (a: ScheUserAction<P, E>) => DataWrite(f, a)))
  {
    RunField(s, acts, Reduce, (st: ScheUserState<P, E>) => Get(st, f), (a: ScheUserAction<P, E>) => DataWrite(f, a));
  }

  lemma RunLoading<P(!new), E(!new)>(s: ScheUserState<P, E>, acts: seq<ScheUserAction<P, E>>)
    ensures Run(s, acts, Reduce).isLoading == LastWrite(s.isLoading, Map(acts, LoadingWrite))
  {
    RunField(s, acts, Reduce, (st: ScheUserState<P, E>) => st.isLoading, LoadingWrite);
  }

  /** The error is the last rejection's reason unless a pending action
      came after it. */
  lemma RunError<P(!new), E(!new)>(s: ScheUserState<P, E>, acts: seq<ScheUserAction<P, E>>)
    ensures Run(s, acts, Reduce).error == LastWrite(s.error, Map(acts, ErrorWrite))
  {
    RunField(s, acts, Reduce, (st: ScheUserState<P, E>) => st.error, ErrorWrite);
  }

  /** The reply body of the update call, with its `status` field when it
      has one. */
  datatype Body<B> = Body(status: Option<int>, rest: B)

  /** The update call's end: a reply whose body may be missing, or a
      failed request with `error.response?.data`. */
  datatype UpdateReply<B, D> =
    | Answered(data: Option<Body<B>>)
    | RequestFailed(errorData: Option<D>)

  /** What the call rejects with. */
  datatype Rejection<B, D> =
    | RefusedBody(body: Option<Body<B>>)
    | ErrorData(data: D)
    | UpdateFallback

  /** `updateScheduleUserByUserId`: resolve with the body when its
      status is 1; otherwise reject with the body as it came (even a
      missing one); on a failed request reject with the error's data or
      the fallback text. */
  function UpdateScheduleUser<B, D>(reply: UpdateReply<B, D>): (r: Result<Body<B>, Rejection<B, D>>)
    ensures r.Ok? <==> reply.Answered? && reply.data.Some? && reply.data.value.status == Some(1)
    ensures r.Ok? ==> r.value == reply.data.value
    ensures reply.Answered? && r.Err? ==> r.error == RefusedBody(reply.data)
    ensures reply.RequestFailed? && reply.errorData.Some? ==> r == Err(ErrorData(reply.errorData.value))
    ensures reply.RequestFailed? && reply.errorData.None? ==> r == Err(UpdateFallback)
  {
    match reply
    case Answered(data) =>
      if data.Some? && data.value.status == Some(1) then Ok(data.value) else Err(RefusedBody(data))
    case RequestFailed(errorData) =>
      if errorData.Some? then Err(ErrorData(errorData.value)) else Err(UpdateFallback)
  }

  /** The action the update call settles into. */
  function Settle<P, B, D>(outcome: Result<P, Rejection<B, D>>): ScheUserAction<P, Rejection<B, D>>
  {
    match outcome
    case Ok(v) => Fulfilled(UpdateScheduleUserByUserId, v)
    case Err(e) => Rejected(UpdateScheduleUserByUserId, e)
  }

  /** An update, whatever its reply, leaves every data field as it was;
      a reply without status 1 ends with that reply recorded as the error. */
  lemma UpdateTouchesNoData<B, D>(s: ScheUserState<Body<B>, Rejection<B, D>>, reply: UpdateReply<B, D>)
    ensures var r := Reduce(s, Settle(UpdateScheduleUser(reply)));
      && !r.isLoading
      && (forall f :: Get(r, f) == Get(s, f))
      && (reply.Answered? && !(reply.data.Some? && reply.data.value.status == Some(1)) ==>
            r.error == Some(RefusedBody(reply.data)))
  {
  }
}

=== FILE: schedule_list_table.dfy ===
/** The stylist's schedule calendar: bookings are matched to calendar
    days by comparing `YYYY-MM-DD` strings, days without bookings are
    disabled and days with bookings highlighted. A booking's date is
    `None` when it has none; `new Date(undefined)` then renders as
    `NaN-NaN-NaN`. */
module ScheduleListTable {
  import opened Common
  import opened Text
  import opened Clock

  /** `normalizeDate` of a valid date. */
  function Normalize(d: CalDate): (s: string)
    requires ValidDate(d)
    ensures |s| >= 7 && s[|s| - 6] == '-' && s[|s| - 3] == '-'
    ensures s[|s| - 5..|s| - 3] == Pad2(d.month as nat) && s[|s| - 2..] == Pad2(d.day as nat)
    ensures s[..|s| - 6] == IntToString(d.year)
  {
    IntToString(d.year) + "-" + Pad2(d.month as nat) + "-" + Pad2(d.day as nat)
  }

  const InvalidDateText: string := "NaN-NaN-NaN"

  /** `normalizeDate(booking?.schedules?.startDate)`. */
  function NormalizeOpt(d: Option<CalDate>): (s: string)
    requires d.Some? ==> ValidDate(d.value)
  {
    match d
    case None => InvalidDateText
    case Some(v) => Normalize(v)
  }

  /** Different dates give different strings, and no date gives the
      invalid-date text, so comparing the strings compares the dates. */
  lemma NormalizeInjective(a: CalDate, b: CalDate)
    requires ValidDate(a) && ValidDate(b) && Normalize(a) == Normalize(b)
    ensures a == b
  {
    var s := Normalize(a);
    assert s[..|s| - 6] == IntToString(a.year) == IntToString(b.year);
    IntToStringInjective(a.year, b.year);
    Pad2Injective(a.month as nat, b.month as nat);
    Pad2Injective(a.day as nat, b.day as nat);
  }

  lemma NormalizeNotInvalid(d: CalDate)
    requires ValidDate(d)
    ensures Normalize(d) != InvalidDateText
  {
    var s := Normalize(d);
    assert IsDigit(s[|s| - 1]);
  }

  datatype Booking = Booking(bookingId: int, startDate: Option<CalDate>)

  predicate WellDated(bookings: seq<Booking>)
  {
    forall i :: 0 <= i < |bookings| ==> (bookings[i].startDate.Some? ==> ValidDate(bookings[i].startDate.value))
  }

  /** The string test the page applies to one booking. */
  predicate OnDay(b: Booking, day: CalDate)
    requires b.startDate.Some? ==> ValidDate(b.startDate.value)
    requires ValidDate(day)
  {
    NormalizeOpt(b.startDate) == Normalize(day)
  }

  /** The string test holds exactly for the bookings dated that day. */
  lemma OnDayIffSameDate(b: Booking, day: CalDate)
    requires b.startDate.Some? ==> ValidDate(b.startDate.value)
    requires ValidDate(day)
    ensures OnDay(b, day) <==> b.startDate == Some(day)
  {
    NormalizeNotInvalid(day);
    if b.startDate.Some? && OnDay(b, day) {
      NormalizeInjective(b.startDate.value, day);
    }
  }

  /** The bookings listed for the selected day. */
  function BookingsOn(bookings: seq<Booking>, day: CalDate): (r: seq<Booking>)
    requires WellDated(bookings) && ValidDate(day)
    ensures forall b :: b in r <==> b in bookings && b.startDate == Some(day)
    ensures IsSubsequence(r, bookings)
  {
    forall b | b in bookings
      ensures OnDay(b, day) <==> b.startDate == Some(day)
    {
      OnDayIffSameDate(b, day);
    }
    var p := (b: Booking) => b in bookings && OnDay(b, day);
    var r := Filter(bookings, p);
    FilterIsSubsequence(bookings, p);
    r
  }

  /** `tileDisabled`: no booking falls on the day. */
  predicate TileDisabled(bookings: seq<Booking>, day: CalDate)
    requires WellDated(bookings) && ValidDate(day)
  {
    !exists i :: 0 <= i < |bookings| && OnDay(bookings[i], day)
  }

  /** `tileClassName`. */
  function TileClassName(bookings: seq<Booking>, day: CalDate): string
    requires WellDated(bookings) && ValidDate(day)
  {
    if exists i :: 0 <= i < |bookings| && OnDay(bookings[i], day) then "highlight" else ""
  }

  /** A tile is highlighted exactly when it is enabled, and exactly when
      the day has bookings to list. */
  lemma TileStates(bookings: seq<Booking>, day: CalDate)
    requires WellDated(bookings) && ValidDate(day)
    ensures TileDisabled(bookings, day) <==> TileClassName(bookings, day) == ""
    ensures TileDisabled(bookings, day) <==> |BookingsOn(bookings, day)| == 0
  {
    var r := BookingsOn(bookings, day);
    if !TileDisabled(bookings, day) {
      var i :| 0 <= i < |bookings| && OnDay(bookings[i], day);
      OnDayIffSameDate(bookings[i], day);
      assert bookings[i] in r;
    }
    if |r| > 0 {
      assert r[0] in r;
      var i :| 0 <= i < |bookings| && bookings[i] == r[0];
      OnDayIffSameDate(bookings[i], day);
    }
  }

  /** The selected day and the details panel. */
  datatype Panel<D> = Panel(selectedDate: CalDate, selectedDetails: Option<D>)

  /** `handleDateChange`: the new day, with the details closed. */
  function DateChange<D>(p: Panel<D>, date: CalDate): (r: Panel<D>)
    ensures r.selectedDate == date && r.selectedDetails.None?
  {
    Panel(date, None)
  }
}

=== FILE: schedule_page.dfy ===
/** The per-service scheduling wizard of the customer booking flow: for
    each service in turn the customer picks a date, a half-hour slot and
    optionally a stylist; "next" records the choice on the service, with
    an end time `estimateTime` minutes later, and moves on until the last
    service, where the flow goes on to the booking details.

    Dates are day numbers; the calendar refuses days before `today`,
    which is a parameter. Slots are times of day. */
module SchedulePage {
  import opened Common
  import opened Text
  import opened Clock
  import opened Catalog

  /** Thirty minutes, the distance between offered slots. */
  const SlotStep: nat := 1800

  /** `generateTimeSlots(start, end)`: every half hour from `start` up to,
      not including, `end`. */
  method GenerateTimeSlots(start: TimeOfDay, end: TimeOfDay) returns (slots: seq<TimeOfDay>)
    ensures forall i :: 0 <= i < |slots| ==> slots[i] == start + i * SlotStep
    ensures forall i :: 0 <= i < |slots| ==> slots[i] < end
    ensures forall i, j :: 0 <= i < j < |slots| ==> slots[i] < slots[j]
    ensures start + |slots| * SlotStep >= end
    ensures start >= end ==> slots == []
  {
    slots := [];
    var current: int := start;
    while current < end
      invariant current == start + |slots| * SlotStep
      invariant forall i :: 0 <= i < |slots| ==> slots[i] == start + i * SlotStep
      invariant forall i :: 0 <= i < |slots| ==> slots[i] < end
      invariant start >= end ==> slots == []
      decreases end - current
    {
      slots := slots + [current];
      current := current + SlotStep;
    }
  }

  /** The default call, from `'10:00:00'` to `'20:00:00'`: twenty slots,
      10:00 to 19:30. */
  method DefaultTimeSlots() returns (slots: seq<TimeOfDay>)
    ensures |slots| == 20
    ensures slots[0] == At(10, 0, 0) && slots[19] == At(19, 30, 0)
    ensures forall i :: 0 <= i < |slots| ==> slots[i] == At(10, 0, 0) + i * SlotStep
  {
    slots := GenerateTimeSlots(At(10, 0, 0), At(20, 0, 0));
    var n := |slots|;
    assert 36000 + n * 1800 >= 72000;
    assert slots[n - 1] == 36000 + (n - 1) * 1800 && slots[n - 1] < 72000;
  }

  /** What a "next" click stores for a service, also kept in
      `selectedTimes`: the day, the start, and the end time (`None` is
      dayjs's `'Invalid Date'`, when the duration does not parse). */
  datatype Pick = Pick(date: int, time: TimeOfDay, endTime: Option<TimeOfDay>)

  /** The fields "next" writes onto the service item. */
  datatype Appointment = Appointment(
    startDate: int,
    endDate: int,
    startTime: TimeOfDay,
    endTime: Option<TimeOfDay>,
    stylistId: Option<int>,
    voucherId: Option<int>)

  datatype Line = Line(service: Service, appt: Option<Appointment>)

  /** The toast a click leaves behind, if any. */
  datatype Notice = Quiet | PickDateFirst | SlotTaken | PickDateAndTime | NoService

  datatype Wizard = Wizard(
    lines: seq<Line>,
    index: nat,
    selectedDate: Option<int>,
    selectedTime: Option<TimeOfDay>,
    selectedStylist: Option<int>,
    timeModalOpen: bool,
    datePromptOpen: bool,
    picks: map<nat, Pick>,
    navigated: bool,
    notice: Notice)

  function Start(services: seq<Service>): (w: Wizard)
    ensures |w.lines| == |services| && w.index == 0 && w.picks == map[]
    ensures forall i :: 0 <= i < |services| ==> w.lines[i] == Line(services[i], None)
  {
    Wizard(Map(services, (s: Service) => Line(s, None)), 0, None, None, None,
      false, false, map[], false, Quiet)
  }

  /** Some service already holds the slot `time` on day `date`
      (`Object.values(selectedTimes).some(...)`). */
  predicate Taken(picks: map<nat, Pick>, date: int, time: TimeOfDay)
  {
    exists k :: k in picks && picks[k].date == date && picks[k].time == time
  }

  /** `handleDateChange`, for a day the calendar lets through. The chosen
      time is left as it is. */
  function SelectDate(w: Wizard, date: int, today: int): (r: Wizard)
    ensures date < today ==> r == w
    ensures date >= today ==> r == w.(selectedDate := Some(date))
  {
    if date < today then w else w.(selectedDate := Some(date))
  }

  /** The "Choose Time" button. */
  function ChooseTime(w: Wizard): (r: Wizard)
    ensures w.selectedDate.None? ==> r == w.(datePromptOpen := true, notice := PickDateFirst)
    ensures w.selectedDate.Some? ==> r == w.(timeModalOpen := true)
  {
    if w.selectedDate.None? then w.(datePromptOpen := true, notice := PickDateFirst)
    else w.(timeModalOpen := true)
  }

  /** `handleTimeSelect(time)`. */
  function SelectTime(w: Wizard, time: TimeOfDay): (r: Wizard)
    ensures w.selectedDate.None? ==> r == w.(datePromptOpen := true, notice := PickDateFirst)
    ensures w.selectedDate.Some? && Taken(w.picks, w.selectedDate.value, time) ==>
      r == w.(notice := SlotTaken)
    ensures w.selectedDate.Some? && !Taken(w.picks, w.selectedDate.value, time) ==>
      r == w.(selectedTime := Some(time), timeModalOpen := false)
  {
    if w.selectedDate.None? then w.(datePromptOpen := true, notice := PickDateFirst)
    else if Taken(w.picks, w.selectedDate.value, time) then w.(notice := SlotTaken)
    else w.(selectedTime := Some(time), timeModalOpen := false)
  }

  /** `handleStylistSelect(stylistId)`: `stylistId || ''`, so the id 0 and
      "any stylist" both clear the choice. */
  function SelectStylist(w: Wizard, stylistId: Option<int>): (r: Wizard)
    ensures r.selectedStylist.Some? <==> stylistId.Some? && stylistId.value != 0
    ensures r.selectedStylist.Some? ==> r.selectedStylist == stylistId
    ensures r == w.(selectedStylist := r.selectedStylist)
  {
    w.(selectedStylist := TruthyId(stylistId))
  }

  /** `dayjs(date + 'T' + time).add(parseInt(estimateTime, 10), 'minute')
      .format('HH:mm:ss')`. */
  function EndTime(time: TimeOfDay, estimateTime: string): (r: Option<TimeOfDay>)
    ensures r.Some? <==> ParseIntPrefix(estimateTime).Some?
    ensures r.Some? ==> r.value == AddMinutes(time, ParseIntPrefix(estimateTime).value)
  {
    match ParseIntPrefix(estimateTime)
    case None => None
    case Some(minutes) => Some(AddMinutes(time, minutes))
  }

  /** What "next" records for the current service. */
  function Record(w: Wizard): (r: Wizard)
    requires w.index < |w.lines| && w.selectedDate.Some? && w.selectedTime.Some?
  {
    var date := w.selectedDate.value;
    var time := w.selectedTime.value;
    var line := w.lines[w.index];
    var end := EndTime(time, line.service.estimateTime);
    w.(picks := w.picks[w.index := Pick(date, time, end)],
       lines := w.lines[w.index := line.(appt := Some(Appointment(date, date, time, end, w.selectedStylist, None)))])
  }

  /** Moving on after recording: the next service with a clean selection,
      or, after the last one, on to the booking details. */
  function Advance(w: Wizard): (r: Wizard)
  {
    if w.index + 1 < |w.lines| then
      w.(index := w.index + 1, selectedDate := None, selectedTime := None, selectedStylist := None)
    else w.(navigated := true)
  }

  /** `handleNextService`. With no service at the current index the
      handler fails reading `currentService.estimateTime` before it
      changes anything. */
  function NextService(w: Wizard): (r: Wizard)
    ensures w.selectedDate.None? || w.selectedTime.None? ==> r == w.(notice := PickDateAndTime)
    ensures w.selectedDate.Some? && w.selectedTime.Some? && w.index >= |w.lines| ==>
      r == w.(notice := NoService)
    ensures w.selectedDate.Some? && w.selectedTime.Some? && w.index < |w.lines| ==>
      && |r.lines| == |w.lines|
      && w.index in r.picks
      && r.picks[w.index] == Pick(w.selectedDate.value, w.selectedTime.value,
                                  EndTime(w.selectedTime.value, w.lines[w.index].service.estimateTime))
      && r.lines[w.index] == Line(w.lines[w.index].service, Some(Appointment(
           w.selectedDate.value, w.selectedDate.value, w.selectedTime.value,
           r.picks[w.index].endTime, w.selectedStylist, None)))
      && (forall j :: 0 <= j < |w.lines| && j != w.index ==> r.lines[j] == w.lines[j])
      && (forall k :: k in w.picks && k != w.index ==> k in r.picks && r.picks[k] == w.picks[k])
      && (w.index + 1 < |w.lines| ==>
            r.index == w.index + 1 && r.selectedDate.None? && r.selectedTime.None?
            && r.selectedStylist.None? && r.navigated == w.navigated)
      && (w.index + 1 == |w.lines| ==> r.index == w.index && r.navigated)
  {
    if w.selectedDate.None? || w.selectedTime.None? then w.(notice := PickDateAndTime)
    else if w.index >= |w.lines| then w.(notice := NoService)
    else
      var rec := Record(w);
      assert |rec.lines| == |w.lines| && rec.index == w.index;
      Advance(rec)
  }

  /** A click on the page. */
  datatype Event =
    | PickDate(date: int)
    | OpenTimes
    | PickTime(time: TimeOfDay)
    | PickStylist(stylistId: Option<int>)
    | Next

  function Step(w: Wizard, e: Event, today: int): Wizard
  {
    match e
    case PickDate(d) => SelectDate(w, d, today)
    case OpenTimes => ChooseTime(w)
    case PickTime(t) => SelectTime(w, t)
    case PickStylist(id) => SelectStylist(w, id)
    case Next => NextService(w)
  }

  function Run(w: Wizard, es: seq<Event>, today: int): Wizard
    decreases |es|
  {
    if |es| == 0 then w else Run(Step(w, es[0], today), es[1..], today)
  }

  /** The wizard's bookkeeping: the index points at a service (when there
      is one), exactly the services before it and possibly the current one
      are recorded, each recorded service carries the appointment of its
      pick, and once the flow moves on every service is recorded. */
  predicate Consistent(w: Wizard)
  {
    && (w.index < |w.lines| || (|w.lines| == 0 && w.index == 0))
    && (forall k :: k in w.picks ==> k <= w.index && k < |w.lines|)
    && (forall j :: 0 <= j < w.index ==> j in w.picks)
    && (forall k :: k in w.picks ==> RecordedAs(w.lines, k, w.picks[k]))
    && (w.navigated ==> w.index in w.picks && w.index + 1 == |w.lines|)
  }

  /** Service `k` carries the appointment of pick `p`. */
  predicate RecordedAs(lines: seq<Line>, k: nat, p: Pick)
  {
    && k < |lines| && lines[k].appt.Some?
    && lines[k].appt.value.startDate == p.date
    && lines[k].appt.value.endDate == p.date
    && lines[k].appt.value.startTime == p.time
    && lines[k].appt.value.endTime == p.endTime
    && lines[k].appt.value.voucherId.None?
  }

  lemma StartConsistent(services: seq<Service>)
    ensures Consistent(Start(services))
  {
  }

  /** Every click keeps the bookkeeping consistent. In particular the
      index never runs past the last service. */
  lemma StepConsistent(w: Wizard, e: Event, today: int)
    requires Consistent(w)
    ensures Consistent(Step(w, e, today))
  {
    var r := Step(w, e, today);
    if e.Next? {
      NextConsistent(w);
    } else {
      assert r.lines == w.lines && r.index == w.index && r.picks == w.picks && r.navigated == w.navigated;
      SelectionKeepsConsistent(w, r);
    }
  }

  /** The bookkeeping does not look at the current selection, the dialogs
      or the notice. */
  lemma SelectionKeepsConsistent(w: Wizard, r: Wizard)
    requires Consistent(w)
    requires r.lines == w.lines && r.index == w.index && r.picks == w.picks && r.navigated == w.navigated
    ensures Consistent(r)
  {
  }

  lemma NextConsistent(w: Wizard)
    requires Consistent(w)
    ensures Consistent(NextService(w))
  {
    if w.selectedDate.Some? && w.selectedTime.Some? && w.index < |w.lines| {
      RecordConsistent(w);
      AdvanceConsistent(Record(w), w.navigated);
    }
  }

  /** Recording the current service keeps the bookkeeping, with the
      current service now among the recorded ones. */
  lemma RecordConsistent(w: Wizard)
    requires Consistent(w)
    requires w.index < |w.lines| && w.selectedDate.Some? && w.selectedTime.Some?
    ensures var rec := Record(w);
      && Consistent(rec.(navigated := false))
      && w.index in rec.picks && rec.index == w.index && |rec.lines| == |w.lines|
      && rec.navigated == w.navigated
  {
    var rec := Record(w);
    forall k | k in rec.picks
      ensures RecordedAs(rec.lines, k, rec.picks[k])
    {
      if k != w.index {
        assert RecordedAs(w.lines, k, w.picks[k]);
      }
    }
  }

  /** Moving on from a recorded current service keeps the bookkeeping. */
  lemma AdvanceConsistent(w: Wizard, navigated: bool)
    requires Consistent(w.(navigated := false)) && w.index in w.picks
    requires w.navigated == navigated
    requires navigated ==> w.index + 1 == |w.lines|
    ensures Consistent(Advance(w))
  {
  }

  lemma {:induction false} RunConsistent(w: Wizard, es: seq<Event>, today: int)
    requires Consistent(w)
    ensures Consistent(Run(w, es, today))
    decreases |es|
  {
    if |es| > 0 {
      StepConsistent(w, es[0], today);
      RunConsistent(Step(w, es[0], today), es[1..], today);
    }
  }

  /** When the flow reaches the booking details, every service carries an
      appointment on a single day with no voucher yet. */
  lemma NavigatedMeansAllScheduled(w: Wizard)
    requires Consistent(w) && w.navigated
    ensures forall j :: 0 <= j < |w.lines| ==>
      w.lines[j].appt.Some? && w.lines[j].appt.value.startDate == w.lines[j].appt.value.endDate
      && w.lines[j].appt.value.voucherId.None?
  {
    forall j | 0 <= j < |w.lines|
      ensures w.lines[j].appt.Some? && w.lines[j].appt.value.startDate == w.lines[j].appt.value.endDate
      ensures w.lines[j].appt.value.voucherId.None?
    {
      if j < w.index {
        assert j in w.picks;
      }
      assert RecordedAs(w.lines, j, w.picks[j]);
    }
  }

  // ---------------------------------------------------------------
  // The slot check only runs when a time is picked. A date picked
  // afterwards is not checked, so two services can end up in the same
  // slot on the same day.
  // ---------------------------------------------------------------

  /** No two recorded services share a (day, slot). */
  predicate DistinctPicks(picks: map<nat, Pick>)
  {
    forall i, j :: i in picks && j in picks && i != j ==>
      picks[i].date != picks[j].date || picks[i].time != picks[j].time
  }

  /** As written: pick day 5 at 10:00 for the first service; for the
      second pick day 6 at 10:00 (free), then switch the day back to 5.
      "Next" records both services on day 5 at 10:00. */
  lemma DuplicateSlotAsWritten()
    ensures var s := Service(1, "Cut", Some(10), "30", 1);
            var w := Run(Start([s, s]), [PickDate(5), PickTime(36000), Next,
                                        PickDate(6), PickTime(36000), PickDate(5), Next], 0);
            && w.navigated
            && 0 in w.picks && 1 in w.picks
            && w.picks[0].date == w.picks[1].date && w.picks[0].time == w.picks[1].time
            && !DistinctPicks(w.picks)
  {
    var s := Service(1, "Cut", Some(10), "30", 1);
    var first := [PickDate(5), PickTime(36000), Next];
    var second := [PickDate(6), PickTime(36000), PickDate(5), Next];
    RunAppend(Start([s, s]), first, second, 0);
    assert first + second == [PickDate(5), PickTime(36000), Next,
                              PickDate(6), PickTime(36000), PickDate(5), Next];
    FirstServiceBooked(s);
    SecondServiceSameSlot(Run(Start([s, s]), first, 0));
  }

  /** The first half of the counterexample: day 5 at 10:00 is recorded for
      the first service. */
  lemma FirstServiceBooked(s: Service)
    requires s == Service(1, "Cut", Some(10), "30", 1)
    ensures var w := Run(Start([s, s]), [PickDate(5), PickTime(36000), Next], 0);
      && w.index == 1 && |w.lines| == 2 && w.lines[1].service == s
      && w.picks == map[0 := Pick(5, 36000, EndTime(36000, "30"))]
  {
    var w0 := Start([s, s]);
    var w1 := SelectDate(w0, 5, 0);
    var w2 := SelectTime(w1, 36000);
    assert w2.selectedTime == Some(36000);
    var w3 := NextService(w2);
    assert w3.picks == map[0 := Pick(5, 36000, EndTime(36000, "30"))] && w3.index == 1;
    RunUnfold(w0, PickDate(5), [PickTime(36000), Next], 0);
    RunUnfold(w1, PickTime(36000), [Next], 0);
    RunUnfold(w2, Next, [], 0);
  }

  /** The second half: day 6 at 10:00 passes the check, and switching the
      date back to day 5 records the second service in the first one's slot. */
  lemma SecondServiceSameSlot(w: Wizard)
    requires w.index == 1 && |w.lines| == 2 && w.lines[1].service.estimateTime == "30"
    requires w.picks == map[0 := Pick(5, 36000, EndTime(36000, "30"))]
    ensures var r := Run(w, [PickDate(6), PickTime(36000), PickDate(5), Next], 0);
      r.navigated && r.picks == map[0 := Pick(5, 36000, EndTime(36000, "30")), 1 := Pick(5, 36000, EndTime(36000, "30"))]
  {
    RunFour(w, PickDate(6), PickTime(36000), PickDate(5), Next, 0);
    SecondServiceSteps(w);
  }

  /** Four events, one step at a time. */
  lemma RunFour(w: Wizard, a: Event, b: Event, c: Event, d: Event, today: int)
    ensures Run(w, [a, b, c, d], today)
      == Step(Step(Step(Step(w, a, today), b, today), c, today), d, today)
  {
    var w1 := Step(w, a, today);
    var w2 := Step(w1, b, today);
    var w3 := Step(w2, c, today);
    assert [a, b, c, d] == [a] + [b, c, d];
    RunUnfold(w, a, [b, c, d], today);
    assert [b, c, d] == [b] + [c, d];
    RunUnfold(w1, b, [c, d], today);
    assert [c, d] == [c] + [d];
    RunUnfold(w2, c, [d], today);
    assert [d] == [d] + [];
    RunUnfold(w3, d, [], today);
  }

  lemma SecondServiceSteps(w: Wizard)
    requires w.index == 1 && |w.lines| == 2 && w.lines[1].service.estimateTime == "30"
    requires w.picks == map[0 := Pick(5, 36000, EndTime(36000, "30"))]
    ensures var r := Step(Step(Step(Step(w, PickDate(6), 0), PickTime(36000), 0), PickDate(5), 0), Next, 0);
      r.navigated && r.picks == map[0 := Pick(5, 36000, EndTime(36000, "30")), 1 := Pick(5, 36000, EndTime(36000, "30"))]
  {
    var p := Pick(5, 36000, EndTime(36000, "30"));
    var w4 := SelectDate(w, 6, 0);
    assert !Taken(w4.picks, 6, 36000) by {
      assert forall k :: k in w4.picks ==> k == 0;
    }
    var w5 := SelectTime(w4, 36000);
    assert w5.selectedTime == Some(36000);
    var w6 := SelectDate(w5, 5, 0);
    var w7 := NextService(w6);
    assert w7.picks == map[0 := p, 1 := p];
    assert w7 == Step(Step(Step(Step(w, PickDate(6), 0), PickTime(36000), 0), PickDate(5), 0), Next, 0);
  }

  lemma {:induction false} RunAppend(w: Wizard, a: seq<Event>, b: seq<Event>, today: int)
    ensures Run(w, a + b, today) == Run(Run(w, a, today), b, today)
    decreases |a|
  {
    if |a| == 0 {
      assert a + b == b;
    } else {
      RunAppend(Step(w, a[0], today), a[1..], b, today);
      assert (a + b)[0] == a[0];
      assert (a + b)[1..] == a[1..] + b;
    }
  }

  lemma RunUnfold(w: Wizard, e: Event, es: seq<Event>, today: int)
    ensures Run(w, [e] + es, today) == Run(Step(w, e, today), es, today)
  {
    assert ([e] + es)[1..] == es;
  }

  /** Some other service already holds the slot. */
  predicate TakenByOther(picks: map<nat, Pick>, index: nat, date: int, time: TimeOfDay)
  {
    exists k :: k in picks && k != index && picks[k].date == date && picks[k].time == time
  }

  /** "Next" with the slot check repeated against the other services, so
      a day changed after the time was picked cannot double-book a slot. */
  function NextServiceChecked(w: Wizard): (r: Wizard)
    ensures w.selectedDate.Some? && w.selectedTime.Some?
            && TakenByOther(w.picks, w.index, w.selectedDate.value, w.selectedTime.value) ==>
      r == w.(notice := SlotTaken)
    ensures !(w.selectedDate.Some? && w.selectedTime.Some?
              && TakenByOther(w.picks, w.index, w.selectedDate.value, w.selectedTime.value)) ==>
      r == NextService(w)
  {
    if w.selectedDate.Some? && w.selectedTime.Some?
       && TakenByOther(w.picks, w.index, w.selectedDate.value, w.selectedTime.value)
    then w.(notice := SlotTaken)
    else NextService(w)
  }

  function StepChecked(w: Wizard, e: Event, today: int): Wizard
  {
    if e.Next? then NextServiceChecked(w) else Step(w, e, today)
  }

  function RunChecked(w: Wizard, es: seq<Event>, today: int): Wizard
    decreases |es|
  {
    if |es| == 0 then w else RunChecked(StepChecked(w, es[0], today), es[1..], today)
  }

  lemma NextServiceCheckedKeepsDistinct(w: Wizard)
    requires DistinctPicks(w.picks)
    ensures DistinctPicks(NextServiceChecked(w).picks)
  {
    var r := NextServiceChecked(w);
    if w.selectedDate.Some? && w.selectedTime.Some? && w.index < |w.lines|
       && !TakenByOther(w.picks, w.index, w.selectedDate.value, w.selectedTime.value)
    {
      var p := r.picks[w.index];
      assert r.picks == w.picks[w.index := p];
      forall i, j | i in r.picks && j in r.picks && i != j
        ensures r.picks[i].date != r.picks[j].date || r.picks[i].time != r.picks[j].time
      {
        if i == w.index {
          assert !(w.picks[j].date == p.date && w.picks[j].time == p.time);
        } else if j == w.index {
          assert !(w.picks[i].date == p.date && w.picks[i].time == p.time);
        }
      }
    }
  }

  /** With the repeated check no sequence of clicks ever records two
      services in the same slot on the same day. */
  lemma {:induction false} RunCheckedKeepsDistinct(w: Wizard, es: seq<Event>, today: int)
    requires DistinctPicks(w.picks)
    ensures DistinctPicks(RunChecked(w, es, today).picks)
    decreases |es|
  {
    if |es| > 0 {
      var e := es[0];
      if e.Next? {
        NextServiceCheckedKeepsDistinct(w);
      } else {
        assert StepChecked(w, e, today).picks == w.picks;
      }
      RunCheckedKeepsDistinct(StepChecked(w, e, today), es[1..], today);
    }
  }

  lemma NextCheckedConsistent(w: Wizard)
    requires Consistent(w)
    ensures Consistent(NextServiceChecked(w))
  {
    if w.selectedDate.Some? && w.selectedTime.Some?
       && TakenByOther(w.picks, w.index, w.selectedDate.value, w.selectedTime.value) {
      SelectionKeepsConsistent(w, w.(notice := SlotTaken));
    } else {
      NextConsistent(w);
    }
  }

  /** The repeated check keeps the wizard's bookkeeping as well. */
  lemma StepCheckedConsistent(w: Wizard, e: Event, today: int)
    requires Consistent(w)
    ensures Consistent(StepChecked(w, e, today))
  {
    if e.Next? {
      NextCheckedConsistent(w);
    } else {
      StepConsistent(w, e, today);
    }
  }
}

=== FILE: schedule_slice.dfy ===
/** The schedule slice: the schedule list (replaced on load, appended on
    create), the selected schedule, and the loading and error fields. */
module ScheduleSlice {
  import opened Common
  import opened SliceTrace

  datatype ScheduleState<T, E> = ScheduleState(
    scheduleList: seq<T>,
    selectedSchedule: Option<T>,
    isLoading: bool,
    error: Option<E>)

  function Initial<T, E>(): (r: ScheduleState<T, E>)
    ensures |r.scheduleList| == 0 && r.selectedSchedule.None? && !r.isLoading && r.error.None?
  {
    ScheduleState([], None, false, None)
  }

  /** The three calls share one pending and one rejected behaviour. */
  datatype ScheduleAction<T, E> =
    | Pending
    | ListLoaded(list: seq<T>)
    | Selected(schedule: T)
    | Created(schedule: T)
    | Rejected(reason: E)

  function Reduce<T, E>(s: ScheduleState<T, E>, a: ScheduleAction<T, E>): (r: ScheduleState<T, E>)
    ensures a.Pending? ==> r == s.(isLoading := true, error := None)
    ensures a.ListLoaded? ==> r == s.(isLoading := false, scheduleList := a.list)
    ensures a.Selected? ==> r == s.(isLoading := false, selectedSchedule := Some(a.schedule))
    ensures a.Created? ==> r == s.(isLoading := false, scheduleList := s.scheduleList + [a.schedule])
    ensures a.Rejected? ==> r == s.(isLoading := false, error := Some(a.reason))
  {
    match a
    case Pending => s.(isLoading := true, error := None)
    case ListLoaded(l) => s.(isLoading := false, scheduleList := l)
    case Selected(t) => s.(isLoading := false, selectedSchedule := Some(t))
    case Created(t) => s.(isLoading := false, scheduleList := s.scheduleList + [t])
    case Rejected(e) => s.(isLoading := false, error := Some(e))
  }

  function LoadingWrite<T, E>(a: ScheduleAction<T, E>): Option<bool>
  {
    Some(a.Pending?)
  }

  function ErrorWrite<T, E>(a: ScheduleAction<T, E>): Option<Option<E>>
  {
    match a
    case Pending => Some(None)
    case Rejected(e) => Some(Some(e))
    case _ => None
  }

  function SelectedWrite<T, E>(a: ScheduleAction<T, E>): Option<Option<T>>
  {
    if a.Selected? then Some(Some(a.schedule)) else None
  }

  /** The slice is loading exactly when the last action was a pending one. */
  lemma RunLoading<T(!new), E(!new)>(s: ScheduleState<T, E>, acts: seq<ScheduleAction<T, E>>)
    ensures Run(s, acts, Reduce).isLoading == LastWrite(s.isLoading, Map(acts, LoadingWrite))
  {
    RunField(s, acts, Reduce, (st: ScheduleState<T, E>) => st.isLoading, LoadingWrite);
  }

  /** The error is the last rejection's reason unless a pending action
      came after it. */
  lemma RunError<T(!new), E(!new)>(s: ScheduleState<T, E>, acts: seq<ScheduleAction<T, E>>)
    ensures Run(s, acts, Reduce).error == LastWrite(s.error, Map(acts, ErrorWrite))
  {
    RunField(s, acts, Reduce, (st: ScheduleState<T, E>) => st.error, ErrorWrite);
  }

  /** The selected schedule is the one loaded last; no other action moves it. */
  lemma RunSelected<T(!new), E(!new)>(s: ScheduleState<T, E>, acts: seq<ScheduleAction<T, E>>)
    ensures Run(s, acts, Reduce).selectedSchedule == LastWrite(s.selectedSchedule, Map(acts, SelectedWrite))
  {
    RunField(s, acts, Reduce, (st: ScheduleState<T, E>) => st.selectedSchedule, SelectedWrite);
  }

  /** An action that leaves the list alone. */
  predicate KeepsList<T, E>(a: ScheduleAction<T, E>)
  {
    a.Pending? || a.Selected? || a.Rejected?
  }

  /** Loading the list and then creating schedules, with any number of
      list-neutral actions (pending, selections, failures) in between, gives
      the loaded list followed by the created schedules in order. */
  lemma {:induction false} ListAfterCreates<T, E>(s: ScheduleState<T, E>, acts: seq<ScheduleAction<T, E>>)
    requires forall i :: 0 <= i < |acts| ==> acts[i].Created? || KeepsList(acts[i])
    ensures Run(s, acts, Reduce).scheduleList == s.scheduleList + CreatedAmong(acts)
    decreases |acts|
  {
    if |acts| > 0 {
      ListAfterCreates(Reduce(s, acts[0]), acts[1..]);
      assert CreatedAmong(acts) == CreatedAmong(acts[..1]) + CreatedAmong(acts[1..]) by {
        assert acts == acts[..1] + acts[1..];
      }
    }
  }

  /** The schedules created by `acts`, in order. */
  function CreatedAmong<T, E>(acts: seq<ScheduleAction<T, E>>): (r: seq<T>)
    ensures |r| <= |acts|
    ensures forall t :: t in r ==> exists i :: 0 <= i < |acts| && acts[i] == Created(t)
    decreases |acts|
  {
    if |acts| == 0 then []
    else if acts[0].Created? then [acts[0].schedule] + CreatedAmong(acts[1..])
    else CreatedAmong(acts[1..])
  }
}

=== FILE: service_card.dfy ===
/** The service card grid: choosing a service adds it to the booking
    being assembled and opens the summary modal, where the customer can
    change the stylist of a service, delete a line, add more services or
    proceed. */
module ServiceCard {
  import opened Common
  import opened Catalog

  datatype CardState = CardState(
    bookingData: seq<BookingLine>,
    summaryOpen: bool,
    /** The booking data handed on by "proceed", once it happened. */
    proceededWith: Option<seq<BookingLine>>)

  function Initial(): CardState { CardState([], false, None) }

  /** `handleSelectService`: append the service with "any stylist" and
      open the summary. */
  function SelectService(s: CardState, service: Service): (r: CardState)
    ensures |r.bookingData| == |s.bookingData| + 1
    ensures r.bookingData[..|s.bookingData|] == s.bookingData
    ensures r.bookingData[|s.bookingData|].service == service
    ensures r.bookingData[|s.bookingData|].stylist.None?
    ensures r.summaryOpen
  {
    s.(bookingData := s.bookingData + [BookingLine(service, None, None)], summaryOpen := true)
  }

  /** `handleEditStylist`: every line of the same service id, duplicates
      included, gets the new stylist. */
  function EditStylist(data: seq<BookingLine>, service: Service, stylist: Option<Stylist>): (r: seq<BookingLine>)
    ensures |r| == |data|
    ensures forall i :: 0 <= i < |data| && data[i].service.serviceId == service.serviceId ==>
      r[i] == data[i].(stylist := stylist)
    ensures forall i :: 0 <= i < |data| && data[i].service.serviceId != service.serviceId ==>
      r[i] == data[i]
  {
    Map(data, (item: BookingLine) =>
      if item.service.serviceId == service.serviceId then item.(stylist := stylist) else item)
  }

  /** `handleDeleteService`: drop the line at `index`. */
  function DeleteService(data: seq<BookingLine>, index: int): (r: seq<BookingLine>)
    ensures 0 <= index < |data| ==> |r| == |data| - 1 && r == data[..index] + data[index + 1..]
    ensures !(0 <= index < |data|) ==> r == data
  {
    RemoveIndex(data, index)
  }

  /** `handleAddService`: close the summary to pick another service. */
  function AddService(s: CardState): (r: CardState)
    ensures !r.summaryOpen && r.bookingData == s.bookingData
  {
    s.(summaryOpen := false)
  }

  /** `handleProceedToCart`: close the summary and hand the booking data on. */
  function ProceedToCart(s: CardState): (r: CardState)
    ensures !r.summaryOpen && r.bookingData == s.bookingData
    ensures r.proceededWith == Some(s.bookingData)
  {
    s.(summaryOpen := false, proceededWith := Some(s.bookingData))
  }

  /** Deleting the line a selection just added undoes the selection's
      effect on the booking data. */
  lemma SelectThenDeleteRestores(s: CardState, service: Service)
    ensures DeleteService(SelectService(s, service).bookingData, |s.bookingData|) == s.bookingData
  {
  }

  /** Editing the stylist twice with the same choice is editing once, and
      editing never changes which services are booked or their order. */
  lemma EditStylistIdempotent(data: seq<BookingLine>, service: Service, stylist: Option<Stylist>)
    ensures EditStylist(EditStylist(data, service, stylist), service, stylist) == EditStylist(data, service, stylist)
    ensures forall i :: 0 <= i < |data| ==> EditStylist(data, service, stylist)[i].service == data[i].service
  {
  }
}

=== FILE: service_list_table.dfy ===
/** The stylist's service table: a name filter, a sort by service id or
    by price chosen from the column headers, pages of rows, and the
    status chip. */
module ServiceListTable {
  import opened Common
  import opened Text
  import opened Paging
  import opened Sorting
  import opened Catalog

  /** The sort key: the two sortable columns, or any other key, whose
      comparator answers 0. */
  datatype SortKey = ServiceIdKey | PriceKey | OtherKey(name: string)

  datatype SortConfig = SortConfig(key: SortKey, direction: Direction)

  const InitialSort: SortConfig := SortConfig(ServiceIdKey, Asc)

  /** `handleSort(key)`. */
  function HandleSort(prev: SortConfig, key: SortKey): (r: SortConfig)
    ensures r.key == key
    ensures prev.key == key ==> r.direction == prev.direction.Toggle()
    ensures prev.key != key ==> r.direction == Asc
  {
    SortConfig(key, if prev.key == key && prev.direction == Asc then Desc else Asc)
  }

  /** Clicking the same header twice restores the sort. */
  lemma SameHeaderTwiceRestores(prev: SortConfig)
    ensures HandleSort(HandleSort(prev, prev.key), prev.key) == prev
  {
  }

  /** The number the comparator subtracts; a missing price counts as 0. */
  function SortValue(key: SortKey): Service -> int
  {
    match key
    case ServiceIdKey => (s: Service) => s.serviceId
    case PriceKey => (s: Service) => s.price.GetOr(0)
    case OtherKey(_) => (s: Service) => 0
  }

  /** The name filter: `serviceName.toLowerCase().includes(filter.toLowerCase())`. */
  function NameMatches(filter: string): Service -> bool
  {
    (s: Service) => ContainsIgnoreCase(s.serviceName, filter)
  }

  /** `filteredAndSortedServices`. */
  function Rows(services: seq<Service>, filter: string, config: SortConfig): (rows: seq<Service>)
    ensures forall s :: s in rows <==> s in services && ContainsIgnoreCase(s.serviceName, filter)
    ensures multiset(rows) == multiset(Filter(services, NameMatches(filter)))
    ensures config.direction == Asc ==>
      forall i, j :: 0 <= i < j < |rows| ==> SortValue(config.key)(rows[i]) <= SortValue(config.key)(rows[j])
    ensures config.direction == Desc ==>
      forall i, j :: 0 <= i < j < |rows| ==> SortValue(config.key)(rows[i]) >= SortValue(config.key)(rows[j])
  {
    var kept := Filter(services, NameMatches(filter));
    var rows := SortByDir(kept, SortValue(config.key), config.direction);
    SameMultisetSameMembers(rows, kept);
    rows
  }

  /** A key other than the two sortable columns leaves the filtered
      services in their original order, in either direction. */
  lemma OtherKeyKeepsOrder(services: seq<Service>, filter: string, name: string, dir: Direction)
    ensures Rows(services, filter, SortConfig(OtherKey(name), dir))
         == Filter(services, NameMatches(filter))
  {
    var kept := Filter(services, NameMatches(filter));
    var key := SortValue(OtherKey(name));
    if dir == Asc {
      ConstantKeyKeepsOrder(kept, key, 0);
    } else {
      ConstantKeyKeepsOrder(kept, Negate(key), 0);
    }
  }

  /** The rows value of the "All" option. */
  const AllRows: int := -1

  /** The rows on page `page` (from 0) as written: an unguarded
      `slice(page * rowsPerPage, page * rowsPerPage + rowsPerPage)`. A
      positive size gives that page; "All" gives `slice(0, -1)` on the
      first page, which is every row but the last, and nothing on the
      later ones. */
  function ShownAsWritten(services: seq<Service>, filter: string, config: SortConfig,
                          page: nat, rowsPerPage: int): (s: seq<Service>)
    ensures var rows := Rows(services, filter, config);
      rowsPerPage > 0 ==>
        page * rowsPerPage >= 0 && s == Window(rows, page * rowsPerPage, rowsPerPage)
    ensures var rows := Rows(services, filter, config);
      rowsPerPage == AllRows ==> s == (if page == 0 && |rows| > 0 then rows[..|rows| - 1] else [])
  {
    PageRows(Rows(services, filter, config), page, rowsPerPage)
  }

  /** With "All" chosen no page shows the whole non-empty list: the
      first page stops one row short and the later pages are empty. */
  lemma AllDropsLastServiceAsWritten(services: seq<Service>, filter: string, config: SortConfig, page: nat)
    requires |Rows(services, filter, config)| > 0
    ensures |ShownAsWritten(services, filter, config, page, AllRows)| < |Rows(services, filter, config)|
    ensures page == 0 ==> |ShownAsWritten(services, filter, config, page, AllRows)| == |Rows(services, filter, config)| - 1
  {
  }

  /** The rows on page `page` (from 0) with the guard the booking table
      has: a positive size gives that page, "All" gives every row. */
  function Shown(services: seq<Service>, filter: string, config: SortConfig,
                 page: nat, rowsPerPage: int): (s: seq<Service>)
    ensures var rows := Rows(services, filter, config);
      rowsPerPage > 0 ==>
        page * rowsPerPage >= 0 && s == Window(rows, page * rowsPerPage, rowsPerPage)
    ensures rowsPerPage <= 0 ==> s == Rows(services, filter, config)
  {
    TableRows(Rows(services, filter, config), page, rowsPerPage)
  }

  /** The corrected page agrees with the page as written for every
      positive size; they differ only on "All". */
  lemma ShownAgreesForPositiveSizes(services: seq<Service>, filter: string, config: SortConfig,
                                    page: nat, rowsPerPage: int)
    ensures rowsPerPage > 0 ==>
      Shown(services, filter, config, page, rowsPerPage) == ShownAsWritten(services, filter, config, page, rowsPerPage)
    ensures |Rows(services, filter, config)| > 0 ==>
      Shown(services, filter, config, 0, AllRows) != ShownAsWritten(services, filter, config, 0, AllRows)
  {
  }

  /** The table's paging state and the service whose details are open. */
  datatype Table = Table(page: nat, rowsPerPage: int, selected: Option<Service>, modalOpen: bool)

  /** `handleChangeRowsPerPage`: back to the first page. */
  function ChangeRowsPerPage(t: Table, rowsPerPage: int): (r: Table)
    ensures r.rowsPerPage == rowsPerPage && r.page == 0
    ensures r.selected == t.selected && r.modalOpen == t.modalOpen
  {
    t.(rowsPerPage := rowsPerPage, page := 0)
  }

  /** After a change of page size the first rows are shown. */
  lemma ResizeShowsFirstRows(services: seq<Service>, filter: string, config: SortConfig, t: Table, rowsPerPage: int)
    ensures var r := ChangeRowsPerPage(t, rowsPerPage);
      var rows := Rows(services, filter, config);
      Shown(services, filter, config, r.page, r.rowsPerPage)
        == (if rowsPerPage > 0 then rows[..Min(rowsPerPage, |rows|)] else rows)
  {
  }

  /** `handleOpenModal` / `handleCloseModal`. */
  function OpenDetails(t: Table, s: Service): (r: Table)
    ensures r.modalOpen && r.selected == Some(s) && r.page == t.page
  {
    t.(selected := Some(s), modalOpen := true)
  }

  function CloseDetails(t: Table): (r: Table)
    ensures !r.modalOpen && r.selected.None? && r.page == t.page
  {
    t.(modalOpen := false, selected := None)
  }

  datatype StatusChip = ActiveChip | InactiveChip

  /** `getStatusChip`. */
  function StatusChipOf(status: int): (r: StatusChip)
    ensures r == ActiveChip <==> status == 1
  {
    if status == 1 then ActiveChip else InactiveChip
  }
}

=== FILE: service_page.dfy ===
/** The customer's service catalogue page: the services with status 1,
    shown six to a page, or an error text in their place. */
module ServicePage {
  import opened Common
  import opened Paging
  import opened SliceTrace
  import opened Catalog

  const PageSize: nat := 6

  const NoActiveServices: string := "No active services available at the moment."
  const FetchFailed: string := "Failed to fetch services. Please try again later."

  /** The pagination control only hands out page numbers from 1 on. */
  type PageNumber = p: int | p >= 1 witness 1

  /** How the request ended: a reply whose `data` may be missing (and
      then reads as `[]`), or a thrown error. */
  datatype Reply = Received(data: Option<seq<Service>>) | Failed

  datatype PageState = PageState(
    serviceCard: seq<Service>,
    error: Option<string>,
    page: PageNumber,
    paginatedServices: seq<Service>,
    loading: bool)

  function Initial(): (r: PageState)
    ensures r.serviceCard == [] && r.paginatedServices == [] && r.error.None? && r.page == 1
  {
    PageState([], None, 1, [], true)
  }

  function IsActive(s: Service): bool { s.status == 1 }

  /** The services the page keeps from a reply: the active ones, in the
      reply's order. */
  function ActiveServices(data: seq<Service>): (r: seq<Service>)
    ensures forall x :: x in r <==> x in data && x.status == 1
    ensures IsSubsequence(r, data)
  {
    FilterIsSubsequence(data, IsActive);
    Filter(data, IsActive)
  }

  /** `fetchServices`: a reply with active services replaces the
      catalogue and shows the current page of it; a reply without any
      keeps the old catalogue and shows the "no active services" text; a
      failed request shows the "failed to fetch" text. */
  function Fetch(s: PageState, reply: Reply): (r: PageState)
    ensures !r.loading && r.page == s.page
    ensures reply.Failed? ==> r == s.(error := Some(FetchFailed), loading := false)
    ensures reply.Received? && |ActiveServices(reply.data.GetOr([]))| == 0 ==>
      r == s.(error := Some(NoActiveServices), loading := false)
    ensures reply.Received? && |ActiveServices(reply.data.GetOr([]))| > 0 ==>
      && r.error.None?
      && r.serviceCard == ActiveServices(reply.data.GetOr([]))
      && r.paginatedServices == Page(r.serviceCard, s.page, PageSize)
    ensures forall x :: x in r.serviceCard ==> x in s.serviceCard || x.status == 1
  {
    match reply
    case Failed => s.(error := Some(FetchFailed), loading := false)
    case Received(data) =>
      var active := ActiveServices(data.GetOr([]));
      if |active| == 0 then s.(error := Some(NoActiveServices), loading := false)
      else s.(error := None, serviceCard := active, paginatedServices := Page(active, s.page, PageSize), loading := false)
  }

  /** `handlePageChange` together with the paging effect: the new page of
      the catalogue is shown as soon as there is a catalogue. */
  function ChangePage(s: PageState, value: PageNumber): (r: PageState)
    ensures r.page == value && r.serviceCard == s.serviceCard && r.error == s.error
    ensures |s.serviceCard| > 0 ==> r.paginatedServices == Page(s.serviceCard, value, PageSize)
    ensures |s.serviceCard| == 0 ==> r.paginatedServices == s.paginatedServices
  {
    var moved := s.(page := value);
    if |s.serviceCard| > 0 then moved.(paginatedServices := Page(s.serviceCard, value, PageSize))
    else moved
  }

  /** A page change starts a new fetch; its reply arrives as a step of
      its own. */
  datatype Event = PageChanged(value: PageNumber) | Fetched(reply: Reply)

  function Step(s: PageState, e: Event): PageState
  {
    match e
    case PageChanged(v) => ChangePage(s, v)
    case Fetched(reply) => Fetch(s, reply)
  }

  /** What the page shows: the current page's cards and the page count,
      or the error text alone. */
  predicate Consistent(s: PageState)
  {
    && s.paginatedServices == Page(s.serviceCard, s.page, PageSize)
    && (forall x :: x in s.serviceCard ==> x.status == 1)
  }

  lemma InitialConsistent()
    ensures Consistent(Initial())
  {
  }

  /** Whatever replies arrive and whatever pages are chosen, the cards
      shown are exactly the current page of the catalogue, and the
      catalogue holds only active services. */
  lemma {:induction false} RunConsistent(s: PageState, events: seq<Event>)
    requires Consistent(s)
    ensures Consistent(Run(s, events, Step))
    decreases |events|
  {
    if |events| > 0 {
      var next := Step(s, events[0]);
      assert Consistent(next) by {
        if events[0].PageChanged? && |s.serviceCard| == 0 {
          assert Page(s.serviceCard, events[0].value, PageSize) == [];
        }
      }
      RunConsistent(next, events[1..]);
    }
  }

  datatype View = ErrorText(text: string) | Cards(shown: seq<Service>, count: nat)

  function Render(s: PageState): (r: View)
    ensures s.error.Some? <==> r.ErrorText?
    ensures r.Cards? ==> r.shown == s.paginatedServices && r.count == PageCount(|s.serviceCard|, PageSize)
  {
    if s.error.Some? then ErrorText(s.error.value)
    else Cards(s.paginatedServices, PageCount(|s.serviceCard|, PageSize))
  }

  /** Reading the pages the pagination control offers, one after the
      other, shows every service of the catalogue once, in order. */
  lemma PagesShowCatalogue(s: PageState)
    ensures PagesUpTo(s.serviceCard, PageSize, PageCount(|s.serviceCard|, PageSize)) == s.serviceCard
  {
    AllPagesReassemble(s.serviceCard, PageSize);
  }
}

=== FILE: slice_trace.dfy ===
/** What the store slices share: a reducer applied to a sequence of
    actions, and fields that each action either overwrites or leaves
    alone (`isLoading`, `error`, a status tag, a data field). Such a field
    ends up holding whatever the last action that wrote it wrote. */
module SliceTrace {
  import opened Common

  /** Dispatching `acts` in order, starting from `s`. */
  function Run<S, A>(s: S, acts: seq<A>, step: (S, A) -> S): S
    decreases |acts|
  {
    if |acts| == 0 then s else Run(step(s, acts[0]), acts[1..], step)
  }

  lemma {:induction false} RunSnoc<S, A>(s: S, acts: seq<A>, a: A, step: (S, A) -> S)
    ensures Run(s, acts + [a], step) == step(Run(s, acts, step), a)
    decreases |acts|
  {
    if |acts| == 0 {
      assert acts + [a] == [a];
    } else {
      assert (acts + [a])[1..] == acts[1..] + [a];
      RunSnoc(step(s, acts[0]), acts[1..], a, step);
    }
  }

  /** The value of the last write, or `init` when nothing was written;
      read from the end of the trace. */
  function LastWrite<T>(init: T, writes: seq<Option<T>>): T
  {
    if |writes| == 0 then init
    else match writes[|writes| - 1]
      case Some(v) => v
      case None => LastWrite(init, writes[..|writes| - 1])
  }

  /** Every step writes `write(a)` to the field when that is present and
      otherwise leaves the field as it was. */
  ghost predicate Overwrites<S(!new), A(!new), T>(step: (S, A) -> S, field: S -> T, write: A -> Option<T>)
  {
    forall s: S, a: A :: field(step(s, a)) == (if write(a).Some? then write(a).value else field(s))
  }

  /** After any run, such a field holds the last value written to it, or
      its starting value when nothing wrote it. */
  lemma {:induction false} RunField<S(!new), A(!new), T>(s: S, acts: seq<A>, step: (S, A) -> S,
                                            field: S -> T, write: A -> Option<T>)
    requires Overwrites(step, field, write)
    ensures field(Run(s, acts, step)) == LastWrite(field(s), Map(acts, write))
    decreases |acts|
  {
    if |acts| > 0 {
      var init := acts[..|acts| - 1];
      var a := acts[|acts| - 1];
      assert acts == init + [a];
      RunSnoc(s, init, a, step);
      RunField(s, init, step, field, write);
      assert Map(acts, write)[..|acts| - 1] == Map(init, write);
    }
  }
}

=== FILE: sorting.dfy ===
/** Sorting as the tables do it: `Array.prototype.sort` with a comparator
    `(a, b) => key(a) - key(b)` (or its negation for descending order).
    The JavaScript sort is stable, so the result is the unique stable
    ordering by key; it is modelled by insertion sort, which is stable. */
module Sorting {
  import opened Common

  /** The sort direction toggled by the column headers. */
  datatype Direction = Asc | Desc {
    /** `dir === 'asc' ? 'desc' : 'asc'`. */
    function Toggle(): (r: Direction)
      ensures r != this
    {
      if Asc? then Desc else Asc
    }
  }

  predicate SortedBy<T>(xs: seq<T>, key: T -> int)
  {
    forall i, j :: 0 <= i < j < |xs| ==> key(xs[i]) <= key(xs[j])
  }

  /** Places `x` in front of the first element whose key is not smaller. */
  function Insert<T>(x: T, xs: seq<T>, key: T -> int): (r: seq<T>)
    requires SortedBy(xs, key)
    ensures SortedBy(r, key)
    ensures multiset(r) == multiset(xs) + multiset{x}
  {
    if |xs| == 0 then [x]
    else if key(x) <= key(xs[0]) then [x] + xs
    else
      var rest := Insert(x, xs[1..], key);
      SortedTail(xs, key);
      HeadBelowAll(xs[0], xs[1..], x, rest, key);
      ConsSorted(xs[0], rest, key);
      ConsMultiset(xs, x, rest);
      [xs[0]] + rest
  }

  /** The tail of a sorted list is sorted and bounded below by the head. */
  lemma SortedTail<T>(xs: seq<T>, key: T -> int)
    requires |xs| > 0 && SortedBy(xs, key)
    ensures SortedBy(xs[1..], key)
    ensures forall y :: y in xs[1..] ==> key(xs[0]) <= key(y)
  {
    forall y | y in xs[1..]
      ensures key(xs[0]) <= key(y)
    {
      var j :| 0 <= j < |xs[1..]| && xs[1..][j] == y;
      assert xs[j + 1] == y;
    }
  }

  /** Whatever holds the tail's items plus `x` stays above a lower bound
      of both. */
  lemma HeadBelowAll<T>(h: T, tail: seq<T>, x: T, rest: seq<T>, key: T -> int)
    requires multiset(rest) == multiset(tail) + multiset{x}
    requires forall y :: y in tail ==> key(h) <= key(y)
    requires key(h) <= key(x)
    ensures forall y :: y in rest ==> key(h) <= key(y)
  {
    forall y | y in rest
      ensures key(h) <= key(y)
    {
      assert y in multiset(rest);
      assert y == x || y in multiset(tail);
    }
  }

  lemma ConsSorted<T>(h: T, rest: seq<T>, key: T -> int)
    requires SortedBy(rest, key)
    requires forall y :: y in rest ==> key(h) <= key(y)
    ensures SortedBy([h] + rest, key)
  {
    var r := [h] + rest;
    forall i, j | 0 <= i < j < |r|
      ensures key(r[i]) <= key(r[j])
    {
      assert r[j] == rest[j - 1];
      if i > 0 {
        assert r[i] == rest[i - 1];
      } else {
        assert rest[j - 1] in rest;
      }
    }
  }

  lemma ConsMultiset<T>(xs: seq<T>, x: T, rest: seq<T>)
    requires |xs| > 0 && multiset(rest) == multiset(xs[1..]) + multiset{x}
    ensures multiset([xs[0]] + rest) == multiset(xs) + multiset{x}
  {
    assert xs == [xs[0]] + xs[1..];
  }

  /** `xs.sort((a, b) => key(a) - key(b))`. */
  function SortBy<T>(xs: seq<T>, key: T -> int): (r: seq<T>)
    ensures SortedBy(r, key)
    ensures multiset(r) == multiset(xs)
    ensures |r| == |xs|
  {
    if |xs| == 0 then []
    else
      assert xs == [xs[0]] + xs[1..];
      Insert(xs[0], SortBy(xs[1..], key), key)
  }

  function Negate<T>(key: T -> int): T -> int
  {
    x => -key(x)
  }

  /** Sorting by `key` in the given direction; descending order is the
      comparator `(a, b) => key(b) - key(a)`, i.e. ascending by `-key`. */
  function SortByDir<T>(xs: seq<T>, key: T -> int, dir: Direction): (r: seq<T>)
    ensures multiset(r) == multiset(xs)
    ensures dir == Asc ==> forall i, j :: 0 <= i < j < |r| ==> key(r[i]) <= key(r[j])
    ensures dir == Desc ==> forall i, j :: 0 <= i < j < |r| ==> key(r[i]) >= key(r[j])
  {
    if dir == Asc then SortBy(xs, key)
    else
      var r := SortBy(xs, Negate(key));
      assert forall i, j :: 0 <= i < j < |r| ==> Negate(key)(r[i]) <= Negate(key)(r[j]);
      r
  }

  function KeyIs<T>(key: T -> int, k: int): T -> bool
  {
    x => key(x) == k
  }

  lemma {:induction false} InsertStable<T>(x: T, xs: seq<T>, key: T -> int, k: int)
    requires SortedBy(xs, key)
    ensures Filter(Insert(x, xs, key), KeyIs(key, k))
         == (if key(x) == k then [x] else []) + Filter(xs, KeyIs(key, k))
  {
    var p := KeyIs(key, k);
    if |xs| == 0 {
      FilterCons(x, [], p);
    } else if key(x) <= key(xs[0]) {
      FilterCons(x, xs, p);
    } else {
      SortedTail(xs, key);
      InsertStable(x, xs[1..], key, k);
      InsertStableLater(x, xs, key, k);
    }
  }

  /** The step of `InsertStable` where `x` goes past the head: the head
      and `x` cannot both carry key `k`, so their order does not show. */
  lemma InsertStableLater<T>(x: T, xs: seq<T>, key: T -> int, k: int)
    requires |xs| > 0 && SortedBy(xs, key) && key(x) > key(xs[0])
    requires SortedBy(xs[1..], key)
    requires Filter(Insert(x, xs[1..], key), KeyIs(key, k))
          == (if key(x) == k then [x] else []) + Filter(xs[1..], KeyIs(key, k))
    ensures Filter(Insert(x, xs, key), KeyIs(key, k))
         == (if key(x) == k then [x] else []) + Filter(xs, KeyIs(key, k))
  {
    var p := KeyIs(key, k);
    var rest := Insert(x, xs[1..], key);
    var mine := if key(x) == k then [x] else [];
    var tail := Filter(xs[1..], p);
    var head := if p(xs[0]) then [xs[0]] else [];
    assert Insert(x, xs, key) == [xs[0]] + rest;
    FilterCons(xs[0], rest, p);
    assert Filter(Insert(x, xs, key), p) == head + (mine + tail);
    assert Filter(xs, p) == head + tail;
    assert head == [] || mine == [];
    EmptyCommutes(head, mine, tail);
  }

  /** When one of two lists is empty, their order does not matter. */
  lemma EmptyCommutes<T>(a: seq<T>, b: seq<T>, c: seq<T>)
    requires a == [] || b == []
    ensures a + (b + c) == b + (a + c)
  {
    if a == [] {
      assert a + (b + c) == b + c;
      assert a + c == c;
    } else {
      assert b + (a + c) == a + c;
      assert b + c == c;
    }
  }

  /** Stability: among items with equal keys the sort keeps the input
      order, so the items with any one key appear in the output exactly
      as they appear in the input. */
  lemma {:induction false} SortStable<T>(xs: seq<T>, key: T -> int, k: int)
    ensures Filter(SortBy(xs, key), KeyIs(key, k)) == Filter(xs, KeyIs(key, k))
  {
    if |xs| > 0 {
      SortStable(xs[1..], key, k);
      InsertStable(xs[0], SortBy(xs[1..], key), key, k);
    }
  }

  /** A comparator that answers 0 for every pair (all keys equal) leaves
      the list in its original order. */
  lemma ConstantKeyKeepsOrder<T>(xs: seq<T>, key: T -> int, c: int)
    requires forall x :: x in xs ==> key(x) == c
    ensures SortBy(xs, key) == xs
  {
    var r := SortBy(xs, key);
    SortStable(xs, key, c);
    FilterAll(xs, KeyIs(key, c));
    forall x | x in r
      ensures KeyIs(key, c)(x)
    {
      assert x in multiset(r);
    }
    FilterAll(r, KeyIs(key, c));
  }
}

=== FILE: text.dfy ===
/** Strings as the components use them: ASCII case folding for the
    `toLowerCase().includes(...)` filters, digit-only checks for phone
    numbers, and decimal rendering of numbers inside dates and titles. */
module Text {
  import opened Common

  predicate IsUpper(c: char) { 'A' <= c <= 'Z' }

  predicate IsDigit(c: char) { '0' <= c <= '9' }

  /** `toLowerCase()` on one character, restricted to ASCII letters. */
  function LowerChar(c: char): (r: char)
    ensures IsUpper(c) ==> r as int == c as int + 32
    ensures !IsUpper(c) ==> r == c
  {
    if IsUpper(c) then (c as int + 32) as char else c
  }

  function Lower(s: string): (r: string)
    ensures |r| == |s|
    ensures forall i :: 0 <= i < |s| ==> r[i] == LowerChar(s[i])
  {
    if |s| == 0 then "" else [LowerChar(s[0])] + Lower(s[1..])
  }

  /** `needle` occurs in `hay` starting at position `i`. */
  predicate OccursAt(needle: string, hay: string, i: int)
  {
    0 <= i && i + |needle| <= |hay| && hay[i..i + |needle|] == needle
  }

  predicate StartsWith(s: string, prefix: string)
  {
    |prefix| <= |s| && s[..|prefix|] == prefix
  }

  /** `hay.includes(needle)`, computed by trying every start position. */
  function Includes(hay: string, needle: string): (r: bool)
    ensures r <==> exists i :: OccursAt(needle, hay, i)
    decreases |hay|
  {
    if StartsWith(hay, needle) then
      assert OccursAt(needle, hay, 0);
      true
    else if |hay| == 0 then
      assert forall i :: !OccursAt(needle, hay, i);
      false
    else
      var r := Includes(hay[1..], needle);
      assert r ==> exists i :: OccursAt(needle, hay, i) by {
        if r {
          var i :| OccursAt(needle, hay[1..], i);
          assert hay[1..][i..i + |needle|] == hay[i + 1..i + 1 + |needle|];
          assert OccursAt(needle, hay, i + 1);
        }
      }
      assert (exists i :: OccursAt(needle, hay, i)) ==> r by {
        if exists i :: OccursAt(needle, hay, i) {
          var i :| OccursAt(needle, hay, i);
          assert i != 0;
          assert hay[1..][i - 1..i - 1 + |needle|] == hay[i..i + |needle|];
          assert OccursAt(needle, hay[1..], i - 1);
        }
      }
      r
  }

  /** The empty filter text matches everything. */
  lemma IncludesEmpty(hay: string)
    ensures Includes(hay, "")
  {
    assert OccursAt("", hay, 0);
  }

  /** `hay.toLowerCase().includes(needle.toLowerCase())`. */
  predicate ContainsIgnoreCase(hay: string, needle: string)
  {
    Includes(Lower(hay), Lower(needle))
  }

  predicate AllDigits(s: string)
  {
    forall i :: 0 <= i < |s| ==> IsDigit(s[i])
  }

  /** The regular expression `/^\d{10}$/`. */
  predicate IsTenDigits(s: string)
  {
    |s| == 10 && AllDigits(s)
  }

  function DigitChar(d: nat): (c: char)
    requires d < 10
    ensures IsDigit(c)
  {
    ('0' as int + d) as char
  }

  function DigitValue(c: char): nat
    requires IsDigit(c)
  {
    c as int - '0' as int
  }

  /** The value of a non-empty digit string, most significant digit first. */
  function DigitsValue(s: string): nat
    requires AllDigits(s)
  {
    if |s| == 0 then 0
    else DigitsValue(s[..|s| - 1]) * 10 + DigitValue(s[|s| - 1])
  }

  /** `String(n)` for a natural number: no sign, no leading zeros. */
  function NatToString(n: nat): (s: string)
    ensures |s| > 0 && AllDigits(s)
    ensures |s| > 1 ==> s[0] != '0'
  {
    if n < 10 then [DigitChar(n)]
    else NatToString(n / 10) + [DigitChar(n % 10)]
  }

  /** Reading back a rendered number gives the number. */
  lemma {:induction false} NatToStringRoundTrip(n: nat)
    ensures DigitsValue(NatToString(n)) == n
  {
    var s := NatToString(n);
    if n >= 10 {
      NatToStringRoundTrip(n / 10);
      assert s[..|s| - 1] == NatToString(n / 10);
    }
  }

  /** Distinct numbers render to distinct strings. */
  lemma NatToStringInjective(a: nat, b: nat)
    requires NatToString(a) == NatToString(b)
    ensures a == b
  {
    NatToStringRoundTrip(a);
    NatToStringRoundTrip(b);
  }

  /** `String(n)` for any integer: a minus sign before negative ones. */
  function IntToString(n: int): (s: string)
    ensures |s| > 0
    ensures n >= 0 ==> s == NatToString(n)
    ensures n < 0 ==> s == "-" + NatToString(-n)
  {
    if n >= 0 then NatToString(n) else "-" + NatToString(-n)
  }

  lemma IntToStringInjective(a: int, b: int)
    requires IntToString(a) == IntToString(b)
    ensures a == b
  {
    if a >= 0 && b >= 0 {
      NatToStringInjective(a, b);
    } else if a < 0 && b < 0 {
      assert IntToString(a)[1..] == NatToString(-a);
      assert IntToString(b)[1..] == NatToString(-b);
      NatToStringInjective(-a, -b);
    }
  }

  /** Two-digit padding loses nothing. */
  lemma Pad2Injective(a: nat, b: nat)
    requires a < 100 && b < 100 && Pad2(a) == Pad2(b)
    ensures a == b
  {
  }

  /** `String(n).padStart(2, '0')` for `n < 100`. */
  function Pad2(n: nat): (s: string)
    requires n < 100
    ensures |s| == 2 && AllDigits(s)
    ensures DigitsValue(s) == n
  {
    var s := [DigitChar(n / 10), DigitChar(n % 10)];
    assert s[..1] == [DigitChar(n / 10)];
    assert s[..1][..0] == [];
    assert DigitValue(DigitChar(n / 10)) == n / 10;
    assert DigitsValue(s[..1]) == n / 10;
    assert DigitValue(s[1]) == n % 10;
    s
  }

  /** `s.split(c)` for a one-character separator: the pieces between the
      occurrences of `c`, always at least one. */
  function Split(s: string, c: char): (r: seq<string>)
    ensures |r| >= 1
    ensures forall i :: 0 <= i < |r| ==> c !in r[i]
  {
    if |s| == 0 then [""]
    else
      var rest := Split(s[1..], c);
      if s[0] == c then [""] + rest
      else [[s[0]] + rest[0]] + rest[1..]
  }

  lemma {:induction false} JoinCons(a: string, rest: seq<string>, sep: string)
    requires |rest| >= 1
    ensures Join([a] + rest, sep) == a + sep + Join(rest, sep)
    decreases |rest|
  {
    if |rest| == 1 {
      assert [a] + rest == [a, rest[0]];
    } else {
      var init := rest[..|rest| - 1];
      JoinCons(a, init, sep);
      assert ([a] + rest)[..|rest|] == [a] + init;
    }
  }

  /** Splitting and joining back with the same separator gives the
      original text: no character is lost or added. */
  lemma {:induction false} SplitJoin(s: string, c: char)
    ensures Join(Split(s, c), [c]) == s
  {
    if |s| > 0 {
      var rest := Split(s[1..], c);
      SplitJoin(s[1..], c);
      if s[0] == c {
        JoinCons("", rest, [c]);
      } else {
        JoinHead([s[0]], rest, [c]);
      }
      assert s == [s[0]] + s[1..];
    }
  }

  /** Prefixing the first piece prefixes the joined text. */
  lemma {:induction false} JoinHead(pre: string, parts: seq<string>, sep: string)
    requires |parts| >= 1
    ensures Join([pre + parts[0]] + parts[1..], sep) == pre + Join(parts, sep)
    decreases |parts|
  {
    if |parts| == 1 {
      assert [pre + parts[0]] + parts[1..] == [pre + parts[0]];
    } else {
      var init := parts[..|parts| - 1];
      JoinHead(pre, init, sep);
      assert ([pre + parts[0]] + parts[1..])[..|parts| - 1] == [pre + init[0]] + init[1..];
      assert init[0] == parts[0];
    }
  }

  /** The longest run of digits at the start of `s`. */
  function LeadingDigits(s: string): (r: string)
    ensures AllDigits(r) && StartsWith(s, r)
    ensures |r| < |s| ==> !IsDigit(s[|r|])
  {
    if |s| == 0 || !IsDigit(s[0]) then ""
    else [s[0]] + LeadingDigits(s[1..])
  }

  /** `parseInt(s, 10)` on text without leading blanks or sign: the value
      of the leading digits, and no number (`NaN`) when there are none. */
  function ParseIntPrefix(s: string): (r: Option<nat>)
    ensures r.None? <==> (|s| == 0 || !IsDigit(s[0]))
  {
    var ds := LeadingDigits(s);
    if |ds| == 0 then None else Some(DigitsValue(ds))
  }

  /** `parseInt` reads a rendered number back, whatever non-digit text
      follows it (`"30 min"` reads as 30). */
  lemma ParseIntPrefixOfRendered(n: nat, rest: string)
    requires |rest| == 0 || !IsDigit(rest[0])
    ensures ParseIntPrefix(NatToString(n) + rest) == Some(n)
  {
    var s := NatToString(n) + rest;
    LeadingDigitsOfDigits(NatToString(n), rest);
    NatToStringRoundTrip(n);
  }

  lemma {:induction false} LeadingDigitsOfDigits(ds: string, rest: string)
    requires AllDigits(ds)
    requires |rest| == 0 || !IsDigit(rest[0])
    ensures LeadingDigits(ds + rest) == ds
  {
    if |ds| > 0 {
      LeadingDigitsOfDigits(ds[1..], rest);
      assert (ds + rest)[1..] == ds[1..] + rest;
      assert ds == [ds[0]] + ds[1..];
    } else {
      assert ds + rest == rest;
    }
  }

  /** `parts.join(sep)`. */
  function Join(parts: seq<string>, sep: string): string
  {
    if |parts| == 0 then ""
    else if |parts| == 1 then parts[0]
    else Join(parts[..|parts| - 1], sep) + sep + parts[|parts| - 1]
  }
}

=== FILE: user_booking.dfy ===
/** The profile's "manage your bookings" panel: bookings split by start
    date alone into an "Upcoming" and a "Past" tab, an empty-tab notice,
    and the "Manage" menu. */
module UserBooking {
  import opened Common
  import BookingHistory

  type Booking = BookingHistory.Booking

  predicate StartsLater(now: int, b: Booking) { b.startDate >= now }

  predicate StartedBefore(now: int, b: Booking) { b.startDate < now }

  function Upcoming(history: seq<Booking>, now: int): (r: seq<Booking>)
    ensures forall b :: b in r <==> b in history && StartsLater(now, b)
  {
    Filter(history, b => StartsLater(now, b))
  }

  function Past(history: seq<Booking>, now: int): (r: seq<Booking>)
    ensures forall b :: b in r <==> b in history && StartedBefore(now, b)
  {
    Filter(history, b => StartedBefore(now, b))
  }

  /** The two tabs are disjoint and together cover the history. */
  lemma TabsPartition(history: seq<Booking>, now: int)
    ensures forall b :: b in history ==> (b in Upcoming(history, now) <==> b !in Past(history, now))
    ensures multiset(Upcoming(history, now)) + multiset(Past(history, now)) == multiset(history)
  {
    FilterSplits(history, b => StartsLater(now, b), b => StartedBefore(now, b));
  }

  /** No status filter here: the history page's "Upcoming" tab is this
      tab with the completed and cancelled bookings taken out, so a
      cancelled future booking is upcoming here and past there. */
  lemma HistoryPageDropsFinished(history: seq<Booking>, now: int)
    ensures BookingHistory.Upcoming(history, now)
         == Filter(Upcoming(history, now), (b: Booking) => !BookingHistory.Finished(b))
  {
    FilterFilter(history, b => StartsLater(now, b), (b: Booking) => !BookingHistory.Finished(b),
      b => BookingHistory.IsUpcoming(now, b));
  }

  /** What a tab's box shows. */
  datatype Panel = Nothing | Notice(text: string) | Items(bookings: seq<Booking>)

  /** The box for tab `tab`. A missing history renders nothing at all:
      `undefined === 0` is false, and mapping over `undefined` yields
      nothing. */
  function Render(history: Option<seq<Booking>>, now: int, tab: int): (r: Panel)
    ensures !(tab == 0 || tab == 1) ==> r == Nothing
    ensures history.None? ==> r == Nothing
    ensures history.Some? && tab == 0 ==>
      (r == Notice("No upcoming bookings found.") <==> |Upcoming(history.value, now)| == 0)
    ensures history.Some? && tab == 1 ==>
      (r == Notice("No past bookings found.") <==> |Past(history.value, now)| == 0)
    ensures r.Items? ==> |r.bookings| > 0
    ensures r.Items? ==>
      r.bookings == (if tab == 0 then Upcoming(history.value, now) else Past(history.value, now))
  {
    if tab != 0 && tab != 1 then Nothing
    else match history
      case None => Nothing
      case Some(h) =>
        var l := if tab == 0 then Upcoming(h, now) else Past(h, now);
        if |l| == 0 then
          Notice(if tab == 0 then "No upcoming bookings found." else "No past bookings found.")
        else Items(l)
  }

  /** The "Manage" menu: open exactly when it has an anchor. */
  datatype Menu<A> = Menu(anchor: Option<A>)
  {
    predicate Open() { anchor.Some? }
  }

  /** `handleMenuOpen`. */
  function OpenMenu<A>(m: Menu<A>, target: A): (r: Menu<A>)
    ensures r.Open() && r.anchor == Some(target)
  {
    Menu(Some(target))
  }

  /** `handleMenuClose`, which every menu item also calls. */
  function CloseMenu<A>(m: Menu<A>): (r: Menu<A>)
    ensures !r.Open()
  {
    Menu(None)
  }

  /** Choosing any item after opening closes the menu again, whatever
      it was anchored to. */
  lemma OpenThenChooseCloses<A>(m: Menu<A>, target: A)
    ensures OpenMenu(m, target).Open() && CloseMenu(OpenMenu(m, target)) == CloseMenu(m)
  {
  }
}

=== FILE: user_list_table.dfy ===
/** The manager's stylist-assignment screen: the stylists among the
    users, the bookings of the chosen stylist, calendar events grouping
    bookings by the day of their first schedule, a searchable booking
    list sorted by start date in pages of five, and the confirmation that
    assigns a stylist to a booking. Days are day numbers; two instants
    on the same day have the same `YYYY-MM-DD` key. */
module UserListTable {
  import opened Common
  import opened Text
  import opened Paging
  import opened Sorting
  import opened Grouping

  datatype User = User(userId: Option<int>, userName: string, role: int)

  /** Role 2 is the stylist role. */
  const StylistRole: int := 2

  function Stylists(users: seq<User>): (r: seq<User>)
    ensures forall u :: u in r <==> u in users && u.role == StylistRole
    ensures IsSubsequence(r, users)
  {
    FilterIsSubsequence(users, (u: User) => u.role == StylistRole);
    Filter(users, (u: User) => u.role == StylistRole)
  }

  /** A service of a booking, with the name of its stylist if one is
      assigned. */
  datatype ServiceLine = ServiceLine(serviceName: string, stylistName: Option<string>)

  datatype ScheduleRef = ScheduleRef(scheduleId: Option<int>, day: int)

  datatype Booking = Booking(
    bookingId: nat,
    userName: string,
    startDate: int,
    services: seq<ServiceLine>,
    schedules: seq<ScheduleRef>)

  /** Some service of `b` is served by the stylist named `name`. */
  predicate ServedBy(b: Booking, name: string)
  {
    exists i :: 0 <= i < |b.services| && b.services[i].stylistName == Some(name)
  }

  /** `stylistBookings`: empty while no stylist is chosen. */
  function StylistBookings(bookings: seq<Booking>, selected: Option<User>): (r: seq<Booking>)
    ensures selected.None? ==> r == []
    ensures selected.Some? ==> forall b :: b in r <==> b in bookings && ServedBy(b, selected.value.userName)
    ensures IsSubsequence(r, bookings)
  {
    match selected
    case None => []
    case Some(s) =>
      FilterIsSubsequence(bookings, (b: Booking) => ServedBy(b, s.userName));
      Filter(bookings, (b: Booking) => ServedBy(b, s.userName))
  }

  /** A calendar event: the day, the bookings on it, and the title. */
  datatype Event = Event(title: string, day: int, bookings: seq<Booking>)

  function FirstDay(b: Booking): int
  {
    if |b.schedules| > 0 then b.schedules[0].day else 0
  }

  function IdText(b: Booking): string { NatToString(b.bookingId) }

  /** `Booking IDs: ` followed by the ids of the group, comma separated. */
  function Title(bookings: seq<Booking>): string
  {
    "Booking IDs: " + Join(Map(bookings, IdText), ", ")
  }

  /** The title grows the way the `reduce` grows it: the first booking of
      a day opens it, every later one appends `, id`. */
  lemma TitleGrows(bookings: seq<Booking>, b: Booking)
    ensures |bookings| == 0 ==> Title(bookings + [b]) == "Booking IDs: " + IdText(b)
    ensures |bookings| > 0 ==> Title(bookings + [b]) == Title(bookings) + ", " + IdText(b)
  {
    var ids := Map(bookings + [b], IdText);
    MapSnoc(bookings, b, IdText);
    if |bookings| > 0 {
      assert Join(ids, ", ") == Join(Map(bookings, IdText), ", ") + ", " + IdText(b);
    }
  }


  /** Every booking has a first schedule; otherwise its date is
      invalid and `toISOString` throws, and no calendar is drawn. */
  predicate AllScheduled(bookings: seq<Booking>)
  {
    forall i :: 0 <= i < |bookings| ==> |bookings[i].schedules| > 0
  }

  /** The calendar of `bookings`: one event per distinct first-schedule
      day, holding exactly that day's bookings in input order, titled with
      their ids, never empty, and no day without a booking. */
  predicate IsCalendarOf(events: seq<Event>, bookings: seq<Booking>)
  {
    && (forall i, j :: 0 <= i < j < |events| ==> events[i].day != events[j].day)
    && (forall i :: 0 <= i < |events| ==>
          events[i].bookings == Filter(bookings, KeyEq(FirstDay, events[i].day))
          && events[i].title == Title(events[i].bookings))
    && (forall i :: 0 <= i < |events| ==>
          |events[i].bookings| > 0
          && exists j :: 0 <= j < |bookings| && FirstDay(bookings[j]) == events[i].day)
    && (forall j :: 0 <= j < |bookings| ==>
          exists i :: 0 <= i < |events| && events[i].day == FirstDay(bookings[j]))
  }

  /** `calendarEvents` over the chosen stylist's bookings followed by the
      bookings with no stylist. */
  function CalendarEvents(bookings: seq<Booking>): (r: Option<seq<Event>>)
    ensures r.Some? <==> AllScheduled(bookings)
    ensures r.Some? ==> IsCalendarOf(r.value, bookings)
  {
    if !AllScheduled(bookings) then None
    else
      GroupsAreCalendar(bookings);
      Some(Map(GroupBy(bookings, FirstDay), ToEvent))
  }

  function ToEvent(g: Group<int, Booking>): Event
  {
    Event(Title(g.items), g.key, g.items)
  }

  /** One event per group of the bookings by day is their calendar. */
  lemma GroupsAreCalendar(bookings: seq<Booking>)
    ensures IsCalendarOf(Map(GroupBy(bookings, FirstDay), ToEvent), bookings)
  {
    var gs := GroupBy(bookings, FirstDay);
    GroupByIsGrouping(bookings, FirstDay);
    var events := Map(gs, ToEvent);
    assert forall i :: 0 <= i < |gs| ==> events[i].day == gs[i].key;
    EventsHoldBookings(bookings);
    forall j | 0 <= j < |bookings|
      ensures exists i :: 0 <= i < |events| && events[i].day == FirstDay(bookings[j])
    {
      assert HasKey(gs, FirstDay(bookings[j]));
      var i :| 0 <= i < |gs| && gs[i].key == FirstDay(bookings[j]);
      assert events[i].day == FirstDay(bookings[j]);
    }
  }

  /** A day has an event exactly when some booking's first schedule
      falls on it. */
  lemma EventDaysAreBookingDays(bookings: seq<Booking>, day: int)
    requires AllScheduled(bookings)
    ensures var events := CalendarEvents(bookings).value;
      (exists i :: 0 <= i < |events| && events[i].day == day)
      <==> (exists j :: 0 <= j < |bookings| && FirstDay(bookings[j]) == day)
  {
    CalendarDays(CalendarEvents(bookings).value, bookings, day);
  }

  lemma CalendarDays(events: seq<Event>, bookings: seq<Booking>, day: int)
    requires IsCalendarOf(events, bookings)
    ensures (exists i :: 0 <= i < |events| && events[i].day == day)
      <==> (exists j :: 0 <= j < |bookings| && FirstDay(bookings[j]) == day)
  {
    if exists i :: 0 <= i < |events| && events[i].day == day {
      var i :| 0 <= i < |events| && events[i].day == day;
      assert exists j :: 0 <= j < |bookings| && FirstDay(bookings[j]) == events[i].day;
    }
    if exists j :: 0 <= j < |bookings| && FirstDay(bookings[j]) == day {
      var j :| 0 <= j < |bookings| && FirstDay(bookings[j]) == day;
      assert exists i :: 0 <= i < |events| && events[i].day == FirstDay(bookings[j]);
    }
  }

  /** No event is empty, and every event's day is some booking's day. */
  lemma EventsHoldBookings(bookings: seq<Booking>)
    ensures var events := Map(GroupBy(bookings, FirstDay), ToEvent);
      forall i :: 0 <= i < |events| ==>
        |events[i].bookings| > 0
        && exists j :: 0 <= j < |bookings| && FirstDay(bookings[j]) == events[i].day
  {
    var gs := GroupBy(bookings, FirstDay);
    GroupsFromItems(bookings, FirstDay);
    var events := Map(gs, ToEvent);
    forall i | 0 <= i < |events|
      ensures |events[i].bookings| > 0
      ensures exists j :: 0 <= j < |bookings| && FirstDay(bookings[j]) == events[i].day
    {
      assert events[i] == ToEvent(gs[i]);
      assert ItemHasKey(bookings, FirstDay, gs[i].key);
    }
  }

  /** No booking is lost or repeated across the events: the group sizes
      add up to the number of bookings. */
  lemma EventsCoverBookings(bookings: seq<Booking>)
    requires AllScheduled(bookings)
    ensures GroupsWeight(GroupBy(bookings, FirstDay), One) == |bookings|
  {
    GroupByWeight(bookings, FirstDay, One);
    SumOfOnes(bookings);
  }

  const BookingsPerPage: nat := 5

  /** The booking list's search, sort and page. */
  datatype ListView = ListView(searchCustomer: string, sortDirection: Direction, currentPage: int)

  function InitialList(): ListView { ListView("", Desc, 1) }

  function StartDateOf(b: Booking): int { b.startDate }

  /** `sortedBookings`: the bookings whose customer name contains the
      search text, in start-date order. */
  function Sorted(bookings: seq<Booking>, v: ListView): (r: seq<Booking>)
    ensures multiset(r) == multiset(Filter(bookings, (b: Booking) => ContainsIgnoreCase(b.userName, v.searchCustomer)))
    ensures forall b :: b in r <==> b in bookings && ContainsIgnoreCase(b.userName, v.searchCustomer)
    ensures v.sortDirection == Asc ==> forall i, j :: 0 <= i < j < |r| ==> r[i].startDate <= r[j].startDate
    ensures v.sortDirection == Desc ==> forall i, j :: 0 <= i < j < |r| ==> r[i].startDate >= r[j].startDate
  {
    var kept := Filter(bookings, (b: Booking) => ContainsIgnoreCase(b.userName, v.searchCustomer));
    var r := SortByDir(kept, StartDateOf, v.sortDirection);
    SameMultisetSameMembers(r, kept);
    r
  }

  /** `handleSortDate`. */
  function SortDate(v: ListView): (r: ListView)
    ensures r.sortDirection != v.sortDirection && r.searchCustomer == v.searchCustomer
  {
    v.(sortDirection := v.sortDirection.Toggle())
  }

  /** `currentBookingList`. */
  function CurrentPage(bookings: seq<Booking>, v: ListView): (r: seq<Booking>)
    requires v.currentPage >= 1
    ensures |r| <= BookingsPerPage
    ensures var l := Sorted(bookings, v);
      r == l[Min((v.currentPage - 1) * BookingsPerPage, |l|)..Min(v.currentPage * BookingsPerPage, |l|)]
  {
    Page(Sorted(bookings, v), v.currentPage, BookingsPerPage)
  }

  /** The page count, and that its pages together are the sorted list. */
  lemma PagesCoverList(bookings: seq<Booking>, v: ListView)
    ensures var sorted := Sorted(bookings, v);
      PagesUpTo(sorted, BookingsPerPage, PageCount(|sorted|, BookingsPerPage)) == sorted
  {
    AllPagesReassemble(Sorted(bookings, v), BookingsPerPage);
  }

  /** The assignment dialog's state; `loading` is on while an assignment
      request is in flight. */
  datatype Assign = Assign(
    selectedStylist: Option<User>,
    selectedBooking: Option<Booking>,
    confirmDialog: bool,
    loading: bool)

  /** `updateScheduleUserByUserId({ scheduleUserId, stylistId, bookingId })`. */
  datatype AssignCall = AssignCall(scheduleUserId: int, stylistId: int, bookingId: nat)

  function FirstScheduleId(b: Booking): Option<int>
  {
    if |b.schedules| > 0 then b.schedules[0].scheduleId else None
  }

  /** The first schedule id, the booking id and the stylist's user id are
      all truthy. */
  predicate AssignIsValid(a: Assign)
  {
    && a.selectedBooking.Some?
    && TruthyId(FirstScheduleId(a.selectedBooking.value)).Some?
    && a.selectedBooking.value.bookingId != 0
    && a.selectedStylist.Some? && TruthyId(a.selectedStylist.value.userId).Some?
  }

  /** A click on Confirm: `handleConfirmAssign` up to its `await`. With no
      booking chosen nothing happens. With valid data the request goes out
      and the handler waits with loading on and the booking still chosen.
      With invalid data no request goes out and the handler runs to its end
      at once: loading off, dialog closed, booking released. */
  function SendAssign(a: Assign): (r: (Assign, Option<AssignCall>))
    ensures a.selectedBooking.None? ==> r == (a, None)
    ensures r.1.Some? <==> AssignIsValid(a)
    ensures r.1.Some? ==> r.0 == a.(loading := true)
    ensures r.1.Some? ==>
      && Some(r.1.value.scheduleUserId) == FirstScheduleId(a.selectedBooking.value)
      && Some(r.1.value.stylistId) == a.selectedStylist.value.userId
      && r.1.value.bookingId == a.selectedBooking.value.bookingId
    ensures a.selectedBooking.Some? && r.1.None? ==>
      r.0 == a.(selectedBooking := None, confirmDialog := false, loading := false)
  {
    match a.selectedBooking
    case None => (a, None)
    case Some(b) =>
      var sid := TruthyId(FirstScheduleId(b));
      var uid := if a.selectedStylist.Some? then TruthyId(a.selectedStylist.value.userId) else None;
      if sid.Some? && b.bookingId != 0 && uid.Some? then
        (a.(loading := true), Some(AssignCall(sid.value, uid.value, b.bookingId)))
      else (a.(selectedBooking := None, confirmDialog := false, loading := false), None)
  }

  /** The awaited request settles, whatever its outcome: the rest of the
      handler turns loading off, closes the dialog and releases the
      booking; the stylist stays chosen. */
  function SettleAssign(a: Assign): (r: Assign)
    ensures !r.loading && !r.confirmDialog && r.selectedBooking.None?
    ensures r.selectedStylist == a.selectedStylist
  {
    a.(loading := false, confirmDialog := false, selectedBooking := None)
  }

  /** A confirmation whose request, if any, has settled: the call goes out
      exactly when the data is valid, and either way the booking is
      released, the dialog closed and loading off. With no booking chosen
      nothing happens. */
  function ConfirmAssign(a: Assign): (r: (Assign, Option<AssignCall>))
    ensures a.selectedBooking.None? ==> r == (a, None)
    ensures a.selectedBooking.Some? ==>
      r.0 == a.(selectedBooking := None, confirmDialog := false, loading := false)
    ensures r.1.Some? <==> AssignIsValid(a)
    ensures r.1.Some? ==>
      && Some(r.1.value.scheduleUserId) == FirstScheduleId(a.selectedBooking.value)
      && Some(r.1.value.stylistId) == a.selectedStylist.value.userId
      && r.1.value.bookingId == a.selectedBooking.value.bookingId
  {
    var (sent, call) := SendAssign(a);
    if call.Some? then (SettleAssign(sent), call) else (sent, call)
  }

  /** `handleBookingClick`. */
  function ChooseBooking(a: Assign, b: Booking): (r: Assign)
    ensures r.selectedBooking == Some(b) && r.confirmDialog && r.selectedStylist == a.selectedStylist
  {
    a.(selectedBooking := Some(b), confirmDialog := true)
  }

  /** Once the first confirmation has settled, a second click sends
      nothing: the booking has been released. */
  lemma ConfirmTwiceSendsOnce(a: Assign)
    ensures SendAssign(ConfirmAssign(a).0).1.None?
  {
  }

  /** Nothing blocks Confirm while the request is in flight: a second
      click before the first request settles sends the same request
      again. */
  lemma ConfirmWhilePendingSendsAgain(a: Assign)
    requires AssignIsValid(a)
    ensures SendAssign(SendAssign(a).0).1 == SendAssign(a).1
    ensures SendAssign(SendAssign(a).0).1.Some?
  {
  }

  /** `handleCloseModal`: with the stylist released, the stylist's
      booking list is empty. */
  function CloseStylist(a: Assign): (r: Assign)
    ensures r.selectedStylist.None?
    ensures forall bookings :: StylistBookings(bookings, r.selectedStylist) == []
  {
    a.(selectedStylist := None)
  }
}

=== FILE: user_slice.dfy ===
/** The user list slice: a status tag that moves idle → loading →
    succeeded or failed, the users taken from the reply's `data`, and the
    error. */
module UserSlice {
  import opened Common
  import opened SliceTrace

  datatype Status = Idle | Loading | Succeeded | Failed

  datatype UserState<U, E> = UserState(users: seq<U>, status: Status, error: Option<Failure<E>>)

  /** What ends up in `error`: the rejection's payload, or the text
      `'Something went wrong'` when it has none. */
  datatype Failure<E> = Payload(body: E) | SomethingWentWrong

  function Initial<U, E>(): (r: UserState<U, E>)
    ensures r.status == Idle && |r.users| == 0 && r.error.None?
  {
    UserState([], Idle, None)
  }

  /** The reply body `{ data }` may lack its `data`; a rejection may come
      without a payload. */
  datatype UserAction<U, E> =
    | Pending
    | Fulfilled(data: Option<seq<U>>)
    | Rejected(payload: Option<E>)

  function Reduce<U, E>(s: UserState<U, E>, a: UserAction<U, E>): (r: UserState<U, E>)
    ensures a.Pending? ==> r == s.(status := Loading, error := None)
    ensures a.Fulfilled? ==> r.status == Succeeded && r.error == s.error
    ensures a.Fulfilled? && a.data.Some? ==> r.users == a.data.value
    ensures a.Fulfilled? && a.data.None? ==> r.users == []
    ensures a.Rejected? ==> r.users == s.users && r.status == Failed
    ensures a.Rejected? && a.payload.Some? ==> r.error == Some(Payload(a.payload.value))
    ensures a.Rejected? && a.payload.None? ==> r.error == Some(SomethingWentWrong)
  {
    match a
    case Pending => s.(status := Loading, error := None)
    case Fulfilled(data) => s.(status := Succeeded, users := data.GetOr([]))
    case Rejected(payload) =>
      var failure := if payload.Some? then Payload(payload.value) else SomethingWentWrong;
      s.(status := Failed, error := Some(failure))
  }

  function StatusWrite<U, E>(a: UserAction<U, E>): Option<Status>
  {
    match a
    case Pending => Some(Loading)
    case Fulfilled(_) => Some(Succeeded)
    case Rejected(_) => Some(Failed)
  }

  /** The tag names the outcome of the last call: loading while it is
      pending, then succeeded or failed. */
  lemma RunStatus<U(!new), E(!new)>(s: UserState<U, E>, acts: seq<UserAction<U, E>>)
    ensures Run(s, acts, Reduce).status == LastWrite(s.status, Map(acts, StatusWrite))
  {
    RunField(s, acts, Reduce, (st: UserState<U, E>) => st.status, StatusWrite);
  }

  /** The tag and the error agree: there is an error exactly when the tag
      says failed. */
  predicate Coherent<U, E>(s: UserState<U, E>)
  {
    (s.status == Failed <==> s.error.Some?)
  }

  /** The order the actions of one call at a time arrive in: a
      fulfilment comes while the slice is loading. */
  predicate Admissible<U, E>(s: UserState<U, E>, a: UserAction<U, E>)
  {
    a.Fulfilled? ==> s.status == Loading
  }

  /** Every action of `acts` is admissible where it arrives. */
  predicate Trace<U, E>(s: UserState<U, E>, acts: seq<UserAction<U, E>>)
    decreases |acts|
  {
    |acts| == 0 || (Admissible(s, acts[0]) && Trace(Reduce(s, acts[0]), acts[1..]))
  }

  /** Starting from the initial state, every admissible run keeps the tag
      and the error coherent. */
  lemma {:induction false} RunCoherent<U, E>(s: UserState<U, E>, acts: seq<UserAction<U, E>>)
    requires Coherent(s) && Trace(s, acts)
    ensures Coherent(Run(s, acts, Reduce))
    decreases |acts|
  {
    if |acts| > 0 {
      RunCoherent(Reduce(s, acts[0]), acts[1..]);
    }
  }

  lemma InitialCoherent<U, E>()
    ensures Coherent(Initial<U, E>())
  {
  }
}
